=== FILE: README.md ===
# Attendance and HR system: a verified model

The AfraExpress attendance system has two parts. A React client keeps
employees, attendance records, shifts, salary structures, payroll runs and
user accounts. It marks check-ins and check-outs, by hand or by a
(simulated) fingerprint scan, and derives dashboards and reports from these
lists. A small Node server handles sign-up and sign-in against an employee
collection.

This project models the core of both parts in Dafny. The core is:

- the two attendance stores (the in-memory `AdminContext` and the API-backed `LaravelAdminContext`);
- the HTTP client;
- the pages that compute figures, filters and state changes from the stores;
- the mock data service;
- the `useApi` hook;
- the server's `enroll` and `login` handlers.

Each part becomes one module, written in the form its source has:

- Stores, pages with handlers, the HTTP client, the hook and the server's employee collection are classes. Their methods update fields, and each method's `ensures` ties the new state to a specification function.
- Derived figures, filters and record builders are functions. Lemmas prove properties of them: invariants preserved, partitions, round trips and agreement between pages.

Inputs that come from outside the program are parameters. These are the clock (`today`, `now`, `Date.now()`), server replies, exceptions, `localStorage` contents and the user's role as the login page sees it.

Representation choices:

- A time of day is a `Minute` (0..1439) instead of an `HH:MM` string. `Shifts.ClockOrder` proves that comparing zero-padded `HH:MM` strings is the same as comparing these numbers.
- A date is a `YYYY-MM-DD` string, and comparing two dates is comparing the strings.
- The modelled JavaScript behaviour is written out explicitly:
  - a falsy empty string;
  - `slice(-n)` and `slice(0, n)`;
  - division by zero (`Common.JsNumber`);
  - ECMAScript white space in `trim()`;
  - ASCII lower-casing in searches;
  - the `application/x-www-form-urlencoded` serializer of section 5.2 of the WHATWG URL Standard.
- The server's status codes are those of section 15 of RFC 9110.

## Model

| member | source | states |
|---|---|---|
| AdminStore.HoursBetween | client/src/contexts/AdminContext.tsx:188-190 | working hours are the minute difference over 60, negative exactly when the check-out is earlier |
| AdminStore.CheckedOut | client/src/contexts/AdminContext.tsx:184-193 | a check-out (over)writes the check-out time, recomputes the hours only when a check-in exists, and keeps every other field |
| AdminStore.MarkAttendanceSpec | client/src/contexts/AdminContext.tsx:165-210 | unknown employee: list unchanged; first check-in of the day appends exactly one present record; check-out with no record and a repeated check-in change nothing; a check-out keeps length and order and changes only the records carrying the found record's id |
| AdminStore.MarkAttendancePreservesOneRecordPerDay | client/src/contexts/AdminContext.tsx:176-209 | marking attendance never creates a second record for an (employee, date) pair |
| AdminStore.ApplyPatch | client/src/contexts/AdminContext.tsx:155-157 | `{...emp, ...patch}`: each of the eight fields takes the patch value when supplied and keeps the old value otherwise |
| AdminStore.EmptyPatchIsIdentity | client/src/contexts/AdminContext.tsx:154-158 | updating with an empty patch leaves the employee unchanged |
| AdminStore.DeleteRemovesExactlyTheEmployeesRecords | client/src/contexts/AdminContext.tsx:162 | the cascade removes exactly the employee's records, keeps the rest in order, and the kept and removed counts add up to the list length |
| AdminStore.FilterPreservesOneRecordPerDay | client/src/contexts/AdminContext.tsx:160-163 | removing records keeps the one-record-per-day invariant |
| AdminStore.AdminContext.constructor | client/src/contexts/AdminContext.tsx:56-108 | no user, three employees, two present records dated today |
| AdminStore.AdminContext.RestoreSession | client/src/contexts/AdminContext.tsx:110-121 | a stored login flag and e-mail restore the admin user; otherwise nothing changes |
| AdminStore.AdminContext.Login | client/src/contexts/AdminContext.tsx:123-137 | succeeds iff the hard-coded admin credentials match; then the admin user and the two storage keys are set, otherwise nothing changes |
| AdminStore.AdminContext.Logout | client/src/contexts/AdminContext.tsx:139-144 | the user is cleared and exactly the three storage keys are removed |
| AdminStore.AdminContext.AddEmployee | client/src/contexts/AdminContext.tsx:146-152 | appends the employee under the fresh id; records untouched |
| AdminStore.AdminContext.UpdateEmployee | client/src/contexts/AdminContext.tsx:154-158 | same length; employees with the id are patched, the others unchanged |
| AdminStore.AdminContext.DeleteEmployee | client/src/contexts/AdminContext.tsx:160-163 | the employee and every record of theirs are removed, the invariant is kept |
| AdminStore.AdminContext.MarkAttendance | client/src/contexts/AdminContext.tsx:165-210 | the record list becomes `MarkAttendanceSpec` of the old one, and the invariant is kept |
| Api.Normalize | client/src/services/api.ts:84-116 | success iff the fetch answered `ok`; a failure carries the body's message or "Request failed"; a network error carries "Network error occurred"; success carries `data.data` or else the whole body |
| Api.NormalizeSuccessCarriesData | client/src/services/api.ts:96-115 | every normalised success has data and every failure has a non-empty message |
| Api.HeadersFor | client/src/services/api.ts:71-82 | the two JSON headers come first; an Authorization header is present iff the token is truthy, and then it is `Bearer <token>` |
| Api.ApiClient.constructor | client/src/services/api.ts:56-59 | the client starts with the stored token |
| Api.ApiClient.SetToken | client/src/services/api.ts:61-64 | the token and its stored copy both become the new token |
| Api.ApiClient.ClearToken | client/src/services/api.ts:66-69 | the token and its stored copy are both removed |
| Api.ApiClient.Headers | client/src/services/api.ts:71-82 | the headers follow the current token |
| Api.ApiClient.Logout | client/src/services/api.ts:126-132 | whatever the server answers, the token is cleared, and the normalised answer is returned |
| Api.Utf8Char | client/src/services/api.ts:165-170 | the UTF-8 form of a character (section 3 of RFC 3629): its length is fixed by the code-point range; the lead byte carries the range marker and the other bytes are continuation bytes; together they reconstruct the code point |
| Api.Utf8Append | client/src/services/api.ts:165-170 | UTF-8 encoding distributes over concatenation |
| Api.EncodeByte | client/src/services/api.ts:165-170 | one byte serializes to one or three ASCII characters, never to `&` or `=` |
| Api.EncodeBytes | client/src/services/api.ts:165-170 | a serialized byte string is ASCII, free of `&` and `=`, and no shorter than its bytes |
| Api.DecodeEncodedByte | client/src/services/api.ts:165-170 | decoding a serialized byte gives that byte back, whatever follows |
| Api.FormRoundTrip | client/src/services/api.ts:165-170 | decoding serialized bytes gives back exactly those bytes |
| Api.SerializeParams | client/src/services/api.ts:170 | the query string is empty iff there are no parameters, and has a separator iff there are two or more |
| Api.QueryRoundTrip | client/src/services/api.ts:165-170 | parsing the serialized query (section 5.1 of the WHATWG URL Standard) gives back the UTF-8 forms of the appended names and values, in append order |
| Api.AttendanceParams | client/src/services/api.ts:165-168 | each filter becomes a parameter iff it is non-empty; the parameters keep the order employee_id, date_from, date_to; no value is empty; at most three parameters |
| Api.AttendanceEndpoint | client/src/services/api.ts:170-171 | the bare `/attendance` path iff no filter is supplied, otherwise the path with the query string |
| Api.AttendanceQueryParses | client/src/services/api.ts:165-171 | the endpoint's query string parses back to exactly the supplied filters, in order |
| Api.ReportParams | client/src/services/api.ts:214-217 | exactly the entries with a non-empty value become parameters, in entry order and with their multiplicity (a subsequence of the entries, as long as the count of non-empty values) |
| Api.ReportEndpoint | client/src/services/api.ts:214-219 | the report path and `?` followed by the serialized report parameters; nothing follows the `?` iff every value is empty |
| Api.ReportQueryParses | client/src/services/api.ts:214-219 | the report query string parses back to exactly the entries with a value, in entry order |
| LaravelStore.MockLogin | client/src/contexts/LaravelAdminContext.tsx:80-101 | a login matches iff it is one of the three mock credential pairs, and yields that mock user |
| LaravelStore.MockRecords | client/src/contexts/LaravelAdminContext.tsx:454-471 | the fallback list has two records dated today with distinct ids and one record per day |
| LaravelStore.ApplyPatch | client/src/contexts/LaravelAdminContext.tsx:374-376 | `{...emp, ...patch}`: each of the eight fields takes the patch value when supplied and keeps the old value otherwise; an empty patch changes nothing |
| LaravelStore.RefreshedEmployees | client/src/contexts/LaravelAdminContext.tsx:274-298 | on a successful reply with data, the list becomes the server list in order, each entry with its status defaulted; otherwise the list is unchanged |
| LaravelStore.WithStatus | client/src/contexts/LaravelAdminContext.tsx:282-285 | every field is kept, and the status is the server's status or "active" when it is missing |
| LaravelStore.RefreshedRecords | client/src/contexts/LaravelAdminContext.tsx:442-499 | the server's list, or the two mock records on failure or exception |
| LaravelStore.ServerMerge | client/src/contexts/LaravelAdminContext.tsx:505-520 | the server's record replaces the records with the found record's id, or is appended when today has none |
| LaravelStore.Stamped | client/src/contexts/LaravelAdminContext.tsx:586-593 | the event's time is overwritten and every other field is kept |
| LaravelStore.LocalFallback | client/src/contexts/LaravelAdminContext.tsx:530-597 | on failure, the event is stamped onto today's record, or a fresh record with only that event's time is appended |
| LaravelStore.AppendFreshPairPreservesOneRecordPerDay | client/src/contexts/LaravelAdminContext.tsx:518 | appending a record for an (employee, date) pair without one keeps the invariant |
| LaravelStore.LocalFallbackPreservesOneRecordPerDay | client/src/contexts/LaravelAdminContext.tsx:567-597 | the local fallback keeps one record per (employee, date) |
| LaravelStore.ServerMergePreservesOneRecordPerDay | client/src/contexts/LaravelAdminContext.tsx:507-520 | the server merge keeps the invariant when the server's record is the employee's record for today and record ids are unique |
| LaravelStore.ServerMergeCanBreakOneRecordPerDay | client/src/contexts/LaravelAdminContext.tsx:507-520 | a server record for another employee or date yields two records for one (employee, date) pair |
| LaravelStore.AtMostOneRecordPerEmployeeAndDay | client/src/contexts/LaravelAdminContext.tsx:614-619 | under the invariant, `getAttendanceByEmployee` finds at most one record |
| LaravelStore.LaravelAdminContext.constructor | client/src/contexts/LaravelAdminContext.tsx:103-142 | signed out, the three default employees, no records, nothing loading |
| LaravelStore.LaravelAdminContext.RefreshEmployees | client/src/contexts/LaravelAdminContext.tsx:274-298 | employees become `RefreshedEmployees`, and loading is cleared |
| LaravelStore.LaravelAdminContext.RefreshAttendance | client/src/contexts/LaravelAdminContext.tsx:442-499 | records become `RefreshedRecords`, and loading is cleared |
| LaravelStore.LaravelAdminContext.RestoreSession | client/src/contexts/LaravelAdminContext.tsx:145-168 | a token plus a parseable saved user restore the session and load both lists, clearing their loading flags; an unparseable user removes both stored entries and leaves everything else as it was; otherwise nothing changes |
| LaravelStore.LaravelAdminContext.Login | client/src/contexts/LaravelAdminContext.tsx:171-250 | succeeds iff the mock credentials match or the server delivers; the mock user or the server's user is stored with its token and both lists are loaded, clearing their loading flags; a failure changes nothing in the session, the lists or their loading flags; the auth loading flag is cleared |
| LaravelStore.LaravelAdminContext.Logout | client/src/contexts/LaravelAdminContext.tsx:252-271 | whatever the server answers, the session, the token, the saved user and both lists are cleared |
| LaravelStore.LaravelAdminContext.AddEmployee | client/src/contexts/LaravelAdminContext.tsx:300-351 | always reports success and appends one employee: the server's, or the local one under the fresh id |
| LaravelStore.LaravelAdminContext.UpdateEmployee | client/src/contexts/LaravelAdminContext.tsx:353-400 | always reports success; employees with the id become the server's version or the patched one, and the others are unchanged |
| LaravelStore.LaravelAdminContext.DeleteEmployee | client/src/contexts/LaravelAdminContext.tsx:402-439 | always reports success and removes exactly the employees with the id |
| LaravelStore.LaravelAdminContext.MarkAttendance | client/src/contexts/LaravelAdminContext.tsx:501-607 | always reports success; the records become `ServerMerge` when the server delivers and `LocalFallback` otherwise |
| LaravelStore.LaravelAdminContext.GetEmployeeById | client/src/contexts/LaravelAdminContext.tsx:610-612 | the first employee with that id, or none exactly when no employee has it |
| LaravelStore.LaravelAdminContext.GetAttendanceByEmployee | client/src/contexts/LaravelAdminContext.tsx:614-619 | exactly the employee's records for the date, in list order, where an empty date means today |
| Reports.RecordsInRange | client/src/pages/Reports.tsx:58-61 | exactly the records whose date lies between the bounds |
| Reports.RangeIsInclusive | client/src/pages/Reports.tsx:58-61 | records dated on either bound are kept, in the original order |
| Reports.AverageHours | client/src/pages/Reports.tsx:98-100 | the mean of the truthy working hours, or 0 when none has any |
| Reports.SummaryRate | client/src/pages/Reports.tsx:110 | 0 for an empty total; otherwise the rate times the total is the present count times 100 |
| Reports.SummaryReport | client/src/pages/Reports.tsx:92-114 | total and per-status counts over all records; the rate is `SummaryRate` of present and total; the average hours |
| Reports.SummaryCountsBounded | client/src/pages/Reports.tsx:93-96 | present plus absent plus late never exceeds the total |
| Reports.GroupOfCounts | client/src/pages/Reports.tsx:139-157 | a group holds the status counts, size and truthy-hours sum of its records, and the first record's name |
| Reports.GroupCountsAddUp | client/src/pages/Reports.tsx:117-125 | without half-day records a group's three counters sum to its total |
| Reports.KeyGroupIsFilter | client/src/pages/Reports.tsx:117-125 | a key's group is the order-preserving filter of the records by that key |
| Reports.GroupBy | client/src/pages/Reports.tsx:117-125 | the reduce: the keys are those of the records, deduplicated in order of first appearance; each entry is the group of its key's records; the totals sum to the record count |
| Reports.MonthKey | client/src/pages/Reports.tsx:172 | the key is the first seven characters of the date |
| Reports.SameMonthSameGroup | client/src/pages/Reports.tsx:170-179 | records of the same month share a group |
| Reports.GroupRate | client/src/pages/Reports.tsx:133 | rate × total = present × 100; so the rate lies in 0..100 when present ≤ total, is 0 iff none is present, and is 100 when all are |
| Reports.EmployeeAverageHours | client/src/pages/Reports.tsx:165 | hours over present days; with no present day, 0 for no hours, Infinity for positive hours and -Infinity for negative hours |
| Dashboard.TodayAttendance | client/src/pages/Dashboard.tsx:63 | exactly the records dated today |
| Dashboard.CountsFor | client/src/pages/Dashboard.tsx:62-66 | present and late count today's records with those statuses; present plus absent is the employee count |
| Dashboard.PresentAndLateAreDisjoint | client/src/pages/Dashboard.tsx:64-66 | present plus late never exceeds today's records |
| Dashboard.AbsentCanBeNegative | client/src/pages/Dashboard.tsx:65 | one present record and no employees show -1 absent |
| Dashboard.AttendanceRate | client/src/pages/Dashboard.tsx:114 | present over employees times 100, 0 with no employees, within 0..100 when present ≤ employees |
| Dashboard.EmployeeName | client/src/pages/Dashboard.tsx:104-106 | the name of the first employee with the id, or "Unknown Employee" when that name is empty or no employee matches |
| Dashboard.ActivityOf | client/src/pages/Dashboard.tsx:105-111 | "checked out" iff there is a check-out; shows the check-out else the check-in; the tone follows the status |
| Dashboard.RecentActivities | client/src/pages/Dashboard.tsx:103-112 | the last n records in order, each shown by `ActivityOf` |
| Dashboard.RecentActions | client/src/pages/Dashboard.tsx:107 | each recent activity reads "checked out" exactly when its record has a check-out |
| ManagerPortal.Redirect | client/src/pages/ManagerPortal.tsx:32-35 | stays iff a manager is signed in, otherwise goes to /login |
| ManagerPortal.PresentShare | client/src/pages/ManagerPortal.tsx:75 | present over employees times 100; NaN or Infinity with no employees |
| ManagerPortal.TeamOverview | client/src/pages/ManagerPortal.tsx:232-247 | the first five employees, each present iff a record of theirs is dated today |
| ManagerPortal.RecentTeamActivities | client/src/pages/ManagerPortal.tsx:272-284 | at most six activities, six when there are enough, "checked out" iff the record has a check-out |
| EmployeePortal.TodayRecord | client/src/pages/EmployeePortal.tsx:81-84 | the user's first record of today, or none iff there is none |
| EmployeePortal.Tenths | client/src/pages/EmployeePortal.tsx:89-91 | the minutes rounded to the nearest tenth of an hour, halves up |
| EmployeePortal.HoursToday | client/src/pages/EmployeePortal.tsx:88-91 | hours are shown iff today's record has both times |
| EmployeePortal.TenthsIsNearest | client/src/pages/EmployeePortal.tsx:89-91 | rounding is exact on multiples of six minutes and keeps the sign |
| EmployeePortal.ButtonsExclusive | client/src/pages/EmployeePortal.tsx:189-197 | the two buttons are never enabled together, and neither while a request is pending |
| EmployeePortal.RecentActivity | client/src/pages/EmployeePortal.tsx:119-130 | the rows of the user's last five records, in list order (all of them when there are fewer), with hours 0 unless both times exist |
| EmployeePortal.UserRecords | client/src/pages/EmployeePortal.tsx:119-120 | exactly the records of the user, in list order |
| EmployeePortal.EmployeePortalPage.constructor | client/src/pages/EmployeePortal.tsx:53-56 | the page starts not checking in |
| EmployeePortal.EmployeePortalPage.HandleAttendance | client/src/pages/EmployeePortal.tsx:53-74 | without a user id nothing happens; otherwise the store marks the event and the pending flag is cleared |
| AttendanceWidget.TodayRecordOf | client/src/components/AttendanceWidget.tsx:11-14 | the employee's first record among today's |
| AttendanceWidget.EmployeeStatus | client/src/components/AttendanceWidget.tsx:13-19 | absent with no record; completed iff there is a check-out; present iff check-in only |
| AttendanceWidget.OfferFor | client/src/components/AttendanceWidget.tsx:53-89 | check-in iff absent, check-out iff present, nothing iff completed |
| AttendanceWidget.Rows | client/src/components/AttendanceWidget.tsx:39-40 | the first five employees with their status |
| AttendanceWidget.FallbackStampsTodayRecord | client/src/components/AttendanceWidget.tsx:21-27 | the local fallback stamps the record the widget looks at |
| AttendanceWidget.OfferedActionAdvancesStatus | client/src/components/AttendanceWidget.tsx:53-89 | taking the offered action (local fallback) moves absent to present and present to completed |
| AttendancePage.TodayRecords | client/src/pages/AttendancePage.tsx:94-100 | exactly the log entries dated today whose name or ID contains the query, ignoring case |
| AttendancePage.EmptySearchKeepsAllOfToday | client/src/pages/AttendancePage.tsx:94-100 | an empty query shows every entry of today, in log order |
| AttendancePage.PrependedEntryLeadsTheView | client/src/pages/AttendancePage.tsx:58-59 | a newly prepended entry heads today's view when it is shown |
| AttendancePage.AttendancePage.constructor | client/src/pages/AttendancePage.tsx:24-25 | a missing stored log reads as empty; both inputs are empty |
| AttendancePage.AttendancePage.HandleManualEntry | client/src/pages/AttendancePage.tsx:63-92 | records iff the trimmed ID is non-empty; then one entry is prepended and the input cleared, otherwise nothing changes |
| AttendancePage.AttendancePage.HandleFingerprintScan | client/src/pages/AttendancePage.tsx:36-61 | the fixed John Doe check-in is prepended |
| Shifts.Span | client/src/pages/ShiftsManagement.tsx:147-161 | minutes from start to end, wrapping past midnight, between 1 and 1440, landing on the end time |
| Shifts.WorkingHours | client/src/pages/ShiftsManagement.tsx:147-161 | the span less the break in hours, at most 24, negative iff the break exceeds the span |
| Shifts.Clock | client/src/pages/ShiftsManagement.tsx:23-34 | a time is the five-character zero-padded `HH:MM` |
| Shifts.ClockOrder | client/src/pages/ShiftsManagement.tsx:325 | comparing `HH:MM` strings orders times as numbers |
| Shifts.OvernightLabel | client/src/pages/ShiftsManagement.tsx:325 | labelled overnight iff the start is later than the end |
| Shifts.EqualTimesLabelledRegularButSpanADay | client/src/pages/ShiftsManagement.tsx:147-161 | equal start and end times give a regular label but a 24-hour span |
| Shifts.FilteredShifts | client/src/pages/ShiftsManagement.tsx:108-117 | exactly the shifts whose name contains the term and whose status matches, in order |
| Shifts.DefaultFilterListsAll | client/src/pages/ShiftsManagement.tsx:108-117 | the default filters list every shift |
| Shifts.ActiveAndInactivePartition | client/src/pages/ShiftsManagement.tsx:112-114 | the active and inactive views split the shifts matching a search |
| Shifts.AssignedUsers | client/src/pages/ShiftsManagement.tsx:261 | the assigned-users total is non-negative, 0 for no shifts |
| Shifts.AssignedUsersAdditive | client/src/pages/ShiftsManagement.tsx:261 | the total of two lists is the sum of their totals |
| Shifts.AssignedUsersSingleton | client/src/pages/ShiftsManagement.tsx:261 | one shift contributes exactly its own assigned users; with additivity this fixes the total as the sum over all shifts |
| Shifts.FilteredAssignedAtMostTotal | client/src/pages/ShiftsManagement.tsx:108-117 | the listed shifts never carry more staff than the card's total |
| Salary.AllowanceTotal | client/src/pages/SalaryManagement.tsx:182 | summing the allowance values adds the five allowances |
| Salary.DeductionTotal | client/src/pages/SalaryManagement.tsx:188 | summing the deduction values adds the four deductions |
| Salary.GrossSalary | client/src/pages/SalaryManagement.tsx:181-184 | gross is basic plus the five allowances |
| Salary.NetSalary | client/src/pages/SalaryManagement.tsx:186-190 | net is gross less the four deductions |
| Salary.NetAtMostGross | client/src/pages/SalaryManagement.tsx:186-190 | with no negative deduction net ≤ gross, equal with no deductions |
| Salary.AllowanceRaiseReachesNet | client/src/pages/SalaryManagement.tsx:181-190 | raising any one of the five allowances raises net by the same amount |
| Salary.TotalPayrollIsGrossLessDeductions | client/src/pages/SalaryManagement.tsx:300 | the payroll card is the gross total less the deductions total |
| Salary.AverageGross | client/src/pages/SalaryManagement.tsx:285 | the gross total over the count, NaN with no structures |
| Salary.BonusEligibleCount | client/src/pages/SalaryManagement.tsx:314 | the number of bonus-eligible structures (`Count` of the filter); at most the number of structures, equal iff every structure is eligible |
| Salary.FilteredSalaries | client/src/pages/SalaryManagement.tsx:151-161 | exactly the structures whose name or employee ID contains the term and whose status matches, in order |
| Payroll.StatusName | client/src/pages/PayrollManagement.tsx:42 | the four status spellings |
| Payroll.StatusNamesDistinct | client/src/pages/PayrollManagement.tsx:128 | distinct statuses have distinct names |
| Payroll.TotalPaid | client/src/pages/PayrollManagement.tsx:294-298 | the net pay of the paid records |
| Payroll.Pending | client/src/pages/PayrollManagement.tsx:311-315 | the net pay of the processed and draft records |
| Payroll.CardsPartitionNetPay | client/src/pages/PayrollManagement.tsx:294-315 | paid plus pending plus cancelled net pay is all net pay |
| Payroll.DisplayedHours | client/src/pages/PayrollManagement.tsx:392 | regular plus overtime hours |
| Payroll.ActionsFor | client/src/pages/PayrollManagement.tsx:442-452 | process iff draft, mark-paid iff processed, never both |
| Payroll.FilteredPayroll | client/src/pages/PayrollManagement.tsx:131-142 | exactly the records passing search, status and month, in order |
| Payroll.DefaultFilterListsAll | client/src/pages/PayrollManagement.tsx:131-142 | the default filters list every record |
| Payroll.StatusSelectionIsExact | client/src/pages/PayrollManagement.tsx:136-137 | a status selection keeps exactly the records with that status among the others' matches |
| Users.RoleName | client/src/pages/UsersManagement.tsx:28 | the four role spellings |
| Users.FilteredUsers | client/src/pages/UsersManagement.tsx:138-152 | exactly the users passing search, role and status, in order |
| Users.DefaultFilterListsAll | client/src/pages/UsersManagement.tsx:138-152 | the default filters list every user |
| Users.Counts | client/src/pages/UsersManagement.tsx:288-314 | active plus inactive is the user count; admins at most the count |
| Users.ToggleFor | client/src/pages/UsersManagement.tsx:403-405 | deactivate iff active, activate iff inactive |
| Common.Dedup | client/src/pages/EmployeeManagement.tsx:33 | every value once, the same values, in order of first appearance |
| EmployeeManagement.DistinctCardinality | client/src/pages/EmployeeManagement.tsx:160 | a list without repeats has as many values as elements |
| EmployeeManagement.Departments | client/src/pages/EmployeeManagement.tsx:33 | "all" followed by the employee departments deduplicated in order of first appearance, so each appears exactly once |
| EmployeeManagement.DepartmentsStat | client/src/pages/EmployeeManagement.tsx:160 | the card is the number of distinct departments |
| EmployeeManagement.FilteredEmployees | client/src/pages/EmployeeManagement.tsx:35-41 | exactly the employees passing search and department, in order |
| EmployeeManagement.DepartmentSelection | client/src/pages/EmployeeManagement.tsx:39-40 | with an empty search a department lists exactly its staff |
| EmployeeManagement.ActiveCount | client/src/pages/EmployeeManagement.tsx:147 | the active count plus the inactive count is the employee count |
| EmployeeSearch.Search | client/src/components/EmployeeSearch.tsx:12-16 | exactly the employees whose name, e-mail or department contains the term, in order |
| EmployeeSearch.EmptyTermMatchesAll | client/src/components/EmployeeSearch.tsx:12-16 | the empty term matches every employee |
| EmployeeSearch.DisplayFor | client/src/components/EmployeeSearch.tsx:38-64 | nothing for an empty term; "no employees found" iff there is a term and no match; otherwise the matches |
| EmployeeSearch.AgreesWithEmployeePage | client/src/components/EmployeeSearch.tsx:12-16 | the box finds what the employee page finds with all departments |
| Signup.Validate | client/src/pages/Signup.tsx:129-167 | each error iff its check is the first to fail; accepted iff all pass |
| Signup.TermsAreCheckedLast | client/src/pages/Signup.tsx:159-167 | a form failing only on the terms passes once they are agreed |
| Signup.SignupPage.constructor | client/src/pages/Signup.tsx:185 | a missing stored list reads as empty |
| Signup.SignupPage.HandleSubmit | client/src/pages/Signup.tsx:124-198 | the error is `Validate`; a rejected form stores nothing; an accepted one appends exactly one user; loading ends |
| EmployeeForm.ValidateForm | client/src/components/EmployeeForm.tsx:69-85 | passes iff every required field is filled and the terms are accepted |
| EmployeeForm.OptionalFieldsAreOptional | client/src/components/EmployeeForm.tsx:69-85 | address, salary, employment type and emergency contact do not affect validity |
| EmployeeForm.Decimal | client/src/components/EmployeeForm.tsx:106 | `toString()` of a number is a non-empty string of digits that starts with 0 only for 0 itself |
| EmployeeForm.DecimalRoundTrip | client/src/components/EmployeeForm.tsx:106 | reading the decimal text back gives the number |
| EmployeeForm.EmployeeId | client/src/components/EmployeeForm.tsx:106 | "AE" followed by the last six digits of the clock (all of them when there are fewer), so exactly six once the clock has six digits; they denote the clock modulo one million |
| EmployeeForm.LastDigitsValue | client/src/components/EmployeeForm.tsx:106 | the last `k` decimal digits of a number denote it modulo 10^k |
| EmployeeForm.IdsRepeat | client/src/components/EmployeeForm.tsx:106 | ids of registrations a multiple of 10^6 ms apart coincide |
| EmployeeForm.EmployeeFormPage.constructor | client/src/components/EmployeeForm.tsx:30-45 | the default form, not loading, the stored list or empty |
| EmployeeForm.EmployeeFormPage.HandleSubmit | client/src/components/EmployeeForm.tsx:87-150 | an incomplete form changes nothing; a complete one appends exactly one active employee under the time-based id and resets the form |
| LoginPage.RouteFor | client/src/pages/Login.tsx:91-100 | managers to the manager portal, employees to the employee portal, everyone else to the dashboard |
| LoginPage.Decide | client/src/pages/Login.tsx:54-101 | empty fields first, then a missing service, then the login result; a success routes by role |
| LoginPage.LoginCalledOnlyPastChecks | client/src/pages/Login.tsx:54-77 | the store's login is called iff both fields are filled and the service exists |
| LoginPage.LoginPageState.constructor | client/src/pages/Login.tsx:35-36 | not loading, nothing navigated |
| LoginPage.LoginPageState.HandleSubmit | client/src/pages/Login.tsx:49-112 | the outcome is `Decide`; remember-me is stored only after a successful login with the box ticked; navigation only on success; loading ends |
| DatabaseService.MarkAttendance | client/src/services/database.ts:124-143 | check-in time set iff check-in, check-out time set iff check-out; status present; zero totals; the clock as id and timestamps |
| DatabaseService.CreateEmployee | client/src/services/database.ts:69-77 | every supplied field is kept; the id and both timestamps come from the clock |
| DatabaseService.CreatedIdsFollowTheClock | client/src/services/database.ts:72 | two created employees share an id iff they were created at the same millisecond |
| DatabaseService.ForEmployee | client/src/services/database.ts:202 | an empty id selects everything; otherwise exactly that employee's items, in order |
| DatabaseService.GetSalaryStructures | client/src/services/database.ts:180-203 | all the mock structures for an empty id, otherwise exactly the employee's; each has consistent gross and net figures |
| DatabaseService.GetEmployeeAttendanceSummary | client/src/services/database.ts:272-299 | the mock summaries, all or exactly the employee's; present plus absent days equals the records in each |
| DatabaseService.ProcessPayroll | client/src/services/database.ts:240-267 | one draft run per id, in order, over the given period, each with its own clock reading as id prefix and timestamps, and consistent amounts |
| DatabaseService.ProcessPayrollAppend | client/src/services/database.ts:240-267 | processing two batches together, with their clock readings, gives both batches' runs one after the other |
| DatabaseService.RepeatedIdsCollide | client/src/services/database.ts:242-244 | an id requested twice yields two runs with the same id exactly when both callbacks read the clock in the same millisecond |
| UseApi.Initial | client/src/hooks/useApi.ts:18-22 | no data, not loading, no error |
| UseApi.Started | client/src/hooks/useApi.ts:27 | starting sets loading, clears the error and keeps the data |
| UseApi.ErrorMessage | client/src/hooks/useApi.ts:40-55 | the response's message or "Operation failed"; the exception's message or "Unknown error occurred" |
| UseApi.Settled | client/src/hooks/useApi.ts:32-67 | never loading; data iff success with data; otherwise the error message and no data |
| UseApi.Result | client/src/hooks/useApi.ts:32-67 | the data iff success with data, otherwise null |
| UseApi.FailureAlwaysReported | client/src/hooks/useApi.ts:39-52 | the error is cleared iff the call succeeded, and a returned failure always has a non-empty message |
| UseApi.ApiHook.constructor | client/src/hooks/useApi.ts:18-22 | the hook starts in the initial state |
| UseApi.ApiHook.Begin | client/src/hooks/useApi.ts:27 | the state becomes `Started` of the old one |
| UseApi.ApiHook.Finish | client/src/hooks/useApi.ts:30-68 | the state becomes `Settled` and the result is `Result` |
| UseApi.ApiHook.Execute | client/src/hooks/useApi.ts:25-71 | after every execute, the state is `Settled` and loading is false |
| UseApi.ApiHook.Reset | client/src/hooks/useApi.ts:73-79 | back to the initial state |
| AuthController.Public | server/controllers/auth.controller.js:29-34 | the reply describes the employee by id, name, e-mail and role, without the password |
| AuthController.EnrollResponse | server/controllers/auth.controller.js:6-39 | 400 iff a field is missing; 409 iff the e-mail is taken; 201 iff new with a valid role; 500 otherwise; an employee in the body iff 201 |
| AuthController.Enrolled | server/controllers/auth.controller.js:19-25 | exactly one employee is added iff the reply is 201; otherwise the collection is unchanged |
| AuthController.FindByEmailAndRole | server/controllers/auth.controller.js:50 | the employee with that e-mail, iff it has that role |
| AuthController.LoginResponse | server/controllers/auth.controller.js:42-69 | 400 iff a field is missing; 500 on a store error; 401 iff no such (e-mail, role) or a wrong password; 200 with the public employee otherwise |
| AuthController.EnrollThenLogin | server/controllers/auth.controller.js:6-69 | whoever has just enrolled can sign in with the same credentials and is described the same way |
| AuthController.EnrollTwiceConflicts | server/controllers/auth.controller.js:14-17 | a second enrolment with the same e-mail gets 409 |
| AuthController.EmployeeStore.constructor | server/models/employee.model.js:3-12 | the collection starts empty |
| AuthController.EmployeeStore.Enroll | server/controllers/auth.controller.js:6-39 | the reply is `EnrollResponse` and the collection becomes `Enrolled` |
| AuthController.EmployeeStore.Login | server/controllers/auth.controller.js:42-69 | the reply is `LoginResponse`, and the collection is not modified |

## Left out

- Floating-point formatting (`toFixed`, currency formatting) and binary floating point: attendance and shift hours and the report rates are exact reals or tenths. Payroll hours (`Payroll.PayrollRecord`), the overtime rate (`Salary.SalaryStructure`) and every amount of money in Salary, Payroll and DatabaseService are whole numbers (`int`), while the source holds them as JavaScript numbers; fractional hours, rates and amounts are not modelled.
- Time zones and locale formatting of dates and times: `today`, `now`, the locale date and time strings and the locale month name (`Payroll.FilteredPayroll` takes it as a `monthOf` parameter) are inputs.
- Unicode case mapping: searches lower-case ASCII letters only.
- JavaScript string length counts UTF-16 code units, while the model counts characters: `Signup.Validate` differs from the source for passwords with characters outside the Basic Multilingual Plane.
- `Date.now()`, `Math.random`, timers and `setTimeout` delays: fresh ids are parameters, and the simulated fingerprint stages and their progress bars are not modelled.
- Toasts, navigation after sign-up, dialogs and all rendering; the delete and toggle handlers of the shifts, salary, payroll and users pages only show a toast and are not modelled.
- JSON parsing of stored lists: a stored list is either present as values or absent; text that does not parse is modelled only for the saved user of `LaravelStore.LaravelAdminContext.RestoreSession`.
- `fetch` itself and the server behind the HTTP client: its result is the `Api.FetchResult` input.
- Api.ApiClient: the other endpoint wrappers (`login`, `getEmployees`, `createEmployee`, `updateEmployee`, `deleteEmployee`, `markAttendance`, fingerprint calls) only pass a fixed path and body to `request`, which is `Api.Normalize`.
- Reports: the half-day status counted under a `half-day` key. `Reports.GroupBy` lists the keys in insertion order; `Object.entries` and `Object.values` list integer-like keys (such as numeric employee ids) first, in ascending numeric order, and that reordering is not modelled.
- LoginPage.Decide: the user whose role picks the route is a parameter, because the handler reads the context's `user` before React re-renders, so it may be stale.
- EmployeeForm.EmployeeFormPage.HandleSubmit: the simulated two-second delay and the exception path (no code in the `try` block throws).
- DatabaseService: the other mock methods (`getEmployees`, `updateEmployee`, `deleteEmployee`, `getAttendanceRecords`, `getShifts`, `getNotifications` and the like) only return constants or echo their input.
- AuthController.EmployeeStore.Enroll: a database error is the `storeFails` input, and a race between two enrolments with the same e-mail (caught by the unique index) is not modelled.
- Request fields of the server handlers are strings, with an empty string for a missing field; non-string JSON values are not modelled.
- UseApi.Succeeded: `response.data` is truthy iff present; falsy payloads such as `0` or `""` are not modelled.
- Reports.RecordsInRange: record dates are assumed to be canonical `YYYY-MM-DD` strings and are compared as strings; the source compares `Date` values, which differ from string order for non-canonical dates such as `2024-1-5`.
- Reports: the page is modelled over the record shape of the in-memory `AdminContext` (`employeeId`, `workingHours`); the `LaravelAdminContext` records it receives at run time carry `employee_id` and `working_hours` instead, so there every record falls into one "undefined" employee group and the averages are 0. That run-time mismatch is not modelled.
- DatabaseService.MarkAttendance, DatabaseService.CreateEmployee and DatabaseService.ProcessPayroll: the source reads the clock separately for `created_at` and for `updated_at`, so the two can differ by a millisecond. The model takes one ISO reading per record, so the two timestamps of a record are always equal.
- The server's attendance controller, fingerprint service, routes and start-up code are not part of this model.

=== FILE: admin_context.dfy ===
/**
 * The first attendance and employee store (client/src/contexts/AdminContext.tsx):
 * an in-memory list of employees and of attendance records keyed by
 * (employee, day). Check-in and check-out events are applied to that list;
 * unknown employees, check-outs without a record and repeated check-ins are
 * ignored. The clock (`today`, `now`) and the fresh ids that `Date.now()`
 * supplies are parameters.
 */
module AdminStore {
  import opened Common

  datatype Role = Admin | EmployeeRole | Hr

  datatype User = User(id: string, email: string, name: string, role: Role, department: Option<string>)

  datatype EmployeeStatus = Active | Inactive

  datatype Employee = Employee(
    id: string, name: string, email: string, department: string,
    position: string, joinDate: string, status: EmployeeStatus, photo: Option<string>)

  /** The fields of an employee a caller supplies to `addEmployee` (everything but the id). */
  datatype NewEmployee = NewEmployee(
    name: string, email: string, department: string,
    position: string, joinDate: string, status: EmployeeStatus, photo: Option<string>)

  /** `Partial<Employee>`: the fields an update overwrites. */
  datatype EmployeePatch = EmployeePatch(
    id: Option<string>, name: Option<string>, email: Option<string>,
    department: Option<string>, position: Option<string>, joinDate: Option<string>,
    status: Option<EmployeeStatus>, photo: Option<Option<string>>)

  datatype Status = Present | Absent | Late | HalfDay

  datatype AttendanceRecord = AttendanceRecord(
    id: string, employeeId: string, employeeName: string, date: string,
    checkIn: Option<Minute>, checkOut: Option<Minute>, status: Status,
    workingHours: Option<real>)

  const AdminEmail := "admin@afraexpress.com"
  const AdminPassword := "admin123"

  // ---------------------------------------------------------------------------
  // Specification of the list updates
  // ---------------------------------------------------------------------------

  /** The central invariant: no two records share an (employee, date) pair. */
  predicate OneRecordPerDay(records: seq<AttendanceRecord>)
  {
    forall i, j :: 0 <= i < j < |records| ==>
      !(records[i].employeeId == records[j].employeeId && records[i].date == records[j].date)
  }

  predicate IsEmployee(id: string, e: Employee) { e.id == id }

  predicate IsRecordOf(employeeId: string, date: string, r: AttendanceRecord)
  {
    r.employeeId == employeeId && r.date == date
  }

  /** Hours between two times of the same day; negative when `checkOut` is earlier. */
  function HoursBetween(checkIn: Minute, checkOut: Minute): (h: real)
    ensures h * 60.0 == (checkOut - checkIn) as real
    ensures h < 0.0 <==> checkOut < checkIn
  {
    (checkOut - checkIn) as real / 60.0
  }

  /** A record after a check-out at `now`: the check-out is (over)written and, when
      a check-in exists, the working hours are recomputed from it. */
  function CheckedOut(r: AttendanceRecord, now: Minute): (u: AttendanceRecord)
    ensures u.checkOut == Some(now)
    ensures u.workingHours == if r.checkIn.Some? then Some(HoursBetween(r.checkIn.value, now)) else r.workingHours
    ensures u.id == r.id && u.employeeId == r.employeeId && u.employeeName == r.employeeName
    ensures u.date == r.date && u.checkIn == r.checkIn && u.status == r.status
  {
    var withOut := r.(checkOut := Some(now));
    if r.checkIn.Some? then withOut.(workingHours := Some(HoursBetween(r.checkIn.value, now))) else withOut
  }

  /** The record a first check-in of the day creates. */
  function NewCheckIn(freshId: string, employee: Employee, today: string, now: Minute): AttendanceRecord
  {
    AttendanceRecord(freshId, employee.id, employee.name, today, Some(now), None, Present, None)
  }

  /** The new record list after `markAttendance(employeeId, type)` at (`today`, `now`). */
  function MarkAttendanceSpec(
    employees: seq<Employee>, records: seq<AttendanceRecord>,
    employeeId: string, eventType: EventType, today: string, now: Minute, freshId: string
  ): (r: seq<AttendanceRecord>)
    // unknown employee: nothing happens
    ensures Find(employees, e => IsEmployee(employeeId, e)).None? ==> r == records
    // first check-in of the day: exactly one record is appended
    ensures Find(employees, e => IsEmployee(employeeId, e)).Some? &&
            eventType == CheckIn && Find(records, x => IsRecordOf(employeeId, today, x)).None? ==>
              r == records + [NewCheckIn(freshId, Find(employees, e => IsEmployee(employeeId, e)).value, today, now)]
    // check-out without a record, or a repeated check-in: nothing happens
    ensures eventType == CheckOut && Find(records, x => IsRecordOf(employeeId, today, x)).None? ==> r == records
    ensures eventType == CheckIn && Find(records, x => IsRecordOf(employeeId, today, x)).Some? ==> r == records
    // check-out on an existing record: same length and order, only the matched record changes
    ensures Find(employees, e => IsEmployee(employeeId, e)).Some? && eventType == CheckOut &&
            Find(records, x => IsRecordOf(employeeId, today, x)).Some? ==>
              |r| == |records| &&
              forall i :: 0 <= i < |records| ==>
                r[i] == if records[i].id == Find(records, x => IsRecordOf(employeeId, today, x)).value.id
                        then CheckedOut(records[i], now) else records[i]
  {
    match Find(employees, e => IsEmployee(employeeId, e))
    case None => records
    case Some(employee) =>
      match Find(records, x => IsRecordOf(employeeId, today, x))
      case Some(existing) =>
        if eventType == CheckOut then
          seq(|records|, i requires 0 <= i < |records| =>
            if records[i].id == existing.id then CheckedOut(records[i], now) else records[i])
        else records
      case None =>
        if eventType == CheckIn then records + [NewCheckIn(freshId, employee, today, now)] else records
  }

  /** `markAttendance` keeps at most one record per (employee, date). */
  lemma MarkAttendancePreservesOneRecordPerDay(
    employees: seq<Employee>, records: seq<AttendanceRecord>,
    employeeId: string, eventType: EventType, today: string, now: Minute, freshId: string)
    requires OneRecordPerDay(records)
    ensures OneRecordPerDay(MarkAttendanceSpec(employees, records, employeeId, eventType, today, now, freshId))
  {
    var r := MarkAttendanceSpec(employees, records, employeeId, eventType, today, now, freshId);
    var found := Find(records, x => IsRecordOf(employeeId, today, x));
    if Find(employees, e => IsEmployee(employeeId, e)).Some? && found.None? && eventType == CheckIn {
      forall i, j | 0 <= i < j < |r|
        ensures !(r[i].employeeId == r[j].employeeId && r[i].date == r[j].date)
      {
        if j == |records| {
          assert records[i] in records;
          assert !IsRecordOf(employeeId, today, records[i]);
        }
      }
    }
  }

  /** `prev.map(emp => emp.id === id ? {...emp, ...patch} : emp)` on one element. */
  function ApplyPatch(e: Employee, patch: EmployeePatch): (u: Employee)
    ensures Overlaid(patch.id, e.id, u.id) && Overlaid(patch.name, e.name, u.name)
    ensures Overlaid(patch.email, e.email, u.email) && Overlaid(patch.department, e.department, u.department)
    ensures Overlaid(patch.position, e.position, u.position) && Overlaid(patch.joinDate, e.joinDate, u.joinDate)
    ensures Overlaid(patch.status, e.status, u.status) && Overlaid(patch.photo, e.photo, u.photo)
  {
    Employee(
      if patch.id.Some? then patch.id.value else e.id,
      if patch.name.Some? then patch.name.value else e.name,
      if patch.email.Some? then patch.email.value else e.email,
      if patch.department.Some? then patch.department.value else e.department,
      if patch.position.Some? then patch.position.value else e.position,
      if patch.joinDate.Some? then patch.joinDate.value else e.joinDate,
      if patch.status.Some? then patch.status.value else e.status,
      if patch.photo.Some? then patch.photo.value else e.photo)
  }

  /** An empty patch changes nothing. */
  lemma EmptyPatchIsIdentity(e: Employee)
    ensures ApplyPatch(e, EmployeePatch(None, None, None, None, None, None, None, None)) == e
  {
  }

  /** `deleteEmployee` on the record list: every record of the employee goes, the rest stay in order. */
  lemma {:induction false} DeleteRemovesExactlyTheEmployeesRecords(records: seq<AttendanceRecord>, id: string)
    ensures forall r :: r in Filter(records, (x: AttendanceRecord) => x.employeeId != id) <==> r in records && r.employeeId != id
    ensures IsSubsequence(Filter(records, (x: AttendanceRecord) => x.employeeId != id), records)
    ensures |Filter(records, (x: AttendanceRecord) => x.employeeId != id)| + Count(records, (x: AttendanceRecord) => x.employeeId == id) == |records|
  {
    FilterIsSubsequence(records, (x: AttendanceRecord) => x.employeeId != id);
    CountComplement(records, (x: AttendanceRecord) => x.employeeId != id, (x: AttendanceRecord) => x.employeeId == id);
  }

  /** Deleting records can only remove (employee, date) clashes. */
  lemma {:induction false} FilterPreservesOneRecordPerDay(records: seq<AttendanceRecord>, p: AttendanceRecord -> bool)
    requires OneRecordPerDay(records)
    ensures OneRecordPerDay(Filter(records, p))
  {
    if records != [] {
      var rest := records[1..];
      TailOneRecordPerDay(records);
      FilterPreservesOneRecordPerDay(rest, p);
      if p(records[0]) {
        forall x | x in Filter(rest, p)
          ensures !(x.employeeId == records[0].employeeId && x.date == records[0].date)
        {
          var k :| 0 <= k < |rest| && rest[k] == x;
          assert records[k + 1] == x;
        }
        ConsOneRecordPerDay(records[0], Filter(rest, p));
        assert Filter(records, p) == [records[0]] + Filter(rest, p);
      } else {
        assert Filter(records, p) == Filter(rest, p);
      }
    }
  }

  lemma TailOneRecordPerDay(records: seq<AttendanceRecord>)
    requires records != [] && OneRecordPerDay(records)
    ensures OneRecordPerDay(records[1..])
  {
    var rest := records[1..];
    forall i, j | 0 <= i < j < |rest|
      ensures !(rest[i].employeeId == rest[j].employeeId && rest[i].date == rest[j].date)
    {
      assert rest[i] == records[i + 1] && rest[j] == records[j + 1];
    }
  }

  /** A record whose (employee, date) is not in a clash-free list can go in front of it. */
  lemma ConsOneRecordPerDay(r: AttendanceRecord, rest: seq<AttendanceRecord>)
    requires OneRecordPerDay(rest)
    requires forall x :: x in rest ==> !(x.employeeId == r.employeeId && x.date == r.date)
    ensures OneRecordPerDay([r] + rest)
  {
    var s := [r] + rest;
    forall i, j | 0 <= i < j < |s|
      ensures !(s[i].employeeId == s[j].employeeId && s[i].date == s[j].date)
    {
      if i == 0 {
        assert s[j] in rest;
      } else {
        assert s[i] == rest[i - 1] && s[j] == rest[j - 1];
      }
    }
  }

  // ---------------------------------------------------------------------------
  // The store
  // ---------------------------------------------------------------------------

  class AdminContext {
    var user: Option<User>
    var employees: seq<Employee>
    var attendanceRecords: seq<AttendanceRecord>
    /** The `localStorage` keys this store writes. */
    var storage: map<string, string>

    ghost predicate Valid()
      reads this
    {
      OneRecordPerDay(attendanceRecords)
    }

    /** The provider's initial state: three employees and two completed records for today. */
    constructor (today: string, storage: map<string, string>)
      ensures Valid()
      ensures user.None? && this.storage == storage
      ensures |employees| == 3 && |attendanceRecords| == 2
      ensures forall r :: r in attendanceRecords ==> r.date == today && r.status == Present
    {
      user := None;
      employees := [
        Employee("1", "John Doe", "john.doe@afraexpress.com", "Engineering", "Senior Developer", "2023-01-15", Active, None),
        Employee("2", "Sarah Smith", "sarah.smith@afraexpress.com", "HR", "HR Manager", "2022-11-20", Active, None),
        Employee("3", "Mike Johnson", "mike.johnson@afraexpress.com", "Marketing", "Marketing Specialist", "2023-03-10", Active, None)
      ];
      attendanceRecords := [
        AttendanceRecord("1", "1", "John Doe", today, Some(9 * 60 + 15), Some(17 * 60 + 30), Present, Some(8.25)),
        AttendanceRecord("2", "2", "Sarah Smith", today, Some(8 * 60 + 45), Some(17 * 60), Present, Some(8.25))
      ];
      this.storage := storage;
    }

    /** The mount effect: a stored login flag and e-mail restore the admin user. */
    method RestoreSession()
      modifies this`user
      ensures (("isLoggedIn" in storage && storage["isLoggedIn"] != "" &&
                "userEmail" in storage && storage["userEmail"] != "")
               ==> user == Some(User("1", storage["userEmail"], "Admin User", Admin, None)))
      ensures !(("isLoggedIn" in storage && storage["isLoggedIn"] != "" &&
                 "userEmail" in storage && storage["userEmail"] != ""))
              ==> user == old(user)
    {
      if "isLoggedIn" in storage && storage["isLoggedIn"] != "" &&
         "userEmail" in storage && storage["userEmail"] != "" {
        user := Some(User("1", storage["userEmail"], "Admin User", Admin, None));
      }
    }

    /** Only the hard-coded admin credentials log in. */
    method Login(email: string, password: string) returns (ok: bool)
      modifies this`user, this`storage
      ensures ok <==> email == AdminEmail && password == AdminPassword
      ensures ok ==> user == Some(User("1", email, "Admin User", Admin, None)) &&
                     storage == old(storage)["isLoggedIn" := "true"]["userEmail" := email]
      ensures !ok ==> user == old(user) && storage == old(storage)
    {
      if email == AdminEmail && password == AdminPassword {
        user := Some(User("1", email, "Admin User", Admin, None));
        storage := storage["isLoggedIn" := "true"]["userEmail" := email];
        ok := true;
      } else {
        ok := false;
      }
    }

    method Logout()
      modifies this`user, this`storage
      ensures user.None?
      ensures storage == old(storage) - {"isLoggedIn", "userEmail", "rememberMe"}
    {
      user := None;
      storage := storage - {"isLoggedIn", "userEmail", "rememberMe"};
    }

    /** Appends the employee under the fresh id; records are untouched. */
    method AddEmployee(e: NewEmployee, freshId: string)
      modifies this`employees
      ensures employees == old(employees) +
        [Employee(freshId, e.name, e.email, e.department, e.position, e.joinDate, e.status, e.photo)]
    {
      employees := employees +
        [Employee(freshId, e.name, e.email, e.department, e.position, e.joinDate, e.status, e.photo)];
    }

    /** Patches every employee whose id matches; the others and all records are unchanged. */
    method UpdateEmployee(id: string, patch: EmployeePatch)
      modifies this`employees
      ensures |employees| == |old(employees)|
      ensures forall i :: 0 <= i < |employees| ==>
        employees[i] == if old(employees)[i].id == id then ApplyPatch(old(employees)[i], patch) else old(employees)[i]
    {
      var prev := employees;
      employees := seq(|prev|, i requires 0 <= i < |prev| =>
        if prev[i].id == id then ApplyPatch(prev[i], patch) else prev[i]);
    }

    /** Removes the employee and, in cascade, every record of that employee. */
    method DeleteEmployee(id: string)
      requires Valid()
      modifies this`employees, this`attendanceRecords
      ensures Valid()
      ensures employees == Filter(old(employees), (e: Employee) => e.id != id)
      ensures attendanceRecords == Filter(old(attendanceRecords), (r: AttendanceRecord) => r.employeeId != id)
      ensures forall r :: r in attendanceRecords ==> r.employeeId != id
    {
      FilterPreservesOneRecordPerDay(attendanceRecords, (r: AttendanceRecord) => r.employeeId != id);
      employees := Filter(employees, (e: Employee) => e.id != id);
      attendanceRecords := Filter(attendanceRecords, (r: AttendanceRecord) => r.employeeId != id);
    }

    /** Applies one check-in or check-out event; keeps one record per (employee, date). */
    method MarkAttendance(employeeId: string, eventType: EventType, today: string, now: Minute, freshId: string)
      requires Valid()
      modifies this`attendanceRecords
      ensures Valid()
      ensures attendanceRecords ==
        MarkAttendanceSpec(employees, old(attendanceRecords), employeeId, eventType, today, now, freshId)
    {
      MarkAttendancePreservesOneRecordPerDay(employees, attendanceRecords, employeeId, eventType, today, now, freshId);
      var employee := Find(employees, e => IsEmployee(employeeId, e));
      if employee.None? {
        return;
      }
      var existing := Find(attendanceRecords, x => IsRecordOf(employeeId, today, x));
      if existing.Some? {
        if eventType == CheckOut {
          var prev := attendanceRecords;
          attendanceRecords := seq(|prev|, i requires 0 <= i < |prev| =>
            if prev[i].id == existing.value.id then CheckedOut(prev[i], now) else prev[i]);
        }
      } else if eventType == CheckIn {
        attendanceRecords := attendanceRecords + [NewCheckIn(freshId, employee.value, today, now)];
      }
    }
  }
}

=== FILE: api.dfy ===
/**
 * The HTTP client of the web application (client/src/services/api.ts).
 * `fetch` is not modelled: what it produced (a status flag and a JSON body,
 * or a network error) is an input. Modelled are the normalisation of every
 * response into `{success, data, message}`, the headers (with the
 * `Authorization: Bearer` header of section 2.1 of RFC 6750), the token the
 * client keeps, and the query strings it builds with `URLSearchParams`,
 * whose serializer is the application/x-www-form-urlencoded serializer of
 * section 5.2 of the WHATWG URL Standard.
 */
module Api {
  import opened Common

  // ---------------------------------------------------------------------------
  // Wire types shared by the contexts and the pages
  // ---------------------------------------------------------------------------

  datatype EmployeeStatus = Active | Inactive

  /** An employee as the server sends it; `status` may be missing. */
  datatype ApiEmployee = ApiEmployee(
    id: string, name: string, email: string, phone: string, position: string,
    department: string, employeeCode: string, status: Option<EmployeeStatus>)

  datatype RecordStatus = Present | Absent | Late

  /** An attendance record as the server sends it (`employee_id`, `check_in`, `check_out`). */
  datatype AttendanceRecord = AttendanceRecord(
    id: string, employeeId: string, date: string,
    checkIn: Option<Minute>, checkOut: Option<Minute>, status: RecordStatus)

  /** What a caller of the client observes of one call: a normalised response, or an exception. */
  datatype Reply<T> = Answered(success: bool, data: Option<T>) | Threw

  /** The call succeeded and carried data (`response.success && response.data`). */
  predicate Delivered<T>(r: Reply<T>)
  {
    r.Answered? && r.success && r.data.Some?
  }

  // ---------------------------------------------------------------------------
  // Response normalisation (`request`)
  // ---------------------------------------------------------------------------

  /** The fields of a JSON response body that `request` reads; a falsy field is `None`. */
  datatype Body<T> = Body(message: Option<string>, data: Option<T>, errors: Option<string>)

  /** `data.data || data`: the inner payload, or the whole body when there is none. */
  datatype Payload<T> = Inner(value: T) | WholeBody(body: Body<T>)

  datatype ApiResponse<T> = ApiResponse(
    success: bool, data: Option<Payload<T>>, message: Option<string>, errors: Option<string>)

  /** What `fetch` produced: a response with its `ok` flag and parsed body, or a thrown error. */
  datatype FetchResult<T> = Responded(ok: bool, body: Body<T>) | NetworkError

  const RequestFailed := "Request failed"
  const NetworkErrorOccurred := "Network error occurred"

  predicate Truthy(s: Option<string>) { s.Some? && s.value != "" }

  function Normalize<T>(f: FetchResult<T>): (r: ApiResponse<T>)
    ensures r.success <==> f.Responded? && f.ok
    ensures f.NetworkError? ==> r.message == Some(NetworkErrorOccurred) && r.data.None?
    ensures f.Responded? && !f.ok ==>
      r.data.None? && r.errors == f.body.errors &&
      r.message == (if Truthy(f.body.message) then f.body.message else Some(RequestFailed))
    ensures f.Responded? && f.ok ==>
      r.message == f.body.message &&
      r.data == Some(if f.body.data.Some? then Inner(f.body.data.value) else WholeBody(f.body))
  {
    match f
    case NetworkError => ApiResponse(false, None, Some(NetworkErrorOccurred), None)
    case Responded(ok, body) =>
      if !ok then
        ApiResponse(false, None, if Truthy(body.message) then body.message else Some(RequestFailed), body.errors)
      else
        ApiResponse(true, Some(if body.data.Some? then Inner(body.data.value) else WholeBody(body)), body.message, None)
  }

  /** A normalised response always either succeeds with data or fails with a non-empty message:
      the `response.success && response.data` tests of the callers reduce to `success`. */
  lemma NormalizeSuccessCarriesData<T>(f: FetchResult<T>)
    ensures Normalize(f).success ==> Normalize(f).data.Some?
    ensures !Normalize(f).success ==> Truthy(Normalize(f).message)
  {
  }

  // ---------------------------------------------------------------------------
  // Headers
  // ---------------------------------------------------------------------------

  datatype Header = Header(name: string, value: string)

  const ContentType := Header("Content-Type", "application/json")
  const Accept := Header("Accept", "application/json")

  /** `getHeaders`: the JSON headers, and the bearer token when one is set. */
  function HeadersFor(token: Option<string>): (h: seq<Header>)
    ensures |h| >= 2 && h[0] == ContentType && h[1] == Accept
    ensures (exists v :: Header("Authorization", v) in h) <==> Truthy(token)
    ensures Truthy(token) ==> Header("Authorization", "Bearer " + token.value) in h
  {
    [ContentType, Accept] + if Truthy(token) then [Header("Authorization", "Bearer " + token.value)] else []
  }

  class ApiClient {
    const baseUrl: string
    var token: Option<string>
    /** The `auth_token` entry of `localStorage` (`None` when absent). */
    var storedToken: Option<string>

    /** The client reads any saved token when it is created. */
    constructor (baseUrl: string, storedToken: Option<string>)
      ensures this.baseUrl == baseUrl && token == storedToken && this.storedToken == storedToken
    {
      this.baseUrl := baseUrl;
      token := storedToken;
      this.storedToken := storedToken;
    }

    method SetToken(t: string)
      modifies this
      ensures token == Some(t) && storedToken == Some(t)
    {
      token := Some(t);
      storedToken := Some(t);
    }

    method ClearToken()
      modifies this
      ensures token.None? && storedToken.None?
    {
      token := None;
      storedToken := None;
    }

    function Headers(): (h: seq<Header>)
      reads this
      ensures h == HeadersFor(token)
    {
      HeadersFor(token)
    }

    /** `logout`: whatever the server answers, the token is gone afterwards. */
    method Logout(f: FetchResult<()>) returns (r: ApiResponse<()>)
      modifies this
      ensures token.None? && storedToken.None?
      ensures r == Normalize(f)
    {
      r := Normalize(f);
      ClearToken();
    }
  }

  // ---------------------------------------------------------------------------
  // application/x-www-form-urlencoded (section 5.2 of the WHATWG URL Standard)
  // ---------------------------------------------------------------------------

  type Byte = b: int | 0 <= b < 256

  /** A UTF-8 continuation byte, `10xxxxxx`. */
  predicate IsContinuation(b: Byte) { 0x80 <= b < 0xC0 }

  /** The low six bits of `n` as a continuation byte, and the bits above them. */
  lemma LowSix(n: nat)
    ensures IsContinuation(0x80 + n % 64) && n == (n / 64) * 64 + n % 64
  {
  }

  /** Two bytes, `110xxxxx 10xxxxxx`. */
  function Utf8Two(cp: int): (bs: seq<Byte>)
    requires 0x80 <= cp < 0x800
    ensures |bs| == 2 && 0xC2 <= bs[0] < 0xE0 && IsContinuation(bs[1])
    ensures (bs[0] as int - 0xC0) * 64 + (bs[1] as int - 0x80) == cp
  {
    LowSix(cp);
    [0xC0 + cp / 64, 0x80 + cp % 64]
  }

  /** Three bytes, `1110xxxx 10xxxxxx 10xxxxxx`. */
  function Utf8Three(cp: int): (bs: seq<Byte>)
    requires 0x800 <= cp < 0x10000
    ensures |bs| == 3 && 0xE0 <= bs[0] < 0xF0 && IsContinuation(bs[1]) && IsContinuation(bs[2])
    ensures (bs[0] as int - 0xE0) * 4096 + (bs[1] as int - 0x80) * 64 + (bs[2] as int - 0x80) == cp
  {
    var hi := cp / 64;
    LowSix(cp);
    LowSix(hi);
    assert cp / 4096 == hi / 64;
    [0xE0 + hi / 64, 0x80 + hi % 64, 0x80 + cp % 64]
  }

  /** Four bytes, `11110xxx 10xxxxxx 10xxxxxx 10xxxxxx`. */
  function Utf8Four(cp: int): (bs: seq<Byte>)
    requires 0x10000 <= cp < 0x110000
    ensures |bs| == 4 && 0xF0 <= bs[0] < 0xF5
    ensures IsContinuation(bs[1]) && IsContinuation(bs[2]) && IsContinuation(bs[3])
    ensures (bs[0] as int - 0xF0) * 262144 + (bs[1] as int - 0x80) * 4096 + (bs[2] as int - 0x80) * 64 + (bs[3] as int - 0x80) == cp
  {
    var hi := cp / 64;
    var top := hi / 64;
    LowSix(cp);
    LowSix(hi);
    LowSix(top);
    [0xF0 + top / 64, 0x80 + top % 64, 0x80 + hi % 64, 0x80 + cp % 64]
  }

  /** UTF-8 encoding of one Unicode scalar value (section 3 of RFC 3629): the length follows the
      code point's range, the lead byte carries the length, every further byte is a continuation
      byte, and the payload bits read back give the code point. */
  function Utf8Char(c: char): (bs: seq<Byte>)
    ensures 1 <= |bs| <= 4
    ensures |bs| == 1 <==> c as int < 0x80
    ensures |bs| == 2 <==> 0x80 <= c as int < 0x800
    ensures |bs| == 3 <==> 0x800 <= c as int < 0x10000
    ensures |bs| == 4 <==> 0x10000 <= c as int
    ensures |bs| == 1 ==> bs[0] == c as int
    ensures |bs| == 2 ==> (0xC2 <= bs[0] < 0xE0 && (bs[0] as int - 0xC0) * 64 + (bs[1] as int - 0x80) == c as int)
    ensures |bs| == 3 ==> (0xE0 <= bs[0] < 0xF0 &&
      (bs[0] as int - 0xE0) * 4096 + (bs[1] as int - 0x80) * 64 + (bs[2] as int - 0x80) == c as int)
    ensures |bs| == 4 ==> (0xF0 <= bs[0] < 0xF5 &&
      (bs[0] as int - 0xF0) * 262144 + (bs[1] as int - 0x80) * 4096 + (bs[2] as int - 0x80) * 64 + (bs[3] as int - 0x80) == c as int)
    ensures forall i :: 1 <= i < |bs| ==> IsContinuation(bs[i])
  {
    var cp := c as int;
    if cp < 0x80 then [cp]
    else if cp < 0x800 then Utf8Two(cp)
    else if cp < 0x10000 then Utf8Three(cp)
    else Utf8Four(cp)
  }

  function Utf8(s: string): seq<Byte>
  {
    if s == [] then [] else Utf8Char(s[0]) + Utf8(s[1..])
  }

  lemma {:induction false} Utf8Append(a: string, b: string)
    ensures Utf8(a + b) == Utf8(a) + Utf8(b)
  {
    if a == [] {
      assert a + b == b;
    } else {
      assert (a + b)[1..] == a[1..] + b;
      Utf8Append(a[1..], b);
    }
  }

  /** Bytes the serializer leaves as they are: `*`, `-`, `.`, `_`, digits and ASCII letters. */
  predicate Unreserved(b: Byte)
  {
    b == 0x2A || b == 0x2D || b == 0x2E || b == 0x5F ||
    (0x30 <= b <= 0x39) || (0x41 <= b <= 0x5A) || (0x61 <= b <= 0x7A)
  }

  function HexDigit(n: int): (c: char)
    requires 0 <= n < 16
    ensures IsHexDigit(c) && HexValue(c) == n
  {
    if n < 10 then ('0' as int + n) as char else ('A' as int + n - 10) as char
  }

  predicate IsHexDigit(c: char)
  {
    ('0' <= c <= '9') || ('A' <= c <= 'F') || ('a' <= c <= 'f')
  }

  function HexValue(c: char): (n: int)
    requires IsHexDigit(c)
    ensures 0 <= n < 16
  {
    if '0' <= c <= '9' then c as int - '0' as int
    else if 'A' <= c <= 'F' then c as int - 'A' as int + 10
    else c as int - 'a' as int + 10
  }

  /** The serializer on one byte: space becomes `+`, unreserved bytes stay, the rest is `%XX`. */
  function EncodeByte(b: Byte): (s: string)
    ensures |s| == 1 || |s| == 3
    ensures forall i :: 0 <= i < |s| ==> s[i] as int < 0x80
    ensures '&' !in s && '=' !in s
  {
    if b == 0x20 then "+"
    else if Unreserved(b) then [b as char]
    else ['%', HexDigit(b / 16), HexDigit(b % 16)]
  }

  function EncodeBytes(bs: seq<Byte>): (s: string)
    ensures forall i :: 0 <= i < |s| ==> s[i] as int < 0x80
    ensures '&' !in s && '=' !in s
    ensures |s| >= |bs|
  {
    if bs == [] then "" else EncodeByte(bs[0]) + EncodeBytes(bs[1..])
  }

  /** The serializer on a string: its UTF-8 bytes, each serialized. */
  function FormEncode(s: string): string
  {
    EncodeBytes(Utf8(s))
  }

  /** The parser's decoding of a name or value: `+` is a space, `%XX` a byte, anything else itself. */
  function FormDecode(bs: seq<Byte>): seq<Byte>
  {
    if bs == [] then []
    else if bs[0] == '%' as int && |bs| >= 3 && IsHexDigit(bs[1] as char) && IsHexDigit(bs[2] as char) then
      [HexValue(bs[1] as char) * 16 + HexValue(bs[2] as char)] + FormDecode(bs[3..])
    else if bs[0] == '+' as int then [0x20] + FormDecode(bs[1..])
    else [bs[0]] + FormDecode(bs[1..])
  }

  /** An ASCII string's UTF-8 encoding is its character codes. */
  lemma {:induction false} Utf8Ascii(s: string)
    requires forall i :: 0 <= i < |s| ==> s[i] as int < 0x80
    ensures |Utf8(s)| == |s|
    ensures forall i :: 0 <= i < |s| ==> Utf8(s)[i] == s[i] as int
  {
    if s != [] {
      Utf8Ascii(s[1..]);
    }
  }

  /** Decoding what the serializer produced for one byte, followed by anything, yields that byte first. */
  lemma DecodeEncodedByte(b: Byte, rest: seq<Byte>)
    ensures FormDecode(Utf8(EncodeByte(b)) + rest) == [b] + FormDecode(rest)
  {
    var e := EncodeByte(b);
    Utf8Ascii(e);
    var u := Utf8(e) + rest;
    if b == 0x20 {
      assert u[0] == '+' as int;
      assert u[1..] == rest;
    } else if Unreserved(b) {
      assert u[0] == b;
      assert u[1..] == rest;
    } else {
      assert u[0] == '%' as int && u[1] as char == HexDigit(b / 16) && u[2] as char == HexDigit(b % 16);
      assert u[3..] == rest;
    }
  }

  /** The form-urlencoded round trip: the parser recovers every byte sequence the serializer encodes. */
  lemma {:induction false} FormRoundTrip(bs: seq<Byte>)
    ensures FormDecode(Utf8(EncodeBytes(bs))) == bs
  {
    if bs != [] {
      var first := EncodeByte(bs[0]);
      Utf8Append(first, EncodeBytes(bs[1..]));
      DecodeEncodedByte(bs[0], Utf8(EncodeBytes(bs[1..])));
      FormRoundTrip(bs[1..]);
    }
  }

  /** `URLSearchParams.toString()`: `name=value` pairs joined by `&`. */
  function SerializeParams(params: seq<(string, string)>): (s: string)
    ensures s == "" <==> params == []
    ensures ('&' in s) <==> |params| > 1
  {
    if params == [] then ""
    else
      var first := FormEncode(params[0].0) + "=" + FormEncode(params[0].1);
      if |params| == 1 then first else first + "&" + SerializeParams(params[1..])
  }

  /** The first position of `b` in `bs`, or `|bs|` when it does not occur. */
  function IndexOfByte(bs: seq<Byte>, b: Byte): (i: nat)
    ensures i <= |bs|
    ensures i < |bs| ==> bs[i] == b
    ensures forall j :: 0 <= j < i ==> bs[j] != b
  {
    if bs == [] || bs[0] == b then 0 else 1 + IndexOfByte(bs[1..], b)
  }

  const Ampersand: Byte := 0x26
  const EqualsSign: Byte := 0x3D

  /** The parser on one `name=value` sequence: split at the first `=`, a missing `=` giving an
      empty value, and both sides decoded. */
  function ParsePair(seg: seq<Byte>): (seq<Byte>, seq<Byte>)
  {
    var j := IndexOfByte(seg, EqualsSign);
    (FormDecode(seg[..j]), FormDecode(if j < |seg| then seg[j + 1..] else []))
  }

  /** The application/x-www-form-urlencoded parser (section 5.1 of the WHATWG URL Standard):
      split at `&`, skip empty sequences, parse each into a name and a value. */
  function ParseQuery(bs: seq<Byte>): seq<(seq<Byte>, seq<Byte>)>
    decreases |bs|
  {
    if bs == [] then []
    else
      var i := IndexOfByte(bs, Ampersand);
      var rest := if i < |bs| then ParseQuery(bs[i + 1..]) else [];
      if i == 0 then rest else [ParsePair(bs[..i])] + rest
  }

  /** The pairs as the parser reports them: names and values as UTF-8 bytes. */
  function Utf8Pairs(params: seq<(string, string)>): (r: seq<(seq<Byte>, seq<Byte>)>)
    ensures |r| == |params|
    ensures forall i :: 0 <= i < |r| ==> r[i] == (Utf8(params[i].0), Utf8(params[i].1))
  {
    seq(|params|, i requires 0 <= i < |params| => (Utf8(params[i].0), Utf8(params[i].1)))
  }

  /** No byte of `bs` is `b`. */
  predicate Avoids(bs: seq<Byte>, b: Byte)
  {
    forall k :: 0 <= k < |bs| ==> bs[k] != b
  }

  /** The search stops at the first `b`, after a prefix that avoids it. */
  lemma IndexOfByteAfter(x: seq<Byte>, b: Byte, y: seq<Byte>)
    requires Avoids(x, b)
    ensures IndexOfByte(x + [b] + y, b) == |x|
  {
    assert (x + [b] + y)[|x|] == b;
  }

  /** An ASCII string without the character `c` has no byte `c` in its UTF-8 encoding. */
  lemma AsciiAvoids(s: string, c: char)
    requires forall i :: 0 <= i < |s| ==> s[i] as int < 0x80
    requires c !in s && c as int < 0x80
    ensures Avoids(Utf8(s), c as int)
  {
    Utf8Ascii(s);
    forall k | 0 <= k < |Utf8(s)| ensures Utf8(s)[k] != c as int
    {
      assert s[k] in s;
    }
  }

  /** The serialized bytes of one pair are the serialized name, `=`, and the serialized value;
      neither side holds `&`, and the name holds no `=`. */
  lemma PairBytes(name: string, value: string)
    ensures Utf8(FormEncode(name) + "=" + FormEncode(value)) ==
      Utf8(FormEncode(name)) + [EqualsSign] + Utf8(FormEncode(value))
    ensures Avoids(Utf8(FormEncode(name)), Ampersand) && Avoids(Utf8(FormEncode(name)), EqualsSign)
    ensures Avoids(Utf8(FormEncode(value)), Ampersand)
  {
    var en, ev := FormEncode(name), FormEncode(value);
    Utf8Append(en + "=", ev);
    Utf8Append(en, "=");
    assert Utf8("=") == [EqualsSign];
    AsciiAvoids(en, '&');
    AsciiAvoids(en, '=');
    AsciiAvoids(ev, '&');
  }

  /** Parsing one serialized pair gives back the name's and the value's UTF-8 bytes. */
  lemma ParseSerializedPair(name: string, value: string)
    ensures ParsePair(Utf8(FormEncode(name) + "=" + FormEncode(value))) == (Utf8(name), Utf8(value))
  {
    var n, v := Utf8(FormEncode(name)), Utf8(FormEncode(value));
    var seg := n + [EqualsSign] + v;
    PairBytes(name, value);
    IndexOfByteAfter(n, EqualsSign, v);
    assert seg[..|n|] == n && seg[|n| + 1..] == v;
    FormRoundTrip(Utf8(name));
    FormRoundTrip(Utf8(value));
  }

  /** `x`, a byte other than `b`, and `y` together avoid `b` when `x` and `y` do. */
  lemma AvoidsJoin(x: seq<Byte>, e: Byte, y: seq<Byte>, b: Byte)
    requires Avoids(x, b) && e != b && Avoids(y, b)
    ensures Avoids(x + [e] + y, b)
  {
    var all := x + [e] + y;
    forall k | 0 <= k < |all| ensures all[k] != b
    {
      if k < |x| {
        assert all[k] == x[k];
      } else if k > |x| {
        assert all[k] == y[k - |x| - 1];
      }
    }
  }

  /** The bytes of one serialized pair are not empty and hold no `&`. */
  lemma PairAvoidsAmpersand(name: string, value: string)
    ensures Utf8(FormEncode(name) + "=" + FormEncode(value)) != []
    ensures Avoids(Utf8(FormEncode(name) + "=" + FormEncode(value)), Ampersand)
  {
    PairBytes(name, value);
    AvoidsJoin(Utf8(FormEncode(name)), EqualsSign, Utf8(FormEncode(value)), Ampersand);
  }

  /** With more than one pair, the serialized bytes are the first pair, `&`, and the rest. */
  lemma SerializedBytes(params: seq<(string, string)>)
    requires |params| > 1
    ensures Utf8(SerializeParams(params)) ==
      Utf8(FormEncode(params[0].0) + "=" + FormEncode(params[0].1)) + [Ampersand] + Utf8(SerializeParams(params[1..]))
  {
    var f := FormEncode(params[0].0) + "=" + FormEncode(params[0].1);
    var tail := SerializeParams(params[1..]);
    assert SerializeParams(params) == f + "&" + tail;
    Utf8Append(f + "&", tail);
    Utf8Append(f, "&");
    assert Utf8("&") == [Ampersand];
  }

  /** A non-empty sequence without `&` parses as one pair. */
  lemma ParseOneSequence(seg: seq<Byte>)
    requires seg != [] && Avoids(seg, Ampersand)
    ensures ParseQuery(seg) == [ParsePair(seg)]
  {
    assert IndexOfByte(seg, Ampersand) == |seg|;
    assert seg[..|seg|] == seg;
  }

  /** A non-empty sequence without `&`, then `&`, then more: its pair comes first. */
  lemma ParseFirstSequence(seg: seq<Byte>, rest: seq<Byte>)
    requires seg != [] && Avoids(seg, Ampersand)
    ensures ParseQuery(seg + [Ampersand] + rest) == [ParsePair(seg)] + ParseQuery(rest)
  {
    var all := seg + [Ampersand] + rest;
    IndexOfByteAfter(seg, Ampersand, rest);
    assert all[..|seg|] == seg && all[|seg| + 1..] == rest;
  }

  /** The query-string round trip: parsing what `SerializeParams` wrote gives back every pair,
      in order, as UTF-8 bytes. */
  lemma {:induction false} QueryRoundTrip(params: seq<(string, string)>)
    ensures ParseQuery(Utf8(SerializeParams(params))) == Utf8Pairs(params)
  {
    if |params| == 1 {
      QueryRoundTripOne(params);
    } else if |params| > 1 {
      QueryRoundTrip(params[1..]);
      QueryRoundTripStep(params);
    }
  }

  /** A single pair parses back to itself. */
  lemma QueryRoundTripOne(params: seq<(string, string)>)
    requires |params| == 1
    ensures ParseQuery(Utf8(SerializeParams(params))) == Utf8Pairs(params)
  {
    var first := Utf8(FormEncode(params[0].0) + "=" + FormEncode(params[0].1));
    PairAvoidsAmpersand(params[0].0, params[0].1);
    ParseSerializedPair(params[0].0, params[0].1);
    assert SerializeParams(params) == FormEncode(params[0].0) + "=" + FormEncode(params[0].1);
    ParseOneSequence(first);
  }

  /** The first pair parses back to itself, ahead of whatever the rest parses to. */
  lemma QueryRoundTripStep(params: seq<(string, string)>)
    requires |params| > 1
    requires ParseQuery(Utf8(SerializeParams(params[1..]))) == Utf8Pairs(params[1..])
    ensures ParseQuery(Utf8(SerializeParams(params))) == Utf8Pairs(params)
  {
    var first := Utf8(FormEncode(params[0].0) + "=" + FormEncode(params[0].1));
    PairAvoidsAmpersand(params[0].0, params[0].1);
    ParseSerializedPair(params[0].0, params[0].1);
    SerializedBytes(params);
    ParseFirstSequence(first, Utf8(SerializeParams(params[1..])));
    Utf8PairsCons(params);
  }

  lemma Utf8PairsCons(params: seq<(string, string)>)
    requires params != []
    ensures Utf8Pairs(params) == [(Utf8(params[0].0), Utf8(params[0].1))] + Utf8Pairs(params[1..])
  {
    var r := [(Utf8(params[0].0), Utf8(params[0].1))] + Utf8Pairs(params[1..]);
    assert |r| == |params|;
    forall i | 0 <= i < |params| ensures Utf8Pairs(params)[i] == r[i]
    {
      if i > 0 {
        assert r[i] == Utf8Pairs(params[1..])[i - 1];
      }
    }
  }

  // ---------------------------------------------------------------------------
  // Query strings the client builds
  // ---------------------------------------------------------------------------

  /** The optional filters of `getAttendanceRecords`; an empty string is an absent filter. */
  datatype AttendanceFilters = AttendanceFilters(employeeId: string, dateFrom: string, dateTo: string)

  /** The parameters appended, in this order, for the filters that are supplied. */
  function AttendanceParams(f: AttendanceFilters): (ps: seq<(string, string)>)
    ensures |ps| <= 3
    ensures forall i :: 0 <= i < |ps| ==> ps[i].1 != ""
    ensures (("employee_id", f.employeeId) in ps) <==> f.employeeId != ""
    ensures (("date_from", f.dateFrom) in ps) <==> f.dateFrom != ""
    ensures (("date_to", f.dateTo) in ps) <==> f.dateTo != ""
    ensures ps == [] <==> f.employeeId == "" && f.dateFrom == "" && f.dateTo == ""
    ensures IsSubsequence(ps, [("employee_id", f.employeeId), ("date_from", f.dateFrom), ("date_to", f.dateTo)])
  {
    ThreePicksInOrder(("employee_id", f.employeeId), ("date_from", f.dateFrom), ("date_to", f.dateTo),
                      f.employeeId != "", f.dateFrom != "", f.dateTo != "");
    (if f.employeeId != "" then [("employee_id", f.employeeId)] else []) +
    (if f.dateFrom != "" then [("date_from", f.dateFrom)] else []) +
    (if f.dateTo != "" then [("date_to", f.dateTo)] else [])
  }

  /** Keeping some of three elements keeps them in their order. */
  lemma ThreePicksInOrder<T>(x: T, y: T, z: T, a: bool, b: bool, c: bool)
    ensures IsSubsequence((if a then [x] else []) + (if b then [y] else []) + (if c then [z] else []), [x, y, z])
  {
    var last := if c then [z] else [];
    var middle := (if b then [y] else []) + last;
    if c {
      SubsequenceCons(z, [], []);
      assert [z] + [] == [z];
    }
    if b {
      SubsequenceCons(y, last, [z]);
    } else {
      SubsequenceSkip(y, last, [z]);
      assert middle == last;
    }
    assert [y] + [z] == [y, z];
    if a {
      SubsequenceCons(x, middle, [y, z]);
    } else {
      SubsequenceSkip(x, middle, [y, z]);
    }
    assert [x] + [y, z] == [x, y, z];
    assert (if a then [x] else []) + (if b then [y] else []) + (if c then [z] else []) ==
           (if a then [x] else []) + middle;
  }

  /** The endpoint `getAttendanceRecords` requests: a query string only when some filter is supplied. */
  function AttendanceEndpoint(f: AttendanceFilters): (e: string)
    ensures e == "/attendance" <==> f.employeeId == "" && f.dateFrom == "" && f.dateTo == ""
    ensures e != "/attendance" ==> e == "/attendance?" + SerializeParams(AttendanceParams(f))
  {
    var qs := SerializeParams(AttendanceParams(f));
    if qs != "" then "/attendance?" + qs else "/attendance"
  }

  /** The query string of the attendance endpoint parses back to exactly the supplied filters,
      in the order employee_id, date_from, date_to. */
  lemma AttendanceQueryParses(f: AttendanceFilters)
    ensures var e := AttendanceEndpoint(f);
      e != "/attendance" ==> |e| > 12 && ParseQuery(Utf8(e[12..])) == Utf8Pairs(AttendanceParams(f))
  {
    QueryRoundTrip(AttendanceParams(f));
    var e := AttendanceEndpoint(f);
    if e != "/attendance" {
      assert e[12..] == SerializeParams(AttendanceParams(f));
    }
  }

  /** `getAttendanceReport`: only the entries with a non-empty value become parameters, in entry order. */
  function ReportParams(entries: seq<(string, string)>): (ps: seq<(string, string)>)
    ensures forall e :: e in ps <==> e in entries && e.1 != ""
    ensures IsSubsequence(ps, entries)
    ensures |ps| == Count(entries, (e: (string, string)) => e.1 != "")
  {
    FilterIsSubsequence(entries, (e: (string, string)) => e.1 != "");
    Filter(entries, (e: (string, string)) => e.1 != "")
  }

  /** The report endpoint always carries the `?`, even when no parameter is left. */
  function ReportEndpoint(entries: seq<(string, string)>): (e: string)
    ensures |e| >= 20 && e[..20] == "/reports/attendance?"
    ensures e[20..] == SerializeParams(ReportParams(entries))
    ensures e == "/reports/attendance?" <==> forall x :: x in entries ==> x.1 == ""
  {
    assert ReportParams(entries) != [] ==> ReportParams(entries)[0] in ReportParams(entries);
    var e := "/reports/attendance?" + SerializeParams(ReportParams(entries));
    assert e[20..] == SerializeParams(ReportParams(entries));
    e
  }

  /** The query string of the report endpoint parses back to exactly the entries with a value,
      in entry order. */
  lemma ReportQueryParses(entries: seq<(string, string)>)
    ensures var e := ReportEndpoint(entries);
      ParseQuery(Utf8(e[20..])) == Utf8Pairs(ReportParams(entries))
  {
    QueryRoundTrip(ReportParams(entries));
  }
}

=== FILE: attendance_page.dfy ===
/**
 * The kiosk attendance page (client/src/pages/AttendancePage.tsx): a log of
 * check-ins kept in browser storage, newest first, fed by a simulated
 * fingerprint scan or by a typed employee ID, and a view of today's entries
 * narrowed by a search box.
 */
module AttendancePage {
  import opened Common

  datatype EntryMethod = Fingerprint | Manual

  /** One log entry; `time` and `date` are the locale-formatted strings of the clock. */
  datatype LogEntry = LogEntry(
    id: int, employeeName: string, employeeId: string, time: string, date: string,
    kind: string, via: EntryMethod)

  const CheckInKind := "Check In"

  /** The entry a typed ID produces: the name is unknown and the ID is kept exactly as typed. */
  function ManualEntry(id: int, input: string, time: string, date: string): LogEntry
  {
    LogEntry(id, "Unknown Employee", input, time, date, CheckInKind, Manual)
  }

  /** The entry every scan produces: the scanner is simulated and always recognises John Doe. */
  function ScannedEntry(id: int, time: string, date: string): LogEntry
  {
    LogEntry(id, "John Doe", "EMP001", time, date, CheckInKind, Fingerprint)
  }

  predicate MatchesSearch(query: string, e: LogEntry)
  {
    query == "" || ContainsIgnoringCase(e.employeeName, query) || ContainsIgnoringCase(e.employeeId, query)
  }

  /** `todayRecords`: the entries dated today whose name or ID contains the query, ignoring case. */
  function TodayRecords(log: seq<LogEntry>, today: string, query: string): (rs: seq<LogEntry>)
    ensures forall e :: e in rs <==> e in log && e.date == today && MatchesSearch(query, e)
    ensures |rs| <= |log|
  {
    Filter(Filter(log, (e: LogEntry) => e.date == today), (e: LogEntry) => MatchesSearch(query, e))
  }

  /** With an empty search box the view is every entry of today, in log order. */
  lemma EmptySearchKeepsAllOfToday(log: seq<LogEntry>, today: string)
    ensures TodayRecords(log, today, "") == Filter(log, (e: LogEntry) => e.date == today)
  {
    FilterAll(Filter(log, (e: LogEntry) => e.date == today), (e: LogEntry) => MatchesSearch("", e));
  }

  /** Prepending an entry puts it at the head of today's view when it is shown at all,
      and leaves the rest of the view as it was. */
  lemma PrependedEntryLeadsTheView(e: LogEntry, log: seq<LogEntry>, today: string, query: string)
    ensures TodayRecords([e] + log, today, query) ==
      (if e.date == today && MatchesSearch(query, e) then [e] else []) + TodayRecords(log, today, query)
  {
    var day := (x: LogEntry) => x.date == today;
    var search := (x: LogEntry) => MatchesSearch(query, x);
    FilterAppend([e], log, day);
    FilterAppend(Filter([e], day), Filter(log, day), search);
  }

  /** The page: the stored log, the ID input and the search box. */
  class AttendancePage {
    var log: seq<LogEntry>
    var employeeId: string
    var searchQuery: string

    /** A missing stored log reads as the empty list. */
    constructor (stored: Option<seq<LogEntry>>)
      ensures log == (if stored.Some? then stored.value else [])
      ensures employeeId == "" && searchQuery == ""
    {
      log := if stored.Some? then stored.value else [];
      employeeId := "";
      searchQuery := "";
    }

    /** `handleManualEntry`: a blank or all-space ID is refused and nothing changes; otherwise one
        entry with the untrimmed ID is put in front of the log and the input is cleared. */
    method HandleManualEntry(id: int, time: string, date: string) returns (recorded: bool)
      modifies this`log, this`employeeId
      ensures recorded <==> Trim(old(employeeId)) != ""
      ensures !recorded ==> log == old(log) && employeeId == old(employeeId)
      ensures recorded ==> log == [ManualEntry(id, old(employeeId), time, date)] + old(log) && employeeId == ""
    {
      if Trim(employeeId) == "" {
        return false;
      }
      log := [ManualEntry(id, employeeId, time, date)] + log;
      employeeId := "";
      return true;
    }

    /** `handleFingerPrintScan`: the John Doe check-in is put in front of the log. */
    method HandleFingerprintScan(id: int, time: string, date: string)
      modifies this`log
      ensures log == [ScannedEntry(id, time, date)] + old(log)
    {
      log := [ScannedEntry(id, time, date)] + log;
    }
  }
}

=== FILE: attendance_widget.dfy ===
/**
 * The quick-attendance widget (client/src/components/AttendanceWidget.tsx):
 * each of the first five employees is classified from today's records as
 * absent, present or completed, and is offered the one action that fits.
 */
module AttendanceWidget {
  import opened Common
  import Api
  import LaravelStore

  type Record = Api.AttendanceRecord
  type Employee = LaravelStore.Employee

  datatype WidgetStatus = Absent | Present | Completed

  datatype Offer = OfferCheckIn | OfferCheckOut | NoAction

  /** The record `getEmployeeStatus` looks at: the employee's first record among today's. */
  function TodayRecordOf(records: seq<Record>, employeeId: string, today: string): (r: Option<Record>)
    ensures r == Find(records, (x: Record) => LaravelStore.IsRecordOf(employeeId, today, x))
  {
    FindFilter(records, (x: Record) => x.date == today, (x: Record) => x.employeeId == employeeId,
               (x: Record) => LaravelStore.IsRecordOf(employeeId, today, x));
    Find(Filter(records, (x: Record) => x.date == today), (x: Record) => x.employeeId == employeeId)
  }

  /** `getEmployeeStatus`: a check-out makes the day completed (even with no check-in), a
      check-in alone makes it present, and no record or a record with neither time is absent. */
  function EmployeeStatus(records: seq<Record>, employeeId: string, today: string): (s: WidgetStatus)
    ensures TodayRecordOf(records, employeeId, today).None? ==> s == Absent
    ensures s == Completed <==>
      TodayRecordOf(records, employeeId, today).Some? && TodayRecordOf(records, employeeId, today).value.checkOut.Some?
    ensures s == Present <==>
      TodayRecordOf(records, employeeId, today).Some? && TodayRecordOf(records, employeeId, today).value.checkOut.None? &&
      TodayRecordOf(records, employeeId, today).value.checkIn.Some?
  {
    match TodayRecordOf(records, employeeId, today)
    case None => Absent
    case Some(r) => if r.checkOut.Some? then Completed else if r.checkIn.Some? then Present else Absent
  }

  /** Check-in is offered only to the absent, check-out only to the present, nothing once completed. */
  function OfferFor(s: WidgetStatus): (o: Offer)
    ensures o == OfferCheckIn <==> s == Absent
    ensures o == OfferCheckOut <==> s == Present
    ensures o == NoAction <==> s == Completed
  {
    match s
    case Absent => OfferCheckIn
    case Present => OfferCheckOut
    case Completed => NoAction
  }

  /** The rows of the widget: the first five employees with their status. */
  function Rows(employees: seq<Employee>, records: seq<Record>, today: string): (rows: seq<(Employee, WidgetStatus)>)
    ensures |rows| == if |employees| < 5 then |employees| else 5
    ensures forall i :: 0 <= i < |rows| ==>
      rows[i] == (employees[i], EmployeeStatus(records, employees[i].id, today))
  {
    var shown := FirstN(employees, 5);
    seq(|shown|, i requires 0 <= i < |shown| => (shown[i], EmployeeStatus(records, shown[i].id, today)))
  }

  /** The local fallback stamps the first (employee, today) record, which stays the employee's first record. */
  lemma FallbackStampsTodayRecord(
    records: seq<Record>, employeeId: string, eventType: EventType, today: string, now: Minute, freshId: string)
    requires TodayRecordOf(records, employeeId, today).Some?
    ensures TodayRecordOf(LaravelStore.LocalFallback(records, employeeId, eventType, today, now, freshId), employeeId, today)
         == Some(LaravelStore.Stamped(TodayRecordOf(records, employeeId, today).value, eventType, now))
  {
    var p := (x: Record) => LaravelStore.IsRecordOf(employeeId, today, x);
    var after := LaravelStore.LocalFallback(records, employeeId, eventType, today, now, freshId);
    var existing := Find(records, p).value;
    assert |after| == |records|;
    forall i | 0 <= i < |records| ensures p(records[i]) == p(after[i])
    {
    }
    FirstIndexAgrees(records, after, p);
  }

  /** Taking the offered action, when the server call fails, moves the employee on:
      an absent employee becomes present after a check-in, a present one completed after a check-out. */
  lemma OfferedActionAdvancesStatus(
    records: seq<Record>, employeeId: string, today: string, now: Minute, freshId: string)
    ensures EmployeeStatus(records, employeeId, today) == Absent ==>
      EmployeeStatus(LaravelStore.LocalFallback(records, employeeId, CheckIn, today, now, freshId), employeeId, today) == Present
    ensures EmployeeStatus(records, employeeId, today) == Present ==>
      EmployeeStatus(LaravelStore.LocalFallback(records, employeeId, CheckOut, today, now, freshId), employeeId, today) == Completed
  {
    var found := TodayRecordOf(records, employeeId, today);
    if found.Some? {
      FallbackStampsTodayRecord(records, employeeId, CheckIn, today, now, freshId);
      FallbackStampsTodayRecord(records, employeeId, CheckOut, today, now, freshId);
    } else {
      var p := (x: Record) => LaravelStore.IsRecordOf(employeeId, today, x);
      forall ev: EventType ensures
        TodayRecordOf(LaravelStore.LocalFallback(records, employeeId, ev, today, now, freshId), employeeId, today)
          == Some(LaravelStore.MockRecord(freshId, employeeId, ev, today, now))
      {
        var after := LaravelStore.LocalFallback(records, employeeId, ev, today, now, freshId);
        assert after == records + [LaravelStore.MockRecord(freshId, employeeId, ev, today, now)];
        assert p(after[|records|]);
        assert forall j :: 0 <= j < |records| ==> !p(after[j]) by {
          forall j | 0 <= j < |records| ensures !p(after[j])
          {
            assert after[j] == records[j] && records[j] in records;
          }
        }
        assert FirstIndex(after, p) == Some(|records|);
      }
    }
  }
}

=== FILE: auth_controller.dfy ===
/**
 * The server's sign-up and sign-in handlers
 * (server/controllers/auth.controller.js) over the employee collection of
 * server/models/employee.model.js, kept as a map from e-mail address to the
 * stored employee (the address is a unique key). Status codes are those of
 * section 15 of RFC 9110: 200 OK, 201 Created, 400 Bad Request,
 * 401 Unauthorized, 409 Conflict, 500 Internal Server Error.
 */
module AuthController {
  import opened Common

  /** One document of the employee collection. */
  datatype StoredEmployee = StoredEmployee(
    id: string, name: string, employeeId: string, email: string, password: string, role: string,
    fingerprintTemplate: Option<string>)

  /** What a response body says about an employee: no password. */
  datatype PublicEmployee = PublicEmployee(id: string, name: string, email: string, role: string)

  datatype Response = Response(status: nat, message: string, employee: Option<PublicEmployee>)

  /** Request fields; an absent field and an empty string are both falsy. */
  datatype EnrollRequest = EnrollRequest(name: string, email: string, password: string, role: string, employeeId: string)
  datatype LoginRequest = LoginRequest(email: string, password: string, role: string)

  /** The schema's `enum` on `role`. */
  predicate ValidRole(role: string)
  {
    role == "admin" || role == "manager" || role == "employee"
  }

  function Public(e: StoredEmployee): (p: PublicEmployee)
    ensures p.id == e.id && p.name == e.name && p.email == e.email && p.role == e.role
  {
    PublicEmployee(e.id, e.name, e.email, e.role)
  }

  predicate EnrollComplete(q: EnrollRequest)
  {
    q.name != "" && q.email != "" && q.password != "" && q.role != "" && q.employeeId != ""
  }

  /** The response of `enroll`; `freshId` is the id the database assigns and `storeFails`
      stands for a database error. A role outside the schema's enum fails validation in
      `create` and lands in the catch-all 500. */
  function EnrollResponse(byEmail: map<string, StoredEmployee>, q: EnrollRequest, freshId: string, storeFails: bool): (r: Response)
    ensures r.status == 400 <==> !EnrollComplete(q)
    ensures r.status == 409 <==> EnrollComplete(q) && !storeFails && q.email in byEmail
    ensures r.status == 201 <==> EnrollComplete(q) && !storeFails && q.email !in byEmail && ValidRole(q.role)
    ensures r.status in {400, 409, 201, 500}
    ensures r.employee.Some? <==> r.status == 201
    ensures r.status == 201 ==> r.employee == Some(PublicEmployee(freshId, q.name, q.email, q.role))
  {
    if !EnrollComplete(q) then Response(400, "All fields are required", None)
    else if storeFails then Response(500, "Enrollment failed", None)
    else if q.email in byEmail then Response(409, "User already exists", None)
    else if !ValidRole(q.role) then Response(500, "Enrollment failed", None)
    else Response(201, "Enrollment successful", Some(PublicEmployee(freshId, q.name, q.email, q.role)))
  }

  /** The employee `enroll` creates. */
  function NewEmployee(q: EnrollRequest, freshId: string): StoredEmployee
  {
    StoredEmployee(freshId, q.name, q.employeeId, q.email, q.password, q.role, None)
  }

  /** The collection after `enroll`: one more employee exactly when the response is 201. */
  function Enrolled(byEmail: map<string, StoredEmployee>, q: EnrollRequest, freshId: string, storeFails: bool): (m: map<string, StoredEmployee>)
    ensures EnrollResponse(byEmail, q, freshId, storeFails).status == 201 ==>
      q.email !in byEmail && m == byEmail[q.email := NewEmployee(q, freshId)] && |m| == |byEmail| + 1
    ensures EnrollResponse(byEmail, q, freshId, storeFails).status != 201 ==> m == byEmail
  {
    if EnrollResponse(byEmail, q, freshId, storeFails).status == 201 then byEmail[q.email := NewEmployee(q, freshId)]
    else byEmail
  }

  predicate LoginComplete(q: LoginRequest)
  {
    q.email != "" && q.password != "" && q.role != ""
  }

  /** `findOne({ email, role })`: the employee with that address, if it has that role. */
  function FindByEmailAndRole(byEmail: map<string, StoredEmployee>, email: string, role: string): (e: Option<StoredEmployee>)
    ensures e.Some? <==> email in byEmail && byEmail[email].role == role
    ensures e.Some? ==> e.value == byEmail[email]
  {
    if email in byEmail && byEmail[email].role == role then Some(byEmail[email]) else None
  }

  /** The response of `login`. */
  function LoginResponse(byEmail: map<string, StoredEmployee>, q: LoginRequest, storeFails: bool): (r: Response)
    ensures r.status == 400 <==> !LoginComplete(q)
    ensures r.status == 500 <==> LoginComplete(q) && storeFails
    ensures r.status == 401 <==> (LoginComplete(q) && !storeFails &&
      (q.email !in byEmail || byEmail[q.email].role != q.role || byEmail[q.email].password != q.password))
    ensures r.status in {400, 401, 200, 500}
    ensures r.employee.Some? <==> r.status == 200
    ensures r.status == 200 ==> r.employee == Some(Public(byEmail[q.email]))
  {
    if !LoginComplete(q) then Response(400, "Missing fields", None)
    else if storeFails then Response(500, "Login failed", None)
    else
      var found := FindByEmailAndRole(byEmail, q.email, q.role);
      if found.None? || found.value.password != q.password then Response(401, "Invalid credentials", None)
      else Response(200, "Login successful", Some(Public(found.value)))
  }

  /** Whoever has just enrolled can sign in with the same address, password and role, and
      the sign-in reply describes the same employee as the enrolment reply. */
  lemma EnrollThenLogin(byEmail: map<string, StoredEmployee>, q: EnrollRequest, freshId: string)
    requires EnrollResponse(byEmail, q, freshId, false).status == 201
    ensures var after := Enrolled(byEmail, q, freshId, false);
      var r := LoginResponse(after, LoginRequest(q.email, q.password, q.role), false);
      r.status == 200 && r.employee == EnrollResponse(byEmail, q, freshId, false).employee
  {
  }

  /** A second enrolment with an address already used is refused whatever its other fields. */
  lemma EnrollTwiceConflicts(byEmail: map<string, StoredEmployee>, q: EnrollRequest, q2: EnrollRequest, id1: string, id2: string)
    requires EnrollResponse(byEmail, q, id1, false).status == 201
    requires EnrollComplete(q2) && q2.email == q.email
    ensures EnrollResponse(Enrolled(byEmail, q, id1, false), q2, id2, false).status == 409
  {
  }

  /** The employee collection of the running server. */
  class EmployeeStore {
    var byEmail: map<string, StoredEmployee>

    constructor ()
      ensures byEmail == map[]
    {
      byEmail := map[];
    }

    /** `exports.enroll`. */
    method Enroll(q: EnrollRequest, freshId: string, storeFails: bool) returns (r: Response)
      modifies this
      ensures r == EnrollResponse(old(byEmail), q, freshId, storeFails)
      ensures byEmail == Enrolled(old(byEmail), q, freshId, storeFails)
    {
      if q.name == "" || q.email == "" || q.password == "" || q.role == "" || q.employeeId == "" {
        return Response(400, "All fields are required", None);
      }
      if storeFails {
        return Response(500, "Enrollment failed", None);
      }
      if q.email in byEmail {
        return Response(409, "User already exists", None);
      }
      if !(q.role == "admin" || q.role == "manager" || q.role == "employee") {
        return Response(500, "Enrollment failed", None);
      }
      var created := StoredEmployee(freshId, q.name, q.employeeId, q.email, q.password, q.role, None);
      byEmail := byEmail[q.email := created];
      r := Response(201, "Enrollment successful", Some(PublicEmployee(created.id, created.name, created.email, created.role)));
    }

    /** `exports.login`: reads the collection and changes nothing. */
    method Login(q: LoginRequest, storeFails: bool) returns (r: Response)
      ensures r == LoginResponse(byEmail, q, storeFails)
    {
      if q.email == "" || q.password == "" || q.role == "" {
        return Response(400, "Missing fields", None);
      }
      if storeFails {
        return Response(500, "Login failed", None);
      }
      if q.email !in byEmail || byEmail[q.email].role != q.role || byEmail[q.email].password != q.password {
        return Response(401, "Invalid credentials", None);
      }
      var e := byEmail[q.email];
      r := Response(200, "Login successful", Some(PublicEmployee(e.id, e.name, e.email, e.role)));
    }
  }
}

=== FILE: common.dfy ===
/**
 * Shared vocabulary of the attendance application: optional values, the
 * list operations the pages use (filter, find, count, sum, slice from the
 * end) and the case-insensitive substring test behind every search box.
 */
module Common {

  datatype Option<T> = None | Some(value: T)

  /** A time of day as minutes since midnight (an `HH:MM` string in the source). */
  type Minute = m: int | 0 <= m < 1440

  /** The two attendance events every store accepts. */
  datatype EventType = CheckIn | CheckOut

  // ---------------------------------------------------------------------------
  // Sequences
  // ---------------------------------------------------------------------------

  /** `a` is an order-preserving subsequence of `b`. */
  ghost predicate IsSubsequence<T>(a: seq<T>, b: seq<T>)
    decreases |b|
  {
    a == [] ||
    (b != [] && ((a[0] == b[0] && IsSubsequence(a[1..], b[1..])) || IsSubsequence(a, b[1..])))
  }

  /** One field of an object spread `{...before, ...patch}`: the patch's value when it supplies
      one, the old value otherwise. */
  predicate Overlaid<T(==)>(patch: Option<T>, before: T, after: T)
  {
    (patch.Some? ==> after == patch.value) && (patch.None? ==> after == before)
  }

  /** A common first element can be kept on both sides. */
  lemma SubsequenceCons<T>(x: T, a: seq<T>, b: seq<T>)
    requires IsSubsequence(a, b)
    ensures IsSubsequence([x] + a, [x] + b)
  {
    assert ([x] + a)[1..] == a && ([x] + b)[1..] == b;
  }

  /** An element of the longer sequence can be skipped. */
  lemma SubsequenceSkip<T>(x: T, a: seq<T>, b: seq<T>)
    requires IsSubsequence(a, b)
    ensures IsSubsequence(a, [x] + b)
  {
    assert ([x] + b)[1..] == b;
  }

  /** `Array.prototype.filter`. */
  function Filter<T(!new)>(s: seq<T>, p: T -> bool): (r: seq<T>)
    ensures |r| <= |s|
    ensures forall x :: x in r <==> x in s && p(x)
    ensures forall i :: 0 <= i < |r| ==> p(r[i])
  {
    if s == [] then []
    else if p(s[0]) then [s[0]] + Filter(s[1..], p)
    else Filter(s[1..], p)
  }

  lemma {:induction false} FilterIsSubsequence<T(!new)>(s: seq<T>, p: T -> bool)
    ensures IsSubsequence(Filter(s, p), s)
  {
    if s != [] {
      FilterIsSubsequence(s[1..], p);
      if p(s[0]) {
        assert Filter(s, p)[1..] == Filter(s[1..], p);
      }
    }
  }

  lemma {:induction false} FilterAppend<T(!new)>(a: seq<T>, b: seq<T>, p: T -> bool)
    ensures Filter(a + b, p) == Filter(a, p) + Filter(b, p)
  {
    if a == [] {
      assert a + b == b;
    } else {
      assert (a + b)[1..] == a[1..] + b;
      FilterAppend(a[1..], b, p);
    }
  }

  /** A filter that keeps everything is the identity. */
  lemma {:induction false} FilterAll<T(!new)>(s: seq<T>, p: T -> bool)
    requires forall x :: x in s ==> p(x)
    ensures Filter(s, p) == s
  {
    if s != [] {
      FilterAll(s[1..], p);
    }
  }

  /** Nothing passes the filter when no element satisfies the predicate. */
  lemma {:induction false} FilterNone<T(!new)>(s: seq<T>, p: T -> bool)
    requires forall x :: x in s ==> !p(x)
    ensures Filter(s, p) == []
  {
    if s != [] {
      FilterNone(s[1..], p);
    }
  }

  /** `filter(p).length`. */
  function Count<T(!new)>(s: seq<T>, p: T -> bool): (n: nat)
    ensures n <= |s|
  {
    |Filter(s, p)|
  }

  lemma CountAppend<T(!new)>(a: seq<T>, b: seq<T>, p: T -> bool)
    ensures Count(a + b, p) == Count(a, p) + Count(b, p)
  {
    FilterAppend(a, b, p);
  }

  /** Elements satisfying `p` and elements failing it together make up the whole list. */
  lemma {:induction false} CountComplement<T(!new)>(s: seq<T>, p: T -> bool, q: T -> bool)
    requires forall x :: q(x) == !p(x)
    ensures Count(s, p) + Count(s, q) == |s|
  {
    if s != [] {
      CountComplement(s[1..], p, q);
    }
  }

  /** Elements satisfying one of two mutually exclusive predicates are at most all of them. */
  lemma {:induction false} CountDisjoint<T(!new)>(s: seq<T>, p: T -> bool, q: T -> bool)
    requires forall x :: !(p(x) && q(x))
    ensures Count(s, p) + Count(s, q) <= |s|
  {
    if s != [] {
      CountDisjoint(s[1..], p, q);
    }
  }

  /** Elements satisfying one of three mutually exclusive predicates are at most all of them. */
  lemma {:induction false} CountDisjoint3<T(!new)>(s: seq<T>, p: T -> bool, q: T -> bool, r: T -> bool)
    requires forall x :: !(p(x) && q(x)) && !(p(x) && r(x)) && !(q(x) && r(x))
    ensures Count(s, p) + Count(s, q) + Count(s, r) <= |s|
  {
    if s != [] {
      CountDisjoint3(s[1..], p, q, r);
    }
  }

  /** Counting at the end of a list. */
  lemma CountSnoc<T(!new)>(s: seq<T>, x: T, p: T -> bool)
    ensures Count(s + [x], p) == Count(s, p) + if p(x) then 1 else 0
  {
    CountAppend(s, [x], p);
    assert Filter([x], p) == if p(x) then [x] else [];
  }

  /** Index of the first element satisfying `p` (`findIndex`, with `None` for -1). */
  function FirstIndex<T>(s: seq<T>, p: T -> bool): (r: Option<nat>)
    ensures r.Some? ==> r.value < |s| && p(s[r.value])
    ensures r.Some? ==> forall j :: 0 <= j < r.value ==> !p(s[j])
    ensures r.None? <==> forall j :: 0 <= j < |s| ==> !p(s[j])
  {
    if s == [] then None
    else if p(s[0]) then Some(0)
    else match FirstIndex(s[1..], p)
      case None => None
      case Some(i) => Some(i + 1)
  }

  /** `Array.prototype.find`: the first element satisfying `p`, if any. */
  function Find<T(!new)>(s: seq<T>, p: T -> bool): (r: Option<T>)
    ensures r.Some? ==> r.value in s && p(r.value)
    ensures r.None? <==> forall x :: x in s ==> !p(x)
    ensures forall i :: 0 <= i < |s| && p(s[i]) && (forall j :: 0 <= j < i ==> !p(s[j])) ==> r == Some(s[i])
  {
    match FirstIndex(s, p)
    case None => None
    case Some(i) => Some(s[i])
  }

  /** Filtering twice is filtering by both conditions. */
  lemma {:induction false} FilterFilter<T(!new)>(s: seq<T>, p: T -> bool, q: T -> bool, both: T -> bool)
    requires forall x :: both(x) == (p(x) && q(x))
    ensures Filter(Filter(s, p), q) == Filter(s, both)
  {
    if s != [] {
      FilterFilter(s[1..], p, q, both);
      if p(s[0]) {
        assert Filter(s, p)[1..] == Filter(s[1..], p);
      }
    }
  }

  /** Finding in a filtered list is finding by both conditions. */
  lemma {:induction false} FindFilter<T(!new)>(s: seq<T>, p: T -> bool, q: T -> bool, both: T -> bool)
    requires forall x :: both(x) == (p(x) && q(x))
    ensures Find(Filter(s, p), q) == Find(s, both)
  {
    if s != [] {
      FindFilter(s[1..], p, q, both);
      if p(s[0]) {
        assert Filter(s, p) == [s[0]] + Filter(s[1..], p);
        assert ([s[0]] + Filter(s[1..], p))[1..] == Filter(s[1..], p);
      }
    }
  }

  /** Two lists of equal length on which `p` agrees position by position have the same first match. */
  lemma {:induction false} FirstIndexAgrees<T>(s: seq<T>, t: seq<T>, p: T -> bool)
    requires |s| == |t|
    requires forall i :: 0 <= i < |s| ==> p(s[i]) == p(t[i])
    ensures FirstIndex(s, p) == FirstIndex(t, p)
  {
    if s != [] {
      FirstIndexAgrees(s[1..], t[1..], p);
    }
  }

  /** Integer `reduce((acc, x) => acc + f(x), 0)`. */
  function Sum<T>(s: seq<T>, f: T -> int): int
  {
    if s == [] then 0 else f(s[0]) + Sum(s[1..], f)
  }

  lemma {:induction false} SumAppend<T>(a: seq<T>, b: seq<T>, f: T -> int)
    ensures Sum(a + b, f) == Sum(a, f) + Sum(b, f)
  {
    if a == [] {
      assert a + b == b;
    } else {
      assert (a + b)[1..] == a[1..] + b;
      SumAppend(a[1..], b, f);
    }
  }

  /** Summing `f` only over the elements that satisfy `p`. */
  lemma {:induction false} SumFilter<T(!new)>(s: seq<T>, p: T -> bool, f: T -> int, g: T -> int)
    requires forall x :: g(x) == (if p(x) then f(x) else 0)
    ensures Sum(Filter(s, p), f) == Sum(s, g)
  {
    if s != [] {
      SumFilter(s[1..], p, f, g);
      if p(s[0]) {
        assert Filter(s, p) == [s[0]] + Filter(s[1..], p);
        assert ([s[0]] + Filter(s[1..], p))[1..] == Filter(s[1..], p);
      }
    }
  }

  /** Real-valued `reduce((acc, x) => acc + f(x), 0)`. */
  function SumReal<T>(s: seq<T>, f: T -> real): real
  {
    if s == [] then 0.0 else f(s[0]) + SumReal(s[1..], f)
  }

  lemma {:induction false} SumRealAppend<T>(a: seq<T>, b: seq<T>, f: T -> real)
    ensures SumReal(a + b, f) == SumReal(a, f) + SumReal(b, f)
  {
    if a == [] {
      assert a + b == b;
    } else {
      assert (a + b)[1..] == a[1..] + b;
      SumRealAppend(a[1..], b, f);
    }
  }

  /** Summing `f` only over the elements that satisfy `p`. */
  lemma {:induction false} SumRealFilter<T(!new)>(s: seq<T>, p: T -> bool, f: T -> real, g: T -> real)
    requires forall x :: g(x) == (if p(x) then f(x) else 0.0)
    ensures SumReal(Filter(s, p), f) == SumReal(s, g)
  {
    if s != [] {
      SumRealFilter(s[1..], p, f, g);
      if p(s[0]) {
        assert Filter(s, p) == [s[0]] + Filter(s[1..], p);
        assert ([s[0]] + Filter(s[1..], p))[1..] == Filter(s[1..], p);
      }
    }
  }

  /** No element repeats. */
  predicate Distinct<T(==)>(s: seq<T>)
  {
    forall i, j :: 0 <= i < j < |s| ==> s[i] != s[j]
  }

  /** The position of the first occurrence of `x` in `s`. */
  function IndexOf<T(==,!new)>(s: seq<T>, x: T): (i: nat)
    requires x in s
    ensures i < |s| && s[i] == x
    ensures forall j :: 0 <= j < i ==> s[j] != x
  {
    if s[0] == x then 0 else 1 + IndexOf(s[1..], x)
  }

  /** Appending an element does not move the first occurrence of anything already present. */
  lemma {:induction false} IndexOfExtend<T(!new)>(init: seq<T>, last: T, x: T)
    requires x in init
    ensures x in init + [last] && IndexOf(init + [last], x) == IndexOf(init, x)
  {
    if init[0] != x {
      assert (init + [last])[1..] == init[1..] + [last];
      IndexOfExtend(init[1..], last, x);
    }
  }

  /** A value seen for the first time at the end is found at the end. */
  lemma {:induction false} IndexOfLast<T(!new)>(init: seq<T>, last: T)
    requires last !in init
    ensures IndexOf(init + [last], last) == |init|
  {
    if init != [] {
      assert (init + [last])[1..] == init[1..] + [last];
      IndexOfLast(init[1..], last);
    }
  }

  /** The step of `Dedup`: the previous result, extended by the last element when it is new,
      keeps its properties over the longer sequence. */
  lemma DedupStep<T(!new)>(init: seq<T>, last: T, d: seq<T>, r: seq<T>)
    requires forall x :: x in d <==> x in init
    requires forall i, j :: 0 <= i < j < |d| ==> IndexOf(init, d[i]) < IndexOf(init, d[j])
    requires r == if last in d then d else d + [last]
    ensures forall x :: x in r <==> x in init + [last]
    ensures forall i, j :: 0 <= i < j < |r| ==> IndexOf(init + [last], r[i]) < IndexOf(init + [last], r[j])
  {
    var s := init + [last];
    forall x | x in init ensures IndexOf(s, x) == IndexOf(init, x) && IndexOf(init, x) < |init|
    {
      IndexOfExtend(init, last, x);
    }
    if last !in d {
      IndexOfLast(init, last);
    }
    forall i, j | 0 <= i < j < |r| ensures IndexOf(s, r[i]) < IndexOf(s, r[j])
    {
      assert r[i] == d[i] && d[i] in d;
      if j < |d| {
        assert r[j] == d[j] && d[j] in d;
      }
    }
  }

  /** `Array.from(new Set(s))`: every value once, in order of first appearance. */
  function Dedup<T(==,!new)>(s: seq<T>): (r: seq<T>)
    ensures Distinct(r)
    ensures forall x :: x in r <==> x in s
    ensures forall i, j :: 0 <= i < j < |r| ==> IndexOf(s, r[i]) < IndexOf(s, r[j])
    decreases |s|
  {
    if s == [] then []
    else
      var init, last := s[..|s| - 1], s[|s| - 1];
      assert s == init + [last];
      var d := Dedup(init);
      var r := if last in d then d else d + [last];
      DedupStep(init, last, d, r);
      r
  }

  /** Deduplicating one more element: it is appended iff it is new. */
  lemma DedupSnoc<T(!new)>(s: seq<T>, x: T)
    ensures Dedup(s + [x]) == if x in Dedup(s) then Dedup(s) else Dedup(s) + [x]
  {
    assert (s + [x])[..|s + [x]| - 1] == s;
  }

  /** A number as JavaScript computes it: a division by zero gives an infinity or NaN. */
  datatype JsNumber = Finite(value: real) | PositiveInfinity | NegativeInfinity | NaN

  /** `a / b` in JavaScript. */
  function Divide(a: real, b: real): (n: JsNumber)
    ensures b != 0.0 ==> n == Finite(a / b)
    ensures b == 0.0 ==> (n == NaN <==> a == 0.0)
    ensures b == 0.0 && a > 0.0 ==> n == PositiveInfinity
    ensures b == 0.0 && a < 0.0 ==> n == NegativeInfinity
  {
    if b != 0.0 then Finite(a / b)
    else if a > 0.0 then PositiveInfinity
    else if a < 0.0 then NegativeInfinity
    else NaN
  }

  /** `n || 0`: NaN (and zero) become zero. */
  function OrZero(n: JsNumber): (m: JsNumber)
    ensures m != NaN
    ensures n != NaN ==> m == n
  {
    if n == NaN then Finite(0.0) else n
  }

  /** `slice(-k)` for k > 0: the last `k` elements, or all of them when there are fewer. */
  function LastN<T>(s: seq<T>, k: nat): (r: seq<T>)
    ensures |r| == if |s| < k then |s| else k
    ensures forall i :: 0 <= i < |r| ==> r[i] == s[|s| - |r| + i]
  {
    var m := if |s| < k then |s| else k;
    seq(m, i requires 0 <= i < m => s[|s| - m + i])
  }

  /** `slice(0, k)`: the first `k` elements, or all of them when there are fewer. */
  function FirstN<T>(s: seq<T>, k: nat): (r: seq<T>)
    ensures |r| == if |s| < k then |s| else k
    ensures forall i :: 0 <= i < |r| ==> r[i] == s[i]
  {
    if |s| <= k then s else s[..k]
  }

  // ---------------------------------------------------------------------------
  // Text
  // ---------------------------------------------------------------------------

  /** `toLowerCase` on one character (ASCII letters only). */
  function LowerChar(c: char): (d: char)
    ensures 'A' <= c <= 'Z' ==> d as int == c as int + 32
    ensures !('A' <= c <= 'Z') ==> d == c
  {
    if 'A' <= c <= 'Z' then (c as int + 32) as char else c
  }

  function Lower(s: string): (t: string)
    ensures |t| == |s|
    ensures forall i :: 0 <= i < |s| ==> t[i] == LowerChar(s[i])
  {
    seq(|s|, i requires 0 <= i < |s| => LowerChar(s[i]))
  }

  predicate IsPrefix(p: string, s: string)
  {
    |p| <= |s| && s[..|p|] == p
  }

  /** `String.prototype.includes`. */
  predicate Contains(s: string, t: string)
    decreases |s|
  {
    IsPrefix(t, s) || (s != [] && Contains(s[1..], t))
  }

  /** `t` occurs in `s` starting at position `i`. */
  predicate OccursAt(s: string, t: string, i: int)
  {
    0 <= i <= |s| - |t| && s[i..i + |t|] == t
  }

  /** `Contains` holds exactly when `t` occurs in `s` at some position. */
  lemma {:induction false} ContainsIffOccurs(s: string, t: string)
    ensures Contains(s, t) <==> exists i :: OccursAt(s, t, i)
  {
    if s == [] {
      if Contains(s, t) {
        assert OccursAt(s, t, 0);
      }
    } else {
      ContainsIffOccurs(s[1..], t);
      if Contains(s, t) {
        if IsPrefix(t, s) {
          assert OccursAt(s, t, 0);
        } else {
          var i :| OccursAt(s[1..], t, i);
          SliceOfTail(s, i + 1, |t|);
          assert OccursAt(s, t, i + 1);
        }
      } else {
        forall i | OccursAt(s, t, i) && i > 0
          ensures OccursAt(s[1..], t, i - 1)
        {
          SliceOfTail(s, i, |t|);
        }
      }
    }
  }

  /** A slice of the tail is the slice of the whole shifted by one. */
  lemma SliceOfTail(s: string, i: int, n: nat)
    requires 1 <= i && i + n <= |s|
    ensures s[1..][i - 1..i - 1 + n] == s[i..i + n]
  {
  }

  /** Every string contains the empty string: an empty search term matches everything. */
  lemma {:induction false} ContainsEmpty(s: string)
    ensures Contains(s, "")
  {
    assert IsPrefix("", s);
  }

  /** Every string contains itself. */
  lemma ContainsSelf(s: string)
    ensures Contains(s, s)
  {
    assert IsPrefix(s, s);
  }

  /** `a.toLowerCase().includes(b.toLowerCase())`. */
  predicate ContainsIgnoringCase(s: string, t: string)
  {
    Contains(Lower(s), Lower(t))
  }

  lemma ContainsIgnoringCaseEmpty(s: string)
    ensures ContainsIgnoringCase(s, "")
  {
    assert Lower("") == "";
    ContainsEmpty(Lower(s));
  }
  /** The characters `String.prototype.trim` removes: the ECMAScript WhiteSpace and
      LineTerminator code points (ECMA-262, sections 12.2 and 12.3). */
  predicate IsJsSpace(c: char)
  {
    c == ' ' || c == '\t' || c == '\n' || c == '\r' || c == '\U{000B}' || c == '\U{000C}' ||
    c == '\U{00A0}' || c == '\U{1680}' || ('\U{2000}' <= c <= '\U{200A}') || c == '\U{2028}' ||
    c == '\U{2029}' || c == '\U{202F}' || c == '\U{205F}' || c == '\U{3000}' || c == '\U{FEFF}'
  }

  /** Drops leading white space. */
  function TrimStart(s: string): (r: string)
    ensures |r| <= |s| && r == s[|s| - |r|..]
    ensures r == [] || !IsJsSpace(r[0])
    ensures forall i :: 0 <= i < |s| - |r| ==> IsJsSpace(s[i])
  {
    if s == [] || !IsJsSpace(s[0]) then s else TrimStart(s[1..])
  }

  /** Drops trailing white space. */
  function TrimEnd(s: string): (r: string)
    ensures |r| <= |s| && r == s[..|r|]
    ensures r == [] || !IsJsSpace(r[|r| - 1])
    ensures forall i :: |r| <= i < |s| ==> IsJsSpace(s[i])
  {
    if s == [] || !IsJsSpace(s[|s| - 1]) then s else TrimEnd(s[..|s| - 1])
  }

  /** `String.prototype.trim`: the text between the first and the last non-space character. */
  function Trim(s: string): (r: string)
    ensures r == [] <==> forall i :: 0 <= i < |s| ==> IsJsSpace(s[i])
    ensures r != [] ==> !IsJsSpace(r[0]) && !IsJsSpace(r[|r| - 1])
    ensures exists i :: OccursAt(s, r, i)
  {
    var t := TrimStart(s);
    var r := TrimEnd(t);
    assert s[|s| - |t|..][..|r|] == s[|s| - |t|..|s| - |t| + |r|];
    if r == [] then
      assert OccursAt(s, r, 0);
      r
    else
      assert OccursAt(s, r, |s| - |t|);
      r
  }

  /** JavaScript's `<=` on strings: lexicographic order of the code units. */
  predicate StringLeq(a: string, b: string)
    decreases |a|
  {
    a == [] || (b != [] && (a[0] < b[0] || (a[0] == b[0] && StringLeq(a[1..], b[1..]))))
  }

  lemma {:induction false} StringLeqReflexive(a: string)
    ensures StringLeq(a, a)
  {
    if a != [] {
      StringLeqReflexive(a[1..]);
    }
  }

  lemma {:induction false} StringLeqTotal(a: string, b: string)
    ensures StringLeq(a, b) || StringLeq(b, a)
    decreases |a|
  {
    if a != [] && b != [] && a[0] == b[0] {
      StringLeqTotal(a[1..], b[1..]);
    }
  }

  lemma {:induction false} StringLeqTransitive(a: string, b: string, c: string)
    requires StringLeq(a, b) && StringLeq(b, c)
    ensures StringLeq(a, c)
    decreases |a|
  {
    if a != [] && a[0] == b[0] && b[0] == c[0] {
      StringLeqTransitive(a[1..], b[1..], c[1..]);
    }
  }
}

=== FILE: dashboard.dfy ===
/**
 * The administrator's dashboard (client/src/pages/Dashboard.tsx): today's
 * present, absent and late figures, the attendance rate and the five most
 * recent attendance events, all derived from the API-backed store.
 */
module Dashboard {
  import opened Common
  import Api
  import LaravelStore

  type Record = Api.AttendanceRecord
  type Employee = LaravelStore.Employee

  /** The figures shown for one day. `absent` is employees minus present, and can go below zero. */
  datatype DayCounts = DayCounts(present: nat, absent: int, late: nat)

  function TodayAttendance(records: seq<Record>, today: string): (rs: seq<Record>)
    ensures forall r :: r in rs <==> r in records && r.date == today
  {
    Filter(records, (r: Record) => r.date == today)
  }

  /** The counts of the dashboard (and of the manager portal). */
  function CountsFor(employees: seq<Employee>, records: seq<Record>, today: string): (c: DayCounts)
    ensures c.present == Count(records, (r: Record) => r.date == today && r.status == Api.Present)
    ensures c.late == Count(records, (r: Record) => r.date == today && r.status == Api.Late)
    ensures c.present + c.absent == |employees|
  {
    var todays := TodayAttendance(records, today);
    FilterFilter(records, (r: Record) => r.date == today, (r: Record) => r.status == Api.Present,
                 (r: Record) => r.date == today && r.status == Api.Present);
    FilterFilter(records, (r: Record) => r.date == today, (r: Record) => r.status == Api.Late,
                 (r: Record) => r.date == today && r.status == Api.Late);
    var present := Count(todays, (r: Record) => r.status == Api.Present);
    DayCounts(present, |employees| - present, Count(todays, (r: Record) => r.status == Api.Late))
  }

  /** A late record is never counted as present: the two figures together are at most today's records. */
  lemma PresentAndLateAreDisjoint(employees: seq<Employee>, records: seq<Record>, today: string)
    ensures CountsFor(employees, records, today).present + CountsFor(employees, records, today).late
            <= |TodayAttendance(records, today)|
  {
    var todays := TodayAttendance(records, today);
    FilterFilter(records, (r: Record) => r.date == today, (r: Record) => r.status == Api.Present,
                 (r: Record) => r.date == today && r.status == Api.Present);
    FilterFilter(records, (r: Record) => r.date == today, (r: Record) => r.status == Api.Late,
                 (r: Record) => r.date == today && r.status == Api.Late);
    CountDisjoint(todays, (r: Record) => r.status == Api.Present, (r: Record) => r.status == Api.Late);
  }

  /** Nothing clamps the absent figure: one present record and no employees show -1 absent. */
  lemma AbsentCanBeNegative()
    ensures CountsFor([], [Api.AttendanceRecord("1", "1", "2024-01-02", Some(540), None, Api.Present)], "2024-01-02").absent == -1
  {
    var records := [Api.AttendanceRecord("1", "1", "2024-01-02", Some(540), None, Api.Present)];
    var p := (r: Record) => r.date == "2024-01-02" && r.status == Api.Present;
    assert Filter(records, p) == [records[0]];
  }

  /** `attendanceRate`: present over employees as a percentage, 0 with no employees. */
  function AttendanceRate(counts: DayCounts, employeeCount: nat): (rate: real)
    ensures employeeCount == 0 ==> rate == 0.0
    ensures employeeCount > 0 ==> rate == counts.present as real * 100.0 / employeeCount as real
    ensures employeeCount > 0 && counts.present <= employeeCount ==> 0.0 <= rate <= 100.0
  {
    if employeeCount > 0 then counts.present as real / employeeCount as real * 100.0 else 0.0
  }

  datatype Action = CheckedIn | CheckedOut
  datatype Tone = Success | Warning | Failure

  /** One line of the activity list; a missing time is shown as "N/A". */
  datatype Activity = Activity(name: string, action: Action, time: Option<Minute>, tone: Tone)

  const UnknownEmployee := "Unknown Employee"

  function EmployeeName(employees: seq<Employee>, id: string): (name: string)
    ensures forall i :: 0 <= i < |employees| && employees[i].id == id && (forall j :: 0 <= j < i ==> employees[j].id != id) ==>
      name == if employees[i].name != "" then employees[i].name else UnknownEmployee
    ensures (forall e :: e in employees ==> e.id != id) ==> name == UnknownEmployee
  {
    match Find(employees, (e: Employee) => e.id == id)
    case Some(e) => if e.name != "" then e.name else UnknownEmployee
    case None => UnknownEmployee
  }

  /** How one record is shown: checked out iff it has a check-out, which is then the time shown. */
  function ActivityOf(employees: seq<Employee>, r: Record): (a: Activity)
    ensures a.action == CheckedOut <==> r.checkOut.Some?
    ensures a.time == if r.checkOut.Some? then r.checkOut else r.checkIn
    ensures a.time.None? <==> r.checkIn.None? && r.checkOut.None?
    ensures a.tone == Success <==> r.status == Api.Present
    ensures a.tone == Warning <==> r.status == Api.Late
    ensures a.name == EmployeeName(employees, r.employeeId)
  {
    Activity(
      EmployeeName(employees, r.employeeId),
      if r.checkOut.Some? then CheckedOut else CheckedIn,
      if r.checkOut.Some? then r.checkOut else r.checkIn,
      if r.status == Api.Present then Success else if r.status == Api.Late then Warning else Failure)
  }

  /** `recentActivities`: the last `n` records, in list order, each shown by `ActivityOf`. */
  function RecentActivities(employees: seq<Employee>, records: seq<Record>, n: nat): (acts: seq<Activity>)
    ensures |acts| == if |records| < n then |records| else n
    ensures forall i :: 0 <= i < |acts| ==> acts[i] == ActivityOf(employees, records[|records| - |acts| + i])
  {
    var last := LastN(records, n);
    seq(|last|, i requires 0 <= i < |last| => ActivityOf(employees, last[i]))
  }

  /** Each activity is labelled "checked out" exactly when its record has a check-out. */
  lemma RecentActions(employees: seq<Employee>, records: seq<Record>, n: nat)
    ensures var acts := RecentActivities(employees, records, n);
      forall i :: 0 <= i < |acts| ==>
        (acts[i].action == CheckedOut <==> records[|records| - |acts| + i].checkOut.Some?)
  {
    var acts := RecentActivities(employees, records, n);
    forall i | 0 <= i < |acts|
      ensures acts[i].action == CheckedOut <==> records[|records| - |acts| + i].checkOut.Some?
    {
      assert acts[i] == ActivityOf(employees, records[|records| - |acts| + i]);
    }
  }

  const DashboardActivityCount := 5
}

=== FILE: database.dfy ===
/**
 * The mock data service (client/src/services/database.ts): record builders
 * for attendance, employees and payroll runs, and the by-employee selection
 * of the canned salary structures and attendance summaries.
 */
module DatabaseService {
  import opened Common

  // ---------------------------------------------------------------------------
  // Attendance
  // ---------------------------------------------------------------------------

  datatype DbAttendanceRecord = DbAttendanceRecord(
    id: string, employeeId: string, date: string, checkIn: Option<Minute>, checkOut: Option<Minute>,
    status: string, totalHours: int, overtimeHours: int, breakDuration: int, createdAt: string, updatedAt: string)

  /** `markAttendance`: a fresh record with only the time of the event's kind set, present, and zero totals.
      `time` is the `HH:MM` of the timestamp; `nowMillis` and `nowIso` are the clock. */
  function MarkAttendance(employeeId: string, eventType: EventType, today: string, time: Minute,
                          nowMillis: string, nowIso: string): (r: DbAttendanceRecord)
    ensures r.checkIn.Some? <==> eventType == CheckIn
    ensures r.checkOut.Some? <==> eventType == CheckOut
    ensures r.checkIn.Some? ==> r.checkIn.value == time
    ensures r.checkOut.Some? ==> r.checkOut.value == time
    ensures r.employeeId == employeeId && r.date == today && r.id == nowMillis
    ensures r.status == "present" && r.totalHours == 0 && r.overtimeHours == 0 && r.breakDuration == 0
    ensures r.createdAt == nowIso && r.updatedAt == nowIso
  {
    DbAttendanceRecord(nowMillis, employeeId, today,
      if eventType == CheckIn then Some(time) else None,
      if eventType == CheckOut then Some(time) else None,
      "present", 0, 0, 0, nowIso, nowIso)
  }

  // ---------------------------------------------------------------------------
  // Employees
  // ---------------------------------------------------------------------------

  datatype EmployeeStatus = Active | Inactive | Terminated

  /** The fields a caller supplies: `Omit<Employee, 'id' | 'created_at' | 'updated_at'>`. */
  datatype EmployeeData = EmployeeData(
    employeeId: string, userId: Option<string>, name: string, email: Option<string>, phone: Option<string>,
    position: string, department: string, hireDate: string, status: EmployeeStatus, address: Option<string>,
    emergencyContactName: Option<string>, emergencyContactPhone: Option<string>,
    biometricData: Option<string>, profileImageUrl: Option<string>)

  /** A stored employee: the supplied fields plus the id and the two timestamps. */
  datatype DbEmployee = DbEmployee(data: EmployeeData, id: string, createdAt: string, updatedAt: string)

  /** `createEmployee`: every supplied field is kept; the id is the clock in milliseconds and both
      timestamps are the current time. */
  function CreateEmployee(employeeData: EmployeeData, nowMillis: string, nowIso: string): (e: DbEmployee)
    ensures e.data == employeeData
    ensures e.id == nowMillis && e.createdAt == nowIso && e.updatedAt == nowIso
  {
    DbEmployee(employeeData, nowMillis, nowIso, nowIso)
  }

  /** Two employees created at different milliseconds get different ids, whatever their data. */
  lemma CreatedIdsFollowTheClock(a: EmployeeData, b: EmployeeData, t1: string, t2: string, iso1: string, iso2: string)
    ensures CreateEmployee(a, t1, iso1).id == CreateEmployee(b, t2, iso2).id <==> t1 == t2
  {
  }

  // ---------------------------------------------------------------------------
  // Selection by employee
  // ---------------------------------------------------------------------------

  /** `employeeId ? items.filter(i => i.employee_id === employeeId) : items`: an empty id selects everything. */
  function ForEmployee<T(!new)>(items: seq<T>, idOf: T -> string, employeeId: string): (rs: seq<T>)
    ensures employeeId == "" ==> rs == items
    ensures employeeId != "" ==> forall x :: x in rs <==> x in items && idOf(x) == employeeId
    ensures IsSubsequence(rs, items)
  {
    FilterIsSubsequence(items, (x: T) => idOf(x) == employeeId);
    if employeeId == "" then
      IsSubsequenceRefl(items);
      items
    else Filter(items, (x: T) => idOf(x) == employeeId)
  }

  lemma {:induction false} IsSubsequenceRefl<T>(s: seq<T>)
    ensures IsSubsequence(s, s)
  {
    if s != [] {
      IsSubsequenceRefl(s[1..]);
    }
  }

  datatype DbSalaryStructure = DbSalaryStructure(
    id: string, employeeId: string, basicSalary: int, houseAllowance: int, transportAllowance: int,
    medicalAllowance: int, otherAllowances: int, grossSalary: int, taxDeduction: int,
    insuranceDeduction: int, otherDeductions: int, netSalary: int, effectiveDate: string, isActive: bool)

  /** The stored figures agree: gross is basic plus allowances, net is gross less deductions. */
  predicate SalaryConsistent(s: DbSalaryStructure)
  {
    s.grossSalary == s.basicSalary + s.houseAllowance + s.transportAllowance + s.medicalAllowance + s.otherAllowances &&
    s.netSalary == s.grossSalary - s.taxDeduction - s.insuranceDeduction - s.otherDeductions
  }

  const MockSalaries: seq<DbSalaryStructure> :=
    [DbSalaryStructure("1", "1", 50000, 10000, 5000, 3000, 2000, 70000, 7000, 2000, 1000, 60000, "2023-01-01", true)]

  /** `getSalaryStructures`. */
  function GetSalaryStructures(employeeId: string): (rs: seq<DbSalaryStructure>)
    ensures employeeId == "" ==> rs == MockSalaries
    ensures employeeId != "" ==> forall s :: s in rs <==> s in MockSalaries && s.employeeId == employeeId
    ensures forall s :: s in rs ==> s in MockSalaries && SalaryConsistent(s)
  {
    ForEmployee(MockSalaries, (s: DbSalaryStructure) => s.employeeId, employeeId)
  }

  datatype AttendanceSummary = AttendanceSummary(
    employeeId: string, name: string, department: string, totalAttendanceRecords: nat,
    presentDays: nat, absentDays: nat, lateDays: nat, avgDailyHours: real, totalOvertimeHours: int)

  const MockSummaries: seq<AttendanceSummary> := [
    AttendanceSummary("1", "John Doe", "Engineering", 22, 20, 2, 1, 8.2, 5),
    AttendanceSummary("2", "Sarah Smith", "HR", 22, 22, 0, 0, 8.0, 2)
  ]

  /** `getEmployeeAttendanceSummary`: present and absent days add up to the records in every row. */
  function GetEmployeeAttendanceSummary(employeeId: string): (rs: seq<AttendanceSummary>)
    ensures employeeId == "" ==> rs == MockSummaries
    ensures employeeId != "" ==> forall s :: s in rs <==> s in MockSummaries && s.employeeId == employeeId
    ensures forall s :: s in rs ==> s.presentDays + s.absentDays == s.totalAttendanceRecords
  {
    ForEmployee(MockSummaries, (s: AttendanceSummary) => s.employeeId, employeeId)
  }

  // ---------------------------------------------------------------------------
  // Payroll
  // ---------------------------------------------------------------------------

  datatype DbPayrollStatus = Draft | Approved | Paid | Cancelled

  datatype DbPayrollRecord = DbPayrollRecord(
    id: string, employeeId: string, salaryStructureId: string, payPeriodStart: string, payPeriodEnd: string,
    workingDays: nat, presentDays: nat, absentDays: nat, lateDays: nat, overtimeHours: int,
    basicSalary: int, allowances: int, overtimeAmount: int, grossSalary: int, deductions: int,
    netSalary: int, bonus: int, finalAmount: int, status: DbPayrollStatus, createdAt: string, updatedAt: string)

  /** The stored figures of a payroll run agree with each other. */
  predicate PayrollConsistent(r: DbPayrollRecord)
  {
    r.grossSalary == r.basicSalary + r.allowances + r.overtimeAmount &&
    r.netSalary == r.grossSalary - r.deductions &&
    r.finalAmount == r.netSalary + r.bonus &&
    r.presentDays + r.absentDays == r.workingDays
  }

  /** What the `map` callback of `processPayroll` reads from the clock for one id:
      `Date.now()` for the id and the ISO time for the timestamps. */
  datatype Reading = Reading(millis: string, iso: string)

  /** The canned run `processPayroll` produces for one employee. */
  function DraftRun(employeeId: string, payPeriodStart: string, payPeriodEnd: string, now: Reading): DbPayrollRecord
  {
    DbPayrollRecord(now.millis + employeeId, employeeId, "1", payPeriodStart, payPeriodEnd,
      22, 20, 2, 0, 0, 50000, 20000, 0, 70000, 10000, 60000, 0, 60000, Draft, now.iso, now.iso)
  }

  /** `processPayroll`: one draft run per requested id, in the same order, over the given period;
      the callback for the `i`-th id reads the clock as `clock[i]`. */
  function ProcessPayroll(employeeIds: seq<string>, payPeriodStart: string, payPeriodEnd: string,
                          clock: seq<Reading>): (rs: seq<DbPayrollRecord>)
    requires |clock| == |employeeIds|
    ensures |rs| == |employeeIds|
    ensures forall i :: 0 <= i < |rs| ==>
      rs[i].employeeId == employeeIds[i] && rs[i].id == clock[i].millis + employeeIds[i] &&
      rs[i].payPeriodStart == payPeriodStart && rs[i].payPeriodEnd == payPeriodEnd &&
      rs[i].createdAt == clock[i].iso && rs[i].updatedAt == clock[i].iso &&
      rs[i].status == Draft && PayrollConsistent(rs[i])
  {
    seq(|employeeIds|, i requires 0 <= i < |employeeIds| =>
      DraftRun(employeeIds[i], payPeriodStart, payPeriodEnd, clock[i]))
  }

  /** Processing the ids of two batches at once gives the two batches' runs, one after the other. */
  lemma ProcessPayrollAppend(a: seq<string>, b: seq<string>, start: string, end: string, ca: seq<Reading>, cb: seq<Reading>)
    requires |ca| == |a| && |cb| == |b|
    ensures ProcessPayroll(a + b, start, end, ca + cb) ==
      ProcessPayroll(a, start, end, ca) + ProcessPayroll(b, start, end, cb)
  {
  }

  /** The same id requested twice yields two runs with the same id exactly when both callbacks
      read the clock in the same millisecond. */
  lemma RepeatedIdsCollide(id: string, start: string, end: string, clock: seq<Reading>)
    requires |clock| == 2
    ensures var rs := ProcessPayroll([id, id], start, end, clock);
      rs[0].id == rs[1].id <==> clock[0].millis == clock[1].millis
  {
    var rs := ProcessPayroll([id, id], start, end, clock);
    if rs[0].id == rs[1].id {
      SameSuffix(clock[0].millis, clock[1].millis, id);
    }
  }

  /** Strings that become equal after appending the same suffix were equal. */
  lemma SameSuffix(a: string, b: string, c: string)
    requires a + c == b + c
    ensures a == b
  {
    assert |a| == |b|;
    assert forall i :: 0 <= i < |a| ==> a[i] == (a + c)[i] == (b + c)[i] == b[i];
  }
}

=== FILE: employee_form.dfy ===
/**
 * The employee registration form (client/src/components/EmployeeForm.tsx):
 * seven required fields and the terms box, an id made of "AE" and the last
 * six digits of the clock, the append to the stored employee list and the
 * reset of the form.
 */
module EmployeeForm {
  import opened Common

  datatype FormData = FormData(
    firstName: string, lastName: string, email: string, phone: string, address: string,
    position: string, department: string, salary: string, joiningDate: string,
    employmentType: string, emergencyContact: string, emergencyPhone: string,
    hasAgreedToTerms: bool)

  /** The blank form, employed full-time by default. */
  const DefaultForm := FormData("", "", "", "", "", "", "", "", "", "full-time", "", "", false)

  datatype Field = FirstName | LastName | Email | Phone | Position | Department | JoiningDate

  /** The fields `validateForm` walks through, in its order. */
  const RequiredFields: seq<Field> := [FirstName, LastName, Email, Phone, Position, Department, JoiningDate]

  function FieldValue(form: FormData, f: Field): string
  {
    match f
    case FirstName => form.firstName
    case LastName => form.lastName
    case Email => form.email
    case Phone => form.phone
    case Position => form.position
    case Department => form.department
    case JoiningDate => form.joiningDate
  }

  /** What the form asks for, field by field. */
  predicate Complete(form: FormData)
  {
    form.firstName != "" && form.lastName != "" && form.email != "" && form.phone != "" &&
    form.position != "" && form.department != "" && form.joiningDate != "" && form.hasAgreedToTerms
  }

  /** `validateForm`: the first empty required field fails the form, then the terms box is checked. */
  method ValidateForm(form: FormData) returns (ok: bool)
    ensures ok <==> Complete(form)
  {
    for i := 0 to |RequiredFields|
      invariant forall j :: 0 <= j < i ==> FieldValue(form, RequiredFields[j]) != ""
    {
      if FieldValue(form, RequiredFields[i]) == "" {
        return false;
      }
    }
    assert FieldValue(form, RequiredFields[0]) != "" && FieldValue(form, RequiredFields[1]) != "";
    assert FieldValue(form, RequiredFields[2]) != "" && FieldValue(form, RequiredFields[3]) != "";
    assert FieldValue(form, RequiredFields[4]) != "" && FieldValue(form, RequiredFields[5]) != "";
    assert FieldValue(form, RequiredFields[6]) != "";
    if !form.hasAgreedToTerms {
      return false;
    }
    return true;
  }

  /** Address, salary, employment type and the emergency contact do not affect validity. */
  lemma OptionalFieldsAreOptional(form: FormData, address: string, salary: string, employmentType: string,
                                  emergencyContact: string, emergencyPhone: string)
    ensures Complete(form) == Complete(form.(address := address, salary := salary, employmentType := employmentType,
                                             emergencyContact := emergencyContact, emergencyPhone := emergencyPhone))
  {
  }

  // ---------------------------------------------------------------------------
  // Employee id
  // ---------------------------------------------------------------------------

  function DigitChar(d: nat): (c: char)
    requires d < 10
  {
    ('0' as int + d) as char
  }

  predicate IsDigitChar(c: char) { '0' <= c <= '9' }

  function DigitValue(c: char): nat
    requires IsDigitChar(c)
  {
    c as int - '0' as int
  }

  /** `n.toString()` for a non-negative integer. */
  function Decimal(n: nat): (s: string)
    ensures |s| >= 1 && forall i :: 0 <= i < |s| ==> IsDigitChar(s[i])
    ensures s[0] == '0' <==> n == 0
    ensures |s| > 1 ==> s[0] != '0'
  {
    if n < 10 then [DigitChar(n)] else Decimal(n / 10) + [DigitChar(n % 10)]
  }

  /** The number a string of digits denotes. */
  function Value(s: string): nat
    requires forall i :: 0 <= i < |s| ==> IsDigitChar(s[i])
  {
    if s == [] then 0 else 10 * Value(s[..|s| - 1]) + DigitValue(s[|s| - 1])
  }

  function Pow10(k: nat): (p: nat)
    ensures p >= 1
  {
    if k == 0 then 1 else 10 * Pow10(k - 1)
  }

  /** Reading back the decimal text gives the number. */
  lemma {:induction false} DecimalRoundTrip(n: nat)
    ensures Value(Decimal(n)) == n
  {
    if n >= 10 {
      DecimalRoundTrip(n / 10);
      var s := Decimal(n);
      assert s[..|s| - 1] == Decimal(n / 10);
    }
  }

  /** `AE${Date.now().toString().slice(-6)}`: the digits after "AE" denote the clock modulo a million. */
  function EmployeeId(now: nat): (id: string)
    ensures |id| >= 3 && id[..2] == "AE"
    ensures forall i :: 2 <= i < |id| ==> IsDigitChar(id[i])
    ensures Value(id[2..]) == now % 1000000
    ensures |id| == 2 + (if |Decimal(now)| < 6 then |Decimal(now)| else 6)
    ensures now >= 100000 ==> |id| == 8
    ensures |id| <= 8
  {
    LastDigitsValue(now, 6);
    assert now >= 100000 ==> |Decimal(now)| >= 6 by {
      if now >= 100000 {
        assert Pow10(5) == 100000 by {
          assert Pow10(2) == 100 && Pow10(4) == 10000;
        }
        DecimalLength(now, 5);
      }
    }
    assert Pow10(6) == 1000000 by {
      assert Pow10(2) == 100 && Pow10(4) == 10000;
    }
    var id := "AE" + LastN(Decimal(now), 6);
    assert id[2..] == LastN(Decimal(now), 6);
    id
  }

  /** The last `k` digits of `n` denote `n` modulo 10^k. */
  lemma {:induction false} LastDigitsValue(n: nat, k: nat)
    ensures Value(LastN(Decimal(n), k)) == n % Pow10(k)
    decreases n
  {
    if k == 0 {
      assert LastN(Decimal(n), k) == [];
    } else if n < 10 {
      assert Pow10(k) >= 10;
      assert LastN(Decimal(n), k) == [DigitChar(n)];
      assert [DigitChar(n)][..0] == [];
      ModUnique(n, Pow10(k), 0, n);
    } else {
      LastDigitsValue(n / 10, k - 1);
      LastDigitsStep(n, k);
    }
  }

  /** The last `k` digits of `n` are the last `k - 1` digits of `n / 10` and then its last digit. */
  lemma LastDigitsSnoc(n: nat, k: nat)
    requires n >= 10 && k >= 1
    ensures LastN(Decimal(n), k) == LastN(Decimal(n / 10), k - 1) + [DigitChar(n % 10)]
  {
    assert Decimal(n) == Decimal(n / 10) + [DigitChar(n % 10)];
    LastNSnoc(Decimal(n / 10), DigitChar(n % 10), k);
  }

  lemma LastDigitsStep(n: nat, k: nat)
    requires n >= 10 && k >= 1
    requires Value(LastN(Decimal(n / 10), k - 1)) == (n / 10) % Pow10(k - 1)
    ensures Value(LastN(Decimal(n), k)) == n % Pow10(k)
  {
    LastDigitsSnoc(n, k);
    DigitsValueStep(LastN(Decimal(n / 10), k - 1), n, Pow10(k - 1));
    assert Pow10(k) == 10 * Pow10(k - 1);
  }

  /** Appending the last digit of `n` to digits denoting `n / 10` modulo `p` gives digits
      denoting `n` modulo `10 * p`. */
  lemma DigitsValueStep(low: string, n: nat, p: nat)
    requires forall i :: 0 <= i < |low| ==> IsDigitChar(low[i])
    requires p >= 1 && Value(low) == (n / 10) % p
    ensures Value(low + [DigitChar(n % 10)]) == n % (10 * p)
  {
    ValueSnoc(low, DigitChar(n % 10));
    ModTenSplit(n, p);
  }

  /** Splitting off the last decimal digit commutes with reduction modulo 10p. */
  lemma ModTenSplit(n: nat, p: nat)
    requires p >= 1
    ensures n % (10 * p) == 10 * ((n / 10) % p) + n % 10
  {
    var q, r := n / 10, n % 10;
    var a, b := q / p, q % p;
    assert n == 10 * q + r;
    assert q == p * a + b;
    assert n == (10 * p) * a + (10 * b + r) by {
      assert 10 * q == 10 * (p * a) + 10 * b;
      assert 10 * (p * a) == (10 * p) * a;
    }
    assert 0 <= 10 * b + r < 10 * p;
    ModUnique(n, 10 * p, a, 10 * b + r);
  }

  /** A larger factor adds at least one more `m`. */
  lemma MulNext(m: nat, x: nat, y: nat)
    requires x < y
    ensures m * x + m <= m * y
  {
    var d: nat := y - x - 1;
    assert y == (x + 1) + d;
    assert m * y == m * (x + 1) + m * d;
    assert m * (x + 1) == m * x + m;
    assert m * d >= 0;
  }

  /** The remainder is the unique `c` below `m` with `n == m * a + c`. */
  lemma ModUnique(n: nat, m: nat, a: nat, c: nat)
    requires 0 <= c < m && n == m * a + c
    ensures n % m == c
  {
    var q, r := n / m, n % m;
    assert n == m * q + r;
    if q > a {
      MulNext(m, a, q);
    } else if q < a {
      MulNext(m, q, a);
    }
  }

  /** Appending a digit multiplies the value by ten and adds the digit. */
  lemma ValueSnoc(s: string, c: char)
    requires forall i :: 0 <= i < |s| ==> IsDigitChar(s[i])
    requires IsDigitChar(c)
    ensures Value(s + [c]) == 10 * Value(s) + DigitValue(c)
  {
    assert (s + [c])[..|s|] == s;
  }

  /** A number of at least 10^k has more than `k` digits. */
  lemma {:induction false} DecimalLength(n: nat, k: nat)
    requires n >= Pow10(k)
    ensures |Decimal(n)| >= k + 1
  {
    if k > 0 {
      assert n / 10 >= Pow10(k - 1);
      DecimalLength(n / 10, k - 1);
    }
  }

  /** `x * 10^k`. */
  function Shifted(x: nat, k: nat): nat
  {
    if k == 0 then x else 10 * Shifted(x, k - 1)
  }

  /** Adding a multiple of 10^k does not change the last `k` digits of a number that has at least `k`. */
  lemma {:induction false} LastDigitsIgnoreHigherPlaces(n: nat, x: nat, k: nat)
    requires |Decimal(n)| >= k
    ensures LastN(Decimal(n + Shifted(x, k)), k) == LastN(Decimal(n), k)
  {
    if k > 0 {
      if n >= 10 {
        DropLastDigit(n, k);
        LastDigitsIgnoreHigherPlaces(n / 10, x, k - 1);
        LastDigitStep(n, x, k);
      } else {
        LastDigitOfSmall(n, x, k);
      }
    }
  }

  /** A number of two or more digits has one digit fewer after dropping the last. */
  lemma DropLastDigit(n: nat, k: nat)
    requires n >= 10 && 1 <= k <= |Decimal(n)|
    ensures k - 1 <= |Decimal(n / 10)|
  {
  }

  /** The last `k` digits are the last `k - 1` digits of the rest followed by the last digit. */
  lemma LastDigitStep(n: nat, x: nat, k: nat)
    requires n >= 10 && k >= 1
    requires LastN(Decimal(n / 10 + Shifted(x, k - 1)), k - 1) == LastN(Decimal(n / 10), k - 1)
    ensures LastN(Decimal(n + Shifted(x, k)), k) == LastN(Decimal(n), k)
  {
    var big := Shifted(x, k - 1);
    assert Shifted(x, k) == 10 * big;
    DivModTen(n, big);
    assert Decimal(n) == Decimal(n / 10) + [DigitChar(n % 10)];
    assert Decimal(n + 10 * big) == Decimal(n / 10 + big) + [DigitChar(n % 10)];
    LastNSnoc(Decimal(n / 10), DigitChar(n % 10), k);
    LastNSnoc(Decimal(n / 10 + big), DigitChar(n % 10), k);
  }

  /** A one-digit number keeps its digit as the last digit when tens are added. */
  lemma LastDigitOfSmall(n: nat, x: nat, k: nat)
    requires n < 10 && 1 <= k <= |Decimal(n)|
    ensures LastN(Decimal(n + Shifted(x, k)), k) == LastN(Decimal(n), k)
  {
    var big := Shifted(x, k - 1);
    assert Shifted(x, k) == 10 * big;
    if big > 0 {
      DivModTen(n, big);
      assert Decimal(n + 10 * big) == Decimal(n / 10 + big) + [DigitChar(n)];
      LastNSnoc(Decimal(n / 10 + big), DigitChar(n), 1);
      LastNSnoc([], DigitChar(n), 1);
    }
  }

  lemma DivModTen(n: nat, big: nat)
    ensures (n + 10 * big) / 10 == n / 10 + big && (n + 10 * big) % 10 == n % 10
  {
  }

  lemma LastNSnoc<T>(s: seq<T>, c: T, k: nat)
    requires k >= 1
    ensures LastN(s + [c], k) == LastN(s, k - 1) + [c]
  {
    if |s| + 1 > k {
      assert (s + [c])[|s| + 1 - k..] == s[|s| - (k - 1)..] + [c];
    }
  }

  /** Once the clock has six digits, registrations a multiple of a million milliseconds apart
      get the same id: ids repeat about every seventeen minutes. */
  lemma IdsRepeat(now: nat, x: nat)
    requires now >= 100000
    ensures EmployeeId(now) == EmployeeId(now + 1000000 * x)
  {
    assert Pow10(5) == 100000 by {
      assert Pow10(1) == 10 && Pow10(2) == 100 && Pow10(3) == 1000 && Pow10(4) == 10000;
    }
    assert Shifted(x, 6) == 1000000 * x by {
      assert Shifted(x, 1) == 10 * x && Shifted(x, 2) == 100 * x && Shifted(x, 3) == 1000 * x;
      assert Shifted(x, 4) == 10000 * x && Shifted(x, 5) == 100000 * x;
    }
    DecimalLength(now, 5);
    LastDigitsIgnoreHigherPlaces(now, x, 6);
  }

  // ---------------------------------------------------------------------------
  // Submission
  // ---------------------------------------------------------------------------

  /** A stored employee: the form as filled in, the id, the registration time and "active". */
  datatype StoredEmployee = StoredEmployee(form: FormData, id: string, registrationDate: string, status: string)

  class EmployeeFormPage {
    var formData: FormData
    var isLoading: bool
    var storedEmployees: seq<StoredEmployee>

    constructor (stored: Option<seq<StoredEmployee>>)
      ensures formData == DefaultForm && !isLoading
      ensures storedEmployees == (if stored.Some? then stored.value else [])
    {
      formData := DefaultForm;
      isLoading := false;
      storedEmployees := if stored.Some? then stored.value else [];
    }

    /** `handleSubmit`: an incomplete form changes nothing; a complete one appends exactly one
        active employee with a fresh id and resets the form. */
    method HandleSubmit(now: nat, registrationDate: string) returns (id: Option<string>)
      modifies this
      ensures id.Some? <==> Complete(old(formData))
      ensures id.None? ==> formData == old(formData) && storedEmployees == old(storedEmployees) && isLoading == old(isLoading)
      ensures id.Some? ==>
        id.value == EmployeeId(now) &&
        storedEmployees == old(storedEmployees) + [StoredEmployee(old(formData), EmployeeId(now), registrationDate, "active")] &&
        formData == DefaultForm && !isLoading
    {
      var ok := ValidateForm(formData);
      if !ok {
        return None;
      }
      isLoading := true;
      var employeeId := EmployeeId(now);
      storedEmployees := storedEmployees + [StoredEmployee(formData, employeeId, registrationDate, "active")];
      formData := DefaultForm;
      isLoading := false;
      return Some(employeeId);
    }
  }
}

=== FILE: employee_management.dfy ===
/**
 * The employee list page (client/src/pages/EmployeeManagement.tsx): the
 * department drop-down ("all" and then each department once, in order of
 * first appearance), the search-and-department filter and the stat cards.
 */
module EmployeeManagement {
  import opened Common
  import Api
  import LaravelStore

  type Employee = LaravelStore.Employee

  /** A sequence without repeats has as many values as elements. */
  lemma {:induction false} DistinctCardinality<T(!new)>(s: seq<T>)
    requires Distinct(s)
    ensures |set x | x in s| == |s|
  {
    if s != [] {
      var t := s[1..];
      assert Distinct(t);
      DistinctCardinality(t);
      assert (set x | x in s) == (set x | x in t) + {s[0]};
      assert s[0] !in (set x | x in t);
    }
  }

  function DepartmentsOf(employees: seq<Employee>): (ds: seq<string>)
    ensures |ds| == |employees|
    ensures forall i :: 0 <= i < |ds| ==> ds[i] == employees[i].department
  {
    seq(|employees|, i requires 0 <= i < |employees| => employees[i].department)
  }

  /** `departments`: "all" followed by each department once. */
  function Departments(employees: seq<Employee>): (ds: seq<string>)
    ensures |ds| >= 1 && ds[0] == "all"
    ensures ds[1..] == Dedup(DepartmentsOf(employees))
    ensures Distinct(ds[1..])
    ensures forall d :: d in ds[1..] <==> exists e :: e in employees && e.department == d
  {
    var all := DepartmentsOf(employees);
    assert forall d :: d in all <==> exists e :: e in employees && e.department == d by {
      forall d ensures d in all <==> exists e :: e in employees && e.department == d
      {
        if d in all {
          var i :| 0 <= i < |all| && all[i] == d;
          assert employees[i] in employees;
        }
        if exists e :: e in employees && e.department == d {
          var e :| e in employees && e.department == d;
          var i :| 0 <= i < |employees| && employees[i] == e;
          assert all[i] == d;
        }
      }
    }
    var r := ["all"] + Dedup(all);
    assert r[1..] == Dedup(all);
    r
  }

  /** The "Departments" card, `departments.length - 1`, is the number of distinct departments. */
  lemma DepartmentsStat(employees: seq<Employee>)
    ensures |Departments(employees)| - 1 == |set e | e in employees :: e.department|
  {
    var ds := Departments(employees)[1..];
    DistinctCardinality(ds);
    assert (set x | x in ds) == (set e | e in employees :: e.department);
  }

  predicate EmployeeMatches(searchTerm: string, filterDepartment: string, e: Employee)
  {
    (ContainsIgnoringCase(e.name, searchTerm) || ContainsIgnoringCase(e.email, searchTerm) ||
     ContainsIgnoringCase(e.department, searchTerm)) &&
    (filterDepartment == "all" || e.department == filterDepartment)
  }

  /** `filteredEmployees`: an order-preserving selection of the employees. */
  function FilteredEmployees(employees: seq<Employee>, searchTerm: string, filterDepartment: string): (rs: seq<Employee>)
    ensures forall e :: e in rs <==> e in employees && EmployeeMatches(searchTerm, filterDepartment, e)
    ensures IsSubsequence(rs, employees)
  {
    FilterIsSubsequence(employees, (e: Employee) => EmployeeMatches(searchTerm, filterDepartment, e));
    Filter(employees, (e: Employee) => EmployeeMatches(searchTerm, filterDepartment, e))
  }

  /** Selecting a department listed in the drop-down with an empty search lists exactly that department's staff. */
  lemma DepartmentSelection(employees: seq<Employee>, d: string)
    requires d != "all"
    ensures forall e :: e in FilteredEmployees(employees, "", d) <==> e in employees && e.department == d
  {
    forall e: Employee ensures ContainsIgnoringCase(e.name, "")
    {
      ContainsIgnoringCaseEmpty(e.name);
    }
  }

  /** The "Active" card. */
  function ActiveCount(employees: seq<Employee>): (n: nat)
    ensures n == Count(employees, (e: Employee) => e.status == Api.Active)
    ensures n + Count(employees, (e: Employee) => e.status == Api.Inactive) == |employees|
  {
    CountComplement(employees, (e: Employee) => e.status == Api.Active, (e: Employee) => e.status == Api.Inactive);
    Count(employees, (e: Employee) => e.status == Api.Active)
  }
}

=== FILE: employee_portal.dfy ===
/**
 * The employee's own portal (client/src/pages/EmployeePortal.tsx): today's
 * record of the signed-in user, the hours worked today rounded to a tenth,
 * the status, which of the two buttons is enabled, the recent activity, and
 * the handler that marks attendance through the API-backed store.
 */
module EmployeePortal {
  import opened Common
  import Api
  import LaravelStore

  type Record = Api.AttendanceRecord

  predicate IsMine(userId: string, today: string, r: Record)
  {
    r.employeeId == userId && r.date == today
  }

  /** `myAttendance[0]`: the first record of the user for today. */
  function TodayRecord(records: seq<Record>, userId: string, today: string): (r: Option<Record>)
    ensures r.Some? ==> r.value in records && IsMine(userId, today, r.value)
    ensures r.Some? ==> exists i :: 0 <= i < |records| && records[i] == r.value &&
                          forall j :: 0 <= j < i ==> !IsMine(userId, today, records[j])
    ensures r.None? <==> forall x :: x in records ==> !IsMine(userId, today, x)
  {
    FindFilter(records, (x: Record) => IsMine(userId, today, x), (x: Record) => true,
               (x: Record) => IsMine(userId, today, x));
    var mine := Filter(records, (x: Record) => IsMine(userId, today, x));
    if |mine| > 0 then
      assert mine[0] in mine;
      Some(mine[0])
    else None
  }

  /** `Math.round(hours * 10)`: the minutes between two times as the nearest tenth of an hour,
      halves rounded up. */
  function Tenths(checkIn: Minute, checkOut: Minute): (t: int)
    ensures 6 * t - 3 <= checkOut - checkIn < 6 * t + 3
  {
    (checkOut - checkIn + 3) / 6
  }

  /** Hours today in tenths; `None` is the "0h" shown when either time is missing. */
  function HoursToday(today: Option<Record>): (h: Option<int>)
    ensures h.Some? <==> today.Some? && today.value.checkIn.Some? && today.value.checkOut.Some?
    ensures h.Some? ==> h.value == Tenths(today.value.checkIn.value, today.value.checkOut.value)
  {
    if today.Some? && today.value.checkIn.Some? && today.value.checkOut.Some? then
      Some(Tenths(today.value.checkIn.value, today.value.checkOut.value))
    else None
  }

  /** Rounding to tenths is exact on whole multiples of six minutes and never off by more than half a tenth. */
  lemma TenthsIsNearest(checkIn: Minute, checkOut: Minute)
    ensures (checkOut - checkIn) % 6 == 0 ==> Tenths(checkIn, checkOut) * 6 == checkOut - checkIn
    ensures checkOut >= checkIn ==> Tenths(checkIn, checkOut) >= 0
    ensures checkOut < checkIn - 3 ==> Tenths(checkIn, checkOut) < 0
  {
  }

  /** The status card: present iff there is a record for today, whatever its times. */
  predicate ShowsPresent(today: Option<Record>) { today.Some? }

  /** The check-in button is disabled while a request is pending or once today's check-in exists. */
  predicate CheckInEnabled(pending: bool, today: Option<Record>)
  {
    !pending && !(today.Some? && today.value.checkIn.Some?)
  }

  /** The check-out button needs a check-in, no check-out and no pending request. */
  predicate CheckOutEnabled(pending: bool, today: Option<Record>)
  {
    !pending && today.Some? && today.value.checkIn.Some? && today.value.checkOut.None?
  }

  /** The two buttons are never enabled together, and neither is while a request is pending. */
  lemma ButtonsExclusive(pending: bool, today: Option<Record>)
    ensures !(CheckInEnabled(pending, today) && CheckOutEnabled(pending, today))
    ensures pending ==> !CheckInEnabled(pending, today) && !CheckOutEnabled(pending, today)
    ensures !pending && today.None? ==> CheckInEnabled(pending, today)
  {
  }

  /** One row of the recent activity; `hours` is 0 unless both times are present. */
  datatype ActivityRow = ActivityRow(date: string, checkIn: Option<Minute>, checkOut: Option<Minute>,
                                     status: Api.RecordStatus, hours: int)

  function RowOf(r: Record): ActivityRow
  {
    ActivityRow(r.date, r.checkIn, r.checkOut, r.status,
      if r.checkIn.Some? && r.checkOut.Some? then Tenths(r.checkIn.value, r.checkOut.value) else 0)
  }

  /** All records of the user, of any date, in list order. */
  function UserRecords(records: seq<Record>, userId: string): (rs: seq<Record>)
    ensures forall r :: r in rs <==> r in records && r.employeeId == userId
    ensures IsSubsequence(rs, records)
  {
    FilterIsSubsequence(records, (x: Record) => x.employeeId == userId);
    Filter(records, (x: Record) => x.employeeId == userId)
  }

  /** The user's last five records, of any date, in list order. */
  function RecentActivity(records: seq<Record>, userId: string): (rows: seq<ActivityRow>)
    ensures |rows| <= 5
    ensures |rows| == if |UserRecords(records, userId)| < 5 then |UserRecords(records, userId)| else 5
    ensures forall i :: 0 <= i < |rows| ==>
      rows[i] == RowOf(UserRecords(records, userId)[|UserRecords(records, userId)| - |rows| + i])
    ensures forall i :: 0 <= i < |rows| ==>
      (rows[i].checkIn.None? || rows[i].checkOut.None? ==> rows[i].hours == 0)
    ensures forall i :: 0 <= i < |rows| ==> exists r :: r in records && r.employeeId == userId && rows[i] == RowOf(r)
  {
    var all := UserRecords(records, userId);
    var mine := LastN(all, 5);
    assert forall i :: 0 <= i < |mine| ==> mine[i] in all;
    seq(|mine|, i requires 0 <= i < |mine| => RowOf(mine[i]))
  }

  /** The page's own state around the store call. */
  class EmployeePortalPage {
    const store: LaravelStore.LaravelAdminContext
    var isCheckingIn: bool

    constructor (store: LaravelStore.LaravelAdminContext)
      ensures this.store == store && !isCheckingIn
    {
      this.store := store;
      isCheckingIn := false;
    }

    /** `handleAttendance`: without a signed-in user id nothing happens; otherwise the store
        marks the event for the user and the pending flag is cleared again. */
    method HandleAttendance(
      eventType: EventType, reply: Api.Reply<Api.AttendanceRecord>, today: string, now: Minute, freshId: string)
      modifies this`isCheckingIn, store`attendanceRecords
      ensures store.user.None? || store.user.value.id == "" ==>
        store.attendanceRecords == old(store.attendanceRecords) && isCheckingIn == old(isCheckingIn)
      ensures store.user.Some? && store.user.value.id != "" ==>
        !isCheckingIn &&
        store.attendanceRecords == (if Api.Delivered(reply)
          then LaravelStore.ServerMerge(old(store.attendanceRecords), store.user.value.id, today, reply.data.value)
          else LaravelStore.LocalFallback(old(store.attendanceRecords), store.user.value.id, eventType, today, now, freshId))
    {
      if store.user.None? || store.user.value.id == "" {
        return;
      }
      isCheckingIn := true;
      var _ := store.MarkAttendance(store.user.value.id, eventType, reply, today, now, freshId);
      isCheckingIn := false;
    }
  }
}

=== FILE: employee_search.dfy ===
/**
 * The employee search box (client/src/components/EmployeeSearch.tsx): the
 * employees whose name, e-mail or department contains the term, shown only
 * once something has been typed.
 */
module EmployeeSearch {
  import opened Common
  import LaravelStore
  import EmployeeManagement

  type Employee = LaravelStore.Employee

  predicate SearchMatches(searchTerm: string, e: Employee)
  {
    ContainsIgnoringCase(e.name, searchTerm) || ContainsIgnoringCase(e.email, searchTerm) ||
    ContainsIgnoringCase(e.department, searchTerm)
  }

  /** `filteredEmployees`. */
  function Search(employees: seq<Employee>, searchTerm: string): (rs: seq<Employee>)
    ensures forall e :: e in rs <==> e in employees && SearchMatches(searchTerm, e)
    ensures IsSubsequence(rs, employees)
  {
    FilterIsSubsequence(employees, (e: Employee) => SearchMatches(searchTerm, e));
    Filter(employees, (e: Employee) => SearchMatches(searchTerm, e))
  }

  /** The empty term matches every employee. */
  lemma EmptyTermMatchesAll(employees: seq<Employee>)
    ensures Search(employees, "") == employees
  {
    forall e | e in employees ensures SearchMatches("", e)
    {
      ContainsIgnoringCaseEmpty(e.name);
    }
    FilterAll(employees, (e: Employee) => SearchMatches("", e));
  }

  /** What the card shows under the box. */
  datatype Display = Nothing | Results(employees: seq<Employee>) | NoEmployeesFound

  function DisplayFor(employees: seq<Employee>, searchTerm: string): (d: Display)
    ensures searchTerm == "" <==> d == Nothing
    ensures d == NoEmployeesFound <==> searchTerm != "" && Search(employees, searchTerm) == []
    ensures d.Results? ==> d.employees == Search(employees, searchTerm) && d.employees != []
  {
    if searchTerm == "" then Nothing
    else if Search(employees, searchTerm) == [] then NoEmployeesFound
    else Results(Search(employees, searchTerm))
  }

  lemma {:induction false} FilterSame<T(!new)>(s: seq<T>, p: T -> bool, q: T -> bool)
    requires forall x :: p(x) == q(x)
    ensures Filter(s, p) == Filter(s, q)
  {
    if s != [] {
      FilterSame(s[1..], p, q);
    }
  }

  /** The box finds the same employees, in the same order, as the employee page with every department selected. */
  lemma AgreesWithEmployeePage(employees: seq<Employee>, searchTerm: string)
    ensures Search(employees, searchTerm) == EmployeeManagement.FilteredEmployees(employees, searchTerm, "all")
  {
    FilterSame(employees, (e: Employee) => SearchMatches(searchTerm, e),
               (e: Employee) => EmployeeManagement.EmployeeMatches(searchTerm, "all", e));
  }
}

=== FILE: laravel_context.dfy ===
/**
 * The API-backed store (client/src/contexts/LaravelAdminContext.tsx). Every
 * operation asks the server first and, when the answer is a failure or an
 * exception, falls back to changing the local lists itself. Server answers
 * are inputs (`Api.Reply`), as are the clock and `Date.now()`. The store
 * shares the one `Api.ApiClient` object with the rest of the application,
 * so its token changes are visible to every later request.
 */
module LaravelStore {
  import opened Common
  import Api

  /** The signed-in user; `role` is whatever string the server sent (the source only casts it). */
  datatype User = User(id: string, name: string, email: string, role: string, department: Option<string>)

  datatype Employee = Employee(
    id: string, name: string, email: string, phone: string, position: string,
    department: string, employeeCode: string, status: Api.EmployeeStatus)

  /** `Omit<Employee, 'id'>`, where a missing status means active. */
  datatype NewEmployee = NewEmployee(
    name: string, email: string, phone: string, position: string,
    department: string, employeeCode: string, status: Option<Api.EmployeeStatus>)

  /** `Partial<Employee>`. */
  datatype EmployeePatch = EmployeePatch(
    id: Option<string>, name: Option<string>, email: Option<string>, phone: Option<string>,
    position: Option<string>, department: Option<string>, employeeCode: Option<string>,
    status: Option<Api.EmployeeStatus>)

  /** The `data` of a successful login answer. */
  datatype AuthData = AuthData(user: User, token: string)

  /** The `auth_user` entry of `localStorage`: a user saved by `JSON.stringify`, or text that does not parse. */
  datatype SavedUser = Json(user: User) | Malformed

  // ---------------------------------------------------------------------------
  // Fixed data
  // ---------------------------------------------------------------------------

  const MockUsers: seq<User> := [
    User("1", "Admin User", "admin@afraexpress.com", "admin", None),
    User("2", "Manager User", "manager@afraexpress.com", "manager", Some("Engineering")),
    User("3", "John Doe", "employee@afraexpress.com", "employee", Some("Engineering"))
  ]

  const MockPasswords: seq<string> := ["admin123", "manager123", "employee123"]

  const DefaultEmployees: seq<Employee> := [
    Employee("1", "John Doe", "john.doe@afraexpress.com", "+1234567890", "Senior Developer", "Engineering", "EMP001", Api.Active),
    Employee("2", "Sarah Smith", "sarah.smith@afraexpress.com", "+1234567891", "HR Manager", "HR", "EMP002", Api.Active),
    Employee("3", "Mike Johnson", "mike.johnson@afraexpress.com", "+1234567892", "Marketing Specialist", "Marketing", "EMP003", Api.Inactive)
  ]

  /** The mock users' credentials are checked before the server is asked. */
  function MockLogin(email: string, password: string): (u: Option<User>)
    ensures u.Some? <==> exists i :: 0 <= i < 3 && email == MockUsers[i].email && password == MockPasswords[i]
    ensures u.Some? ==> u.value in MockUsers && u.value.email == email
  {
    if email == MockUsers[0].email && password == MockPasswords[0] then Some(MockUsers[0])
    else if email == MockUsers[1].email && password == MockPasswords[1] then Some(MockUsers[1])
    else if email == MockUsers[2].email && password == MockPasswords[2] then Some(MockUsers[2])
    else None
  }

  /** The records shown when the attendance list cannot be fetched. */
  function MockRecords(today: string): (rs: seq<Api.AttendanceRecord>)
    ensures |rs| == 2 && OneRecordPerDay(rs) && UniqueIds(rs)
    ensures forall r :: r in rs ==> r.date == today
  {
    [ Api.AttendanceRecord("1", "1", today, Some(9 * 60), Some(17 * 60), Api.Present),
      Api.AttendanceRecord("2", "2", today, Some(9 * 60 + 15), None, Api.Late) ]
  }

  /** A server employee with the missing status defaulted to active. */
  function WithStatus(e: Api.ApiEmployee): (u: Employee)
    ensures u.id == e.id && u.name == e.name && u.email == e.email && u.phone == e.phone
    ensures u.position == e.position && u.department == e.department && u.employeeCode == e.employeeCode
    ensures e.status.Some? ==> u.status == e.status.value
    ensures e.status.None? ==> u.status == Api.Active
  {
    Employee(e.id, e.name, e.email, e.phone, e.position, e.department, e.employeeCode,
             if e.status.Some? then e.status.value else Api.Active)
  }

  function ApplyPatch(e: Employee, p: EmployeePatch): (u: Employee)
    ensures Overlaid(p.id, e.id, u.id) && Overlaid(p.name, e.name, u.name)
    ensures Overlaid(p.email, e.email, u.email) && Overlaid(p.phone, e.phone, u.phone)
    ensures Overlaid(p.position, e.position, u.position) && Overlaid(p.department, e.department, u.department)
    ensures Overlaid(p.employeeCode, e.employeeCode, u.employeeCode) && Overlaid(p.status, e.status, u.status)
    ensures p == EmployeePatch(None, None, None, None, None, None, None, None) ==> u == e
  {
    Employee(
      if p.id.Some? then p.id.value else e.id,
      if p.name.Some? then p.name.value else e.name,
      if p.email.Some? then p.email.value else e.email,
      if p.phone.Some? then p.phone.value else e.phone,
      if p.position.Some? then p.position.value else e.position,
      if p.department.Some? then p.department.value else e.department,
      if p.employeeCode.Some? then p.employeeCode.value else e.employeeCode,
      if p.status.Some? then p.status.value else e.status)
  }

  // ---------------------------------------------------------------------------
  // Specification of the list updates
  // ---------------------------------------------------------------------------

  predicate OneRecordPerDay(records: seq<Api.AttendanceRecord>)
  {
    forall i, j :: 0 <= i < j < |records| ==>
      !(records[i].employeeId == records[j].employeeId && records[i].date == records[j].date)
  }

  predicate UniqueIds(records: seq<Api.AttendanceRecord>)
  {
    forall i, j :: 0 <= i < j < |records| ==> records[i].id != records[j].id
  }

  predicate IsRecordOf(employeeId: string, date: string, r: Api.AttendanceRecord)
  {
    r.employeeId == employeeId && r.date == date
  }

  /** The employee list after `refreshEmployees`: the server's list when it delivered one. */
  function RefreshedEmployees(current: seq<Employee>, reply: Api.Reply<seq<Api.ApiEmployee>>): (r: seq<Employee>)
    ensures !Api.Delivered(reply) ==> r == current
    ensures Api.Delivered(reply) ==> |r| == |reply.data.value|
    ensures Api.Delivered(reply) ==> forall i :: 0 <= i < |r| ==> r[i] == WithStatus(reply.data.value[i])
  {
    if Api.Delivered(reply) then
      var fetched := reply.data.value;
      seq(|fetched|, i requires 0 <= i < |fetched| => WithStatus(fetched[i]))
    else current
  }

  /** The record list after `refreshAttendance`: the server's list, or the two mock records. */
  function RefreshedRecords(reply: Api.Reply<seq<Api.AttendanceRecord>>, today: string): (r: seq<Api.AttendanceRecord>)
    ensures Api.Delivered(reply) ==> r == reply.data.value
    ensures !Api.Delivered(reply) ==> r == MockRecords(today) && OneRecordPerDay(r)
  {
    if Api.Delivered(reply) then reply.data.value else MockRecords(today)
  }

  /** After a successful `markAttendance`: the server's record replaces today's record
      of the employee (every record sharing its id), or is appended when there is none. */
  function ServerMerge(records: seq<Api.AttendanceRecord>, employeeId: string, today: string, server: Api.AttendanceRecord)
    : (r: seq<Api.AttendanceRecord>)
    ensures Find(records, x => IsRecordOf(employeeId, today, x)).None? ==> r == records + [server]
    ensures Find(records, x => IsRecordOf(employeeId, today, x)).Some? ==>
      |r| == |records| &&
      forall i :: 0 <= i < |r| ==>
        r[i] == if records[i].id == Find(records, x => IsRecordOf(employeeId, today, x)).value.id then server else records[i]
  {
    match Find(records, x => IsRecordOf(employeeId, today, x))
    case None => records + [server]
    case Some(existing) =>
      seq(|records|, i requires 0 <= i < |records| => if records[i].id == existing.id then server else records[i])
  }

  /** The fallback's record for an event at `now`: only that event's time is set, status present. */
  function MockRecord(freshId: string, employeeId: string, eventType: EventType, today: string, now: Minute): Api.AttendanceRecord
  {
    Api.AttendanceRecord(freshId, employeeId, today,
      if eventType == CheckIn then Some(now) else None,
      if eventType == CheckOut then Some(now) else None,
      Api.Present)
  }

  /** An existing record with the event's time overwritten and everything else kept. */
  function Stamped(r: Api.AttendanceRecord, eventType: EventType, now: Minute): (u: Api.AttendanceRecord)
    ensures eventType == CheckIn ==> u.checkIn == Some(now) && u.checkOut == r.checkOut
    ensures eventType == CheckOut ==> u.checkOut == Some(now) && u.checkIn == r.checkIn
    ensures u.id == r.id && u.employeeId == r.employeeId && u.date == r.date && u.status == r.status
  {
    if eventType == CheckIn then r.(checkIn := Some(now)) else r.(checkOut := Some(now))
  }

  /** After a failed or thrown `markAttendance`: the event is applied locally. Unlike the
      first store, a repeated check-in overwrites the time and a check-out without a record
      creates one. */
  function LocalFallback(
    records: seq<Api.AttendanceRecord>, employeeId: string, eventType: EventType,
    today: string, now: Minute, freshId: string
  ): (r: seq<Api.AttendanceRecord>)
    ensures Find(records, x => IsRecordOf(employeeId, today, x)).None? ==>
      r == records + [MockRecord(freshId, employeeId, eventType, today, now)]
    ensures Find(records, x => IsRecordOf(employeeId, today, x)).Some? ==>
      |r| == |records| &&
      forall i :: 0 <= i < |r| ==>
        r[i] == if records[i].id == Find(records, x => IsRecordOf(employeeId, today, x)).value.id
                then Stamped(records[i], eventType, now) else records[i]
  {
    match Find(records, x => IsRecordOf(employeeId, today, x))
    case None => records + [MockRecord(freshId, employeeId, eventType, today, now)]
    case Some(existing) =>
      seq(|records|, i requires 0 <= i < |records| =>
        if records[i].id == existing.id then Stamped(records[i], eventType, now) else records[i])
  }

  /** Appending a record for an (employee, date) pair that has none keeps the invariant. */
  lemma AppendFreshPairPreservesOneRecordPerDay(records: seq<Api.AttendanceRecord>, employeeId: string, today: string, r: Api.AttendanceRecord)
    requires OneRecordPerDay(records)
    requires Find(records, x => IsRecordOf(employeeId, today, x)).None?
    requires r.employeeId == employeeId && r.date == today
    ensures OneRecordPerDay(records + [r])
  {
    var s := records + [r];
    forall i, j | 0 <= i < j < |s|
      ensures !(s[i].employeeId == s[j].employeeId && s[i].date == s[j].date)
    {
      if j == |records| {
        assert records[i] in records;
        assert !IsRecordOf(employeeId, today, records[i]);
      }
    }
  }

  /** The local fallback never creates a second record for an (employee, date) pair. */
  lemma LocalFallbackPreservesOneRecordPerDay(
    records: seq<Api.AttendanceRecord>, employeeId: string, eventType: EventType,
    today: string, now: Minute, freshId: string)
    requires OneRecordPerDay(records)
    ensures OneRecordPerDay(LocalFallback(records, employeeId, eventType, today, now, freshId))
  {
    if Find(records, x => IsRecordOf(employeeId, today, x)).None? {
      AppendFreshPairPreservesOneRecordPerDay(records, employeeId, today, MockRecord(freshId, employeeId, eventType, today, now));
    }
  }

  /** The server's record keeps the invariant when it is the employee's record for today
      and record ids are unique. */
  lemma ServerMergePreservesOneRecordPerDay(
    records: seq<Api.AttendanceRecord>, employeeId: string, today: string, server: Api.AttendanceRecord)
    requires OneRecordPerDay(records) && UniqueIds(records)
    requires server.employeeId == employeeId && server.date == today
    ensures OneRecordPerDay(ServerMerge(records, employeeId, today, server))
  {
    var found := Find(records, x => IsRecordOf(employeeId, today, x));
    if found.None? {
      AppendFreshPairPreservesOneRecordPerDay(records, employeeId, today, server);
    } else {
      var r := ServerMerge(records, employeeId, today, server);
      var k :| 0 <= k < |records| && records[k] == found.value;
      forall i, j | 0 <= i < j < |r|
        ensures !(r[i].employeeId == r[j].employeeId && r[i].date == r[j].date)
      {
        if records[i].id == found.value.id {
          assert i == k;
        } else if records[j].id == found.value.id {
          assert j == k;
        }
      }
    }
  }

  /** The store trusts the server's record: one for another employee breaks the invariant. */
  lemma ServerMergeCanBreakOneRecordPerDay()
    ensures var records := [Api.AttendanceRecord("1", "emp1", "2024-01-02", Some(540), None, Api.Present)];
            var server := Api.AttendanceRecord("2", "emp1", "2024-01-02", Some(545), None, Api.Present);
            OneRecordPerDay(records) && UniqueIds(records) &&
            !OneRecordPerDay(ServerMerge(records, "emp2", "2024-01-02", server))
  {
    var records := [Api.AttendanceRecord("1", "emp1", "2024-01-02", Some(540), None, Api.Present)];
    var server := Api.AttendanceRecord("2", "emp1", "2024-01-02", Some(545), None, Api.Present);
    assert !IsRecordOf("emp2", "2024-01-02", records[0]);
    var merged := ServerMerge(records, "emp2", "2024-01-02", server);
    assert merged == records + [server];
    assert merged[0].employeeId == merged[1].employeeId && merged[0].date == merged[1].date;
  }

  // ---------------------------------------------------------------------------
  // The store
  // ---------------------------------------------------------------------------

  class LaravelAdminContext {
    /** The application-wide API client; its token is shared with every request. */
    const api: Api.ApiClient
    var isAuthenticated: bool
    var user: Option<User>
    var employees: seq<Employee>
    var attendanceRecords: seq<Api.AttendanceRecord>
    var loadingAuth: bool
    var loadingEmployees: bool
    var loadingAttendance: bool
    /** The `auth_user` entry of `localStorage` (`auth_token` is `api.storedToken`). */
    var savedUser: Option<SavedUser>

    constructor (api: Api.ApiClient, savedUser: Option<SavedUser>)
      ensures this.api == api && this.savedUser == savedUser
      ensures !isAuthenticated && user.None? && employees == DefaultEmployees && attendanceRecords == []
      ensures !loadingAuth && !loadingEmployees && !loadingAttendance
    {
      this.api := api;
      this.savedUser := savedUser;
      isAuthenticated := false;
      user := None;
      employees := DefaultEmployees;
      attendanceRecords := [];
      loadingAuth := false;
      loadingEmployees := false;
      loadingAttendance := false;
    }

    method RefreshEmployees(reply: Api.Reply<seq<Api.ApiEmployee>>)
      modifies this`employees, this`loadingEmployees
      ensures employees == RefreshedEmployees(old(employees), reply)
      ensures !loadingEmployees
    {
      loadingEmployees := true;
      if Api.Delivered(reply) {
        var fetched := reply.data.value;
        employees := seq(|fetched|, i requires 0 <= i < |fetched| => WithStatus(fetched[i]));
      }
      loadingEmployees := false;
    }

    method RefreshAttendance(reply: Api.Reply<seq<Api.AttendanceRecord>>, today: string)
      modifies this`attendanceRecords, this`loadingAttendance
      ensures attendanceRecords == RefreshedRecords(reply, today)
      ensures !loadingAttendance
    {
      loadingAttendance := true;
      if Api.Delivered(reply) {
        attendanceRecords := reply.data.value;
      } else {
        attendanceRecords := MockRecords(today);
      }
      loadingAttendance := false;
    }

    /** The mount effect: a stored token and user sign the user back in; a user entry that
        does not parse is removed together with the stored token. */
    method RestoreSession(
      employeesReply: Api.Reply<seq<Api.ApiEmployee>>,
      recordsReply: Api.Reply<seq<Api.AttendanceRecord>>, today: string)
      modifies this, api
      ensures api.storedToken == old(api.storedToken) || api.storedToken.None?
      ensures (old(Api.Truthy(api.storedToken)) && old(savedUser).Some? && old(savedUser).value.Json?) ==>
        isAuthenticated && user == Some(old(savedUser).value.user) && api.token == old(api.storedToken) &&
        employees == RefreshedEmployees(old(employees), employeesReply) &&
        attendanceRecords == RefreshedRecords(recordsReply, today) &&
        !loadingEmployees && !loadingAttendance && loadingAuth == old(loadingAuth)
      ensures (old(Api.Truthy(api.storedToken)) && old(savedUser) == Some(Malformed)) ==>
        api.storedToken.None? && savedUser.None? && api.token == old(api.token) &&
        isAuthenticated == old(isAuthenticated) && user == old(user) &&
        employees == old(employees) && attendanceRecords == old(attendanceRecords) &&
        loadingAuth == old(loadingAuth) && loadingEmployees == old(loadingEmployees) &&
        loadingAttendance == old(loadingAttendance)
      ensures !(old(Api.Truthy(api.storedToken)) && old(savedUser).Some?) ==>
        api.token == old(api.token) && api.storedToken == old(api.storedToken) && savedUser == old(savedUser) &&
        isAuthenticated == old(isAuthenticated) && user == old(user) &&
        employees == old(employees) && attendanceRecords == old(attendanceRecords) &&
        loadingAuth == old(loadingAuth) && loadingEmployees == old(loadingEmployees) &&
        loadingAttendance == old(loadingAttendance)
    {
      if Api.Truthy(api.storedToken) && savedUser.Some? {
        match savedUser.value
        case Json(u) =>
          api.SetToken(api.storedToken.value);
          user := Some(u);
          isAuthenticated := true;
          RefreshEmployees(employeesReply);
          RefreshAttendance(recordsReply, today);
        case Malformed =>
          api.storedToken := None;
          savedUser := None;
      }
    }

    /** `login`: the mock credentials first, then the server. A successful login stores the
        token in the shared client and loads both lists. */
    method Login(
      email: string, password: string, nowMillis: string, reply: Api.Reply<AuthData>,
      employeesReply: Api.Reply<seq<Api.ApiEmployee>>,
      recordsReply: Api.Reply<seq<Api.AttendanceRecord>>, today: string
    ) returns (ok: bool)
      modifies this, api
      ensures ok <==> MockLogin(email, password).Some? || Api.Delivered(reply)
      ensures !loadingAuth
      ensures MockLogin(email, password).Some? ==>
        user == MockLogin(email, password) && api.token == Some("mock-jwt-token-" + nowMillis)
      ensures MockLogin(email, password).None? && Api.Delivered(reply) ==>
        user == Some(reply.data.value.user) && api.token == Some(reply.data.value.token)
      ensures ok ==>
        isAuthenticated && savedUser == Some(Json(user.value)) && api.storedToken == api.token &&
        employees == RefreshedEmployees(old(employees), employeesReply) &&
        attendanceRecords == RefreshedRecords(recordsReply, today)
      ensures ok ==> !loadingEmployees && !loadingAttendance
      ensures !ok ==>
        isAuthenticated == old(isAuthenticated) && user == old(user) && savedUser == old(savedUser) &&
        api.token == old(api.token) && api.storedToken == old(api.storedToken) &&
        employees == old(employees) && attendanceRecords == old(attendanceRecords) &&
        loadingEmployees == old(loadingEmployees) && loadingAttendance == old(loadingAttendance)
    {
      loadingAuth := true;
      var signedIn: Option<User> := None;
      var token := "";
      var mock := MockLogin(email, password);
      if mock.Some? {
        signedIn := mock;
        token := "mock-jwt-token-" + nowMillis;
      } else if Api.Delivered(reply) {
        signedIn := Some(reply.data.value.user);
        token := reply.data.value.token;
      }
      if signedIn.Some? {
        savedUser := Some(Json(signedIn.value));
        api.SetToken(token);
        user := signedIn;
        isAuthenticated := true;
        RefreshEmployees(employeesReply);
        RefreshAttendance(recordsReply, today);
        ok := true;
      } else {
        ok := false;
      }
      loadingAuth := false;
    }

    /** `logout`: whatever the server answers, the session and both lists are cleared. */
    method Logout()
      modifies this, api
      ensures !isAuthenticated && user.None? && employees == [] && attendanceRecords == []
      ensures api.token.None? && api.storedToken.None? && savedUser.None?
      ensures loadingAuth == old(loadingAuth) && loadingEmployees == old(loadingEmployees) &&
              loadingAttendance == old(loadingAttendance)
    {
      api.ClearToken();
      savedUser := None;
      isAuthenticated := false;
      user := None;
      employees := [];
      attendanceRecords := [];
    }

    /** `addEmployee` always reports success: the server's employee, or a local one under a fresh id. */
    method AddEmployee(e: NewEmployee, reply: Api.Reply<Api.ApiEmployee>, freshId: string) returns (ok: bool)
      modifies this`employees
      ensures ok
      ensures |employees| == |old(employees)| + 1 && employees[..|old(employees)|] == old(employees)
      ensures Api.Delivered(reply) ==> employees[|employees| - 1] == WithStatus(reply.data.value)
      ensures !Api.Delivered(reply) ==> (employees[|employees| - 1] ==
        Employee(freshId, e.name, e.email, e.phone, e.position, e.department, e.employeeCode,
                 if e.status.Some? then e.status.value else Api.Active))
    {
      if Api.Delivered(reply) {
        employees := employees + [WithStatus(reply.data.value)];
      } else {
        employees := employees + [Employee(freshId, e.name, e.email, e.phone, e.position, e.department,
                                           e.employeeCode, if e.status.Some? then e.status.value else Api.Active)];
      }
      ok := true;
    }

    /** `updateEmployee`: the employees with the id are replaced by the server's version,
        or patched locally; the others stay as they are. */
    method UpdateEmployee(id: string, patch: EmployeePatch, reply: Api.Reply<Api.ApiEmployee>) returns (ok: bool)
      modifies this`employees
      ensures ok
      ensures |employees| == |old(employees)|
      ensures forall i :: 0 <= i < |employees| && old(employees)[i].id != id ==> employees[i] == old(employees)[i]
      ensures forall i :: 0 <= i < |employees| && old(employees)[i].id == id ==>
        employees[i] == if Api.Delivered(reply) then WithStatus(reply.data.value) else ApplyPatch(old(employees)[i], patch)
    {
      var prev := employees;
      if Api.Delivered(reply) {
        var updated := WithStatus(reply.data.value);
        employees := seq(|prev|, i requires 0 <= i < |prev| => if prev[i].id == id then updated else prev[i]);
      } else {
        employees := seq(|prev|, i requires 0 <= i < |prev| => if prev[i].id == id then ApplyPatch(prev[i], patch) else prev[i]);
      }
      ok := true;
    }

    /** `deleteEmployee`: every outcome removes the employee locally; records are kept. */
    method DeleteEmployee(id: string) returns (ok: bool)
      modifies this`employees
      ensures ok
      ensures employees == Filter(old(employees), (e: Employee) => e.id != id)
      ensures forall e :: e in employees <==> e in old(employees) && e.id != id
    {
      employees := Filter(employees, (e: Employee) => e.id != id);
      ok := true;
    }

    /** `markAttendance` always reports success; the list follows the server's record or the local fallback. */
    method MarkAttendance(
      employeeId: string, eventType: EventType, reply: Api.Reply<Api.AttendanceRecord>,
      today: string, now: Minute, freshId: string
    ) returns (ok: bool)
      modifies this`attendanceRecords
      ensures ok
      ensures Api.Delivered(reply) ==>
        attendanceRecords == ServerMerge(old(attendanceRecords), employeeId, today, reply.data.value)
      ensures !Api.Delivered(reply) ==>
        attendanceRecords == LocalFallback(old(attendanceRecords), employeeId, eventType, today, now, freshId)
    {
      var existing := Find(attendanceRecords, x => IsRecordOf(employeeId, today, x));
      var prev := attendanceRecords;
      if Api.Delivered(reply) {
        var server := reply.data.value;
        if existing.Some? {
          attendanceRecords := seq(|prev|, i requires 0 <= i < |prev| =>
            if prev[i].id == existing.value.id then server else prev[i]);
        } else {
          attendanceRecords := prev + [server];
        }
      } else {
        if existing.Some? {
          attendanceRecords := seq(|prev|, i requires 0 <= i < |prev| =>
            if prev[i].id == existing.value.id then Stamped(prev[i], eventType, now) else prev[i]);
        } else {
          attendanceRecords := prev + [MockRecord(freshId, employeeId, eventType, today, now)];
        }
      }
      ok := true;
    }

    function GetEmployeeById(id: string): (e: Option<Employee>)
      reads this
      ensures e.Some? ==> e.value in employees && e.value.id == id
      ensures e.None? <==> forall x :: x in employees ==> x.id != id
      ensures forall i :: 0 <= i < |employees| && employees[i].id == id && (forall j :: 0 <= j < i ==> employees[j].id != id) ==>
        e == Some(employees[i])
    {
      Find(employees, (x: Employee) => x.id == id)
    }

    /** The employee's records for `date`, where an empty date means today. */
    function GetAttendanceByEmployee(employeeId: string, date: string, today: string): (rs: seq<Api.AttendanceRecord>)
      reads this
      ensures forall r :: r in rs <==>
        r in attendanceRecords && r.employeeId == employeeId && r.date == (if date != "" then date else today)
    ensures IsSubsequence(rs, attendanceRecords)
    {
      var target := if date != "" then date else today;
      FilterIsSubsequence(attendanceRecords, (r: Api.AttendanceRecord) => r.employeeId == employeeId && r.date == target);
      Filter(attendanceRecords, (r: Api.AttendanceRecord) => r.employeeId == employeeId && r.date == target)
    }
  }

  /** With one record per (employee, date), an employee has at most one record for any day. */
  lemma {:induction false} AtMostOneRecordPerEmployeeAndDay(records: seq<Api.AttendanceRecord>, employeeId: string, date: string)
    requires OneRecordPerDay(records)
    ensures Count(records, (r: Api.AttendanceRecord) => r.employeeId == employeeId && r.date == date) <= 1
  {
    var p := (r: Api.AttendanceRecord) => r.employeeId == employeeId && r.date == date;
    if records != [] {
      var rest := records[1..];
      assert OneRecordPerDay(rest) by {
        forall i, j | 0 <= i < j < |rest|
          ensures !(rest[i].employeeId == rest[j].employeeId && rest[i].date == rest[j].date)
        {
          assert rest[i] == records[i + 1] && rest[j] == records[j + 1];
        }
      }
      AtMostOneRecordPerEmployeeAndDay(rest, employeeId, date);
      if p(records[0]) {
        forall x | x in rest ensures !p(x)
        {
          var k :| 0 <= k < |rest| && rest[k] == x;
          assert records[k + 1] == x;
        }
        FilterNone(rest, p);
      }
    }
  }
}

=== FILE: login_page.dfy ===
/**
 * The sign-in page (client/src/pages/Login.tsx): the two field checks and the
 * service check that run before the store's login is called, the
 * remember-me flag and the route chosen by role after a successful login.
 */
module LoginPage {
  import opened Common

  datatype LoginForm = LoginForm(email: string, password: string, role: string)

  /** How the call to the store's `login` ended. */
  datatype LoginResult = Succeeded | Failed | Threw

  /** Where `handleSubmit` stops. */
  datatype Outcome = MissingFields | ServiceUnavailable | Rejected | Crashed | SignedIn(route: string)

  /** The route for the role of the user the handler sees; anything unrecognised goes to the dashboard. */
  function RouteFor(role: Option<string>): (route: string)
    ensures role == Some("manager") ==> route == "/manager-portal"
    ensures role == Some("employee") ==> route == "/employee-portal"
    ensures role != Some("manager") && role != Some("employee") ==> route == "/dashboard"
  {
    if role == Some("admin") then "/dashboard"
    else if role == Some("manager") then "/manager-portal"
    else if role == Some("employee") then "/employee-portal"
    else "/dashboard"
  }

  /** The decision of `handleSubmit`: empty fields first, then a missing authentication service,
      and only then the login itself. */
  function Decide(form: LoginForm, serviceAvailable: bool, result: LoginResult, seenRole: Option<string>): (o: Outcome)
    ensures o == MissingFields <==> form.email == "" || form.password == ""
    ensures o == ServiceUnavailable <==> form.email != "" && form.password != "" && !serviceAvailable
    ensures o.SignedIn? <==> form.email != "" && form.password != "" && serviceAvailable && result == Succeeded
    ensures o.SignedIn? ==> o.route == RouteFor(seenRole)
  {
    if form.email == "" || form.password == "" then MissingFields
    else if !serviceAvailable then ServiceUnavailable
    else match result
      case Succeeded => SignedIn(RouteFor(seenRole))
      case Failed => Rejected
      case Threw => Crashed
  }

  /** The store's `login` is called only past both checks. */
  predicate CallsLogin(o: Outcome)
  {
    o != MissingFields && o != ServiceUnavailable
  }

  lemma LoginCalledOnlyPastChecks(form: LoginForm, serviceAvailable: bool, result: LoginResult, seenRole: Option<string>)
    ensures CallsLogin(Decide(form, serviceAvailable, result, seenRole)) <==>
      form.email != "" && form.password != "" && serviceAvailable
  {
  }

  /** The page state `handleSubmit` changes. */
  class LoginPageState {
    var isLoading: bool
    /** Whether "rememberMe" has been written to browser storage. */
    var rememberMeStored: bool
    var navigatedTo: Option<string>

    constructor (rememberMeStored: bool)
      ensures !isLoading && this.rememberMeStored == rememberMeStored && navigatedTo.None?
    {
      isLoading := false;
      this.rememberMeStored := rememberMeStored;
      navigatedTo := None;
    }

    /** `handleSubmit`: the remember-me flag is written only after a successful login with the box
        ticked, navigation happens only then, and loading always ends cleared. */
    method HandleSubmit(form: LoginForm, rememberMe: bool, serviceAvailable: bool, result: LoginResult,
                        seenRole: Option<string>) returns (o: Outcome)
      modifies this
      ensures o == Decide(form, serviceAvailable, result, seenRole)
      ensures rememberMeStored == (old(rememberMeStored) || (o.SignedIn? && rememberMe))
      ensures navigatedTo == (if o.SignedIn? then Some(o.route) else old(navigatedTo))
      ensures !isLoading
    {
      isLoading := true;
      if form.email == "" || form.password == "" {
        isLoading := false;
        return MissingFields;
      }
      if !serviceAvailable {
        isLoading := false;
        return ServiceUnavailable;
      }
      o := Decide(form, serviceAvailable, result, seenRole);
      if o.SignedIn? {
        if rememberMe {
          rememberMeStored := true;
        }
        navigatedTo := Some(o.route);
      }
      isLoading := false;
    }
  }
}

=== FILE: manager_portal.dfy ===
/**
 * The manager's portal (client/src/pages/ManagerPortal.tsx): the same daily
 * figures as the dashboard, the present share of the team computed without
 * a guard against an empty team, a team overview of the first five
 * employees and the six most recent attendance events.
 */
module ManagerPortal {
  import opened Common
  import Api
  import LaravelStore
  import Dashboard

  type Record = Api.AttendanceRecord
  type Employee = LaravelStore.Employee

  /** Only a signed-in manager stays on the page; everyone else is sent to the login page. */
  function Redirect(user: Option<LaravelStore.User>): (target: Option<string>)
    ensures target.None? <==> user.Some? && user.value.role == "manager"
    ensures target.Some? ==> target.value == "/login"
  {
    if user.Some? && user.value.role == "manager" then None else Some("/login")
  }

  /** `(presentCount / employees.length) * 100`, with JavaScript's division by zero. */
  function PresentShare(counts: Dashboard.DayCounts, employeeCount: nat): (share: JsNumber)
    ensures employeeCount > 0 ==> share == Finite(counts.present as real / employeeCount as real * 100.0)
    ensures employeeCount == 0 && counts.present == 0 ==> share == NaN
    ensures employeeCount == 0 && counts.present > 0 ==> share == PositiveInfinity
  {
    match Divide(counts.present as real, employeeCount as real)
    case Finite(q) => Finite(q * 100.0)
    case other => other
  }

  /** One row of the team overview: the employee, and whether a record of theirs exists today. */
  datatype TeamRow = TeamRow(employee: Employee, present: bool)

  /** The first five employees, each "Present" iff some record for today carries their id, whatever its status. */
  function TeamOverview(employees: seq<Employee>, records: seq<Record>, today: string): (rows: seq<TeamRow>)
    ensures |rows| == if |employees| < 5 then |employees| else 5
    ensures forall i :: 0 <= i < |rows| ==> rows[i].employee == employees[i]
    ensures forall i :: 0 <= i < |rows| ==>
      (rows[i].present <==> exists r :: r in records && r.date == today && r.employeeId == employees[i].id)
  {
    var todays := Dashboard.TodayAttendance(records, today);
    var shown := FirstN(employees, 5);
    seq(|shown|, i requires 0 <= i < |shown| =>
      TeamRow(shown[i], Find(todays, (r: Record) => r.employeeId == shown[i].id).Some?))
  }

  const TeamActivityCount := 6

  /** The recent team activities: the last six records, labelled "Checked out" iff they have a check-out. */
  lemma RecentTeamActivities(employees: seq<Employee>, records: seq<Record>)
    ensures var acts := Dashboard.RecentActivities(employees, records, TeamActivityCount);
      |acts| <= 6 && (|records| >= 6 ==> |acts| == 6) &&
      forall i :: 0 <= i < |acts| ==>
        (acts[i].action == Dashboard.CheckedOut <==> records[|records| - |acts| + i].checkOut.Some?)
  {
    Dashboard.RecentActions(employees, records, TeamActivityCount);
  }
}

=== FILE: payroll.dfy ===
/**
 * Payroll runs (client/src/pages/PayrollManagement.tsx): the paid and pending
 * totals of net pay by status, the hours shown per record, the action each
 * status offers and the search, status and month filter.
 */
module Payroll {
  import opened Common

  datatype PayrollStatus = Draft | Processed | Paid | Cancelled

  datatype PayrollRecord = PayrollRecord(
    id: string, userId: string, employeeName: string, employeeId: string,
    payPeriodStart: string, payPeriodEnd: string, regularHours: int, overtimeHours: int,
    basicPay: int, overtimePay: int, allowances: int, grossPay: int, deductions: int,
    netPay: int, bonus: int, status: PayrollStatus, payDate: string)

  /** The status as the drop-down spells it. */
  function StatusName(s: PayrollStatus): (name: string)
    ensures name in {"draft", "processed", "paid", "cancelled"}
  {
    match s
    case Draft => "draft"
    case Processed => "processed"
    case Paid => "paid"
    case Cancelled => "cancelled"
  }

  lemma StatusNamesDistinct(a: PayrollStatus, b: PayrollStatus)
    ensures StatusName(a) == StatusName(b) <==> a == b
  {
  }

  predicate IsPaid(r: PayrollRecord) { r.status == Paid }
  predicate IsPending(r: PayrollRecord) { r.status == Processed || r.status == Draft }
  predicate IsCancelled(r: PayrollRecord) { r.status == Cancelled }

  function NetPay(r: PayrollRecord): int { r.netPay }

  /** The "Total Paid" card: net pay of the paid records. */
  function TotalPaid(records: seq<PayrollRecord>): (total: int)
    ensures total == Sum(records, (r: PayrollRecord) => if IsPaid(r) then r.netPay else 0)
  {
    SumFilter(records, IsPaid, NetPay, (r: PayrollRecord) => if IsPaid(r) then r.netPay else 0);
    Sum(Filter(records, IsPaid), NetPay)
  }

  /** The "Pending" card: net pay of the processed and draft records. */
  function Pending(records: seq<PayrollRecord>): (total: int)
    ensures total == Sum(records, (r: PayrollRecord) => if IsPending(r) then r.netPay else 0)
  {
    SumFilter(records, IsPending, NetPay, (r: PayrollRecord) => if IsPending(r) then r.netPay else 0);
    Sum(Filter(records, IsPending), NetPay)
  }

  lemma {:induction false} SumSplit3(records: seq<PayrollRecord>)
    ensures Sum(records, NetPay) ==
      Sum(records, (r: PayrollRecord) => if IsPaid(r) then r.netPay else 0) +
      Sum(records, (r: PayrollRecord) => if IsPending(r) then r.netPay else 0) +
      Sum(records, (r: PayrollRecord) => if IsCancelled(r) then r.netPay else 0)
  {
    if records != [] {
      SumSplit3(records[1..]);
    }
  }

  /** Paid, pending and cancelled net pay make up all net pay: cancelled runs are in neither card. */
  lemma CardsPartitionNetPay(records: seq<PayrollRecord>)
    ensures TotalPaid(records) + Pending(records) + Sum(Filter(records, IsCancelled), NetPay) == Sum(records, NetPay)
  {
    SumFilter(records, IsCancelled, NetPay, (r: PayrollRecord) => if IsCancelled(r) then r.netPay else 0);
    SumSplit3(records);
  }

  /** The hours column: regular plus overtime. */
  function DisplayedHours(r: PayrollRecord): (h: int)
    ensures h - r.overtimeHours == r.regularHours
    ensures r.overtimeHours == 0 ==> h == r.regularHours
  {
    r.regularHours + r.overtimeHours
  }

  /** The buttons of a row besides view and download. */
  datatype RowActions = RowActions(process: bool, markPaid: bool)

  /** Processing is offered only for drafts, marking as paid only for processed runs. */
  function ActionsFor(status: PayrollStatus): (a: RowActions)
    ensures a.process <==> status == Draft
    ensures a.markPaid <==> status == Processed
    ensures !(a.process && a.markPaid)
  {
    RowActions(status == Draft, status == Processed)
  }

  /** `filteredPayroll`. The month test compares the locale month name of the period start,
      which `monthOf` supplies. */
  predicate PayrollMatches(searchTerm: string, filterStatus: string, filterMonth: string,
                           monthOf: string -> string, r: PayrollRecord)
  {
    (ContainsIgnoringCase(r.employeeName, searchTerm) || ContainsIgnoringCase(r.employeeId, searchTerm)) &&
    (filterStatus == "all" || StatusName(r.status) == filterStatus) &&
    (filterMonth == "all" || Lower(monthOf(r.payPeriodStart)) == filterMonth)
  }

  function FilteredPayroll(records: seq<PayrollRecord>, searchTerm: string, filterStatus: string,
                           filterMonth: string, monthOf: string -> string): (rs: seq<PayrollRecord>)
    ensures forall r :: r in rs <==> r in records && PayrollMatches(searchTerm, filterStatus, filterMonth, monthOf, r)
    ensures IsSubsequence(rs, records)
  {
    FilterIsSubsequence(records, (r: PayrollRecord) => PayrollMatches(searchTerm, filterStatus, filterMonth, monthOf, r));
    Filter(records, (r: PayrollRecord) => PayrollMatches(searchTerm, filterStatus, filterMonth, monthOf, r))
  }

  /** With every filter at its default, every record is listed, in order. */
  lemma DefaultFilterListsAll(records: seq<PayrollRecord>, monthOf: string -> string)
    ensures FilteredPayroll(records, "", "all", "all", monthOf) == records
  {
    forall r | r in records ensures PayrollMatches("", "all", "all", monthOf, r)
    {
      ContainsIgnoringCaseEmpty(r.employeeName);
    }
    FilterAll(records, (r: PayrollRecord) => PayrollMatches("", "all", "all", monthOf, r));
  }

  /** A status selection lists exactly the records with that status among those the other filters keep. */
  lemma StatusSelectionIsExact(records: seq<PayrollRecord>, searchTerm: string, filterMonth: string,
                               monthOf: string -> string, status: PayrollStatus)
    ensures forall r :: r in FilteredPayroll(records, searchTerm, StatusName(status), filterMonth, monthOf) <==>
      (r in FilteredPayroll(records, searchTerm, "all", filterMonth, monthOf) && r.status == status)
  {
    forall r: PayrollRecord ensures StatusName(r.status) == StatusName(status) <==> r.status == status
    {
      StatusNamesDistinct(r.status, status);
    }
  }
}

=== FILE: reports.dfy ===
/**
 * The reports page (client/src/pages/Reports.tsx): the records whose date
 * lies in a range, an executive summary of them, and three reports that
 * tally the records into groups keyed by date, by employee and by month.
 * The reports read the record fields of the first store (`employeeId`,
 * `employeeName`, `workingHours`), so they are stated over
 * `AdminStore.AttendanceRecord`.
 */
module Reports {
  import opened Common
  import AdminStore

  type Record = AdminStore.AttendanceRecord

  // ---------------------------------------------------------------------------
  // Date range
  // ---------------------------------------------------------------------------

  /** `new Date(d) >= new Date(dateFrom) && new Date(d) <= new Date(dateTo)` on `YYYY-MM-DD`
      dates, which order the same way as the strings. */
  predicate InRange(r: Record, dateFrom: string, dateTo: string)
  {
    StringLeq(dateFrom, r.date) && StringLeq(r.date, dateTo)
  }

  /** The records the reports are generated from. */
  function RecordsInRange(records: seq<Record>, dateFrom: string, dateTo: string): (rs: seq<Record>)
    ensures forall r :: r in rs <==> r in records && StringLeq(dateFrom, r.date) && StringLeq(r.date, dateTo)
  {
    Filter(records, (r: Record) => InRange(r, dateFrom, dateTo))
  }

  /** The range is inclusive at both ends and keeps the records in their order. */
  lemma RangeIsInclusive(records: seq<Record>, dateFrom: string, dateTo: string)
    requires StringLeq(dateFrom, dateTo)
    ensures forall r :: r in records && (r.date == dateFrom || r.date == dateTo) ==>
      r in RecordsInRange(records, dateFrom, dateTo)
    ensures IsSubsequence(RecordsInRange(records, dateFrom, dateTo), records)
  {
    StringLeqReflexive(dateFrom);
    StringLeqReflexive(dateTo);
    FilterIsSubsequence(records, (r: Record) => InRange(r, dateFrom, dateTo));
  }

  // ---------------------------------------------------------------------------
  // Executive summary
  // ---------------------------------------------------------------------------

  predicate IsPresent(r: Record) { r.status == AdminStore.Present }
  predicate IsAbsent(r: Record) { r.status == AdminStore.Absent }
  predicate IsLate(r: Record) { r.status == AdminStore.Late }

  /** `r.workingHours` is truthy: present and non-zero. */
  predicate HasHours(r: Record) { r.workingHours.Some? && r.workingHours.value != 0.0 }

  function HoursOf(r: Record): real { if HasHours(r) then r.workingHours.value else 0.0 }

  datatype Summary = Summary(
    totalRecords: nat, presentRecords: nat, absentRecords: nat, lateRecords: nat,
    attendanceRate: real, avgWorkingHours: JsNumber)

  /** `avgWorkingHours`: the mean of the truthy hours, and 0 when no record has any. */
  function AverageHours(records: seq<Record>): (avg: JsNumber)
    ensures Count(records, HasHours) == 0 ==> avg == Finite(0.0)
    ensures Count(records, HasHours) > 0 ==>
      avg == Finite(SumReal(records, HoursOf) / Count(records, HasHours) as real)
  {
    var withHours := Filter(records, HasHours);
    SumRealFilter(records, HasHours, HoursOf, HoursOf);
    OrZero(Divide(SumReal(withHours, HoursOf), |withHours| as real))
  }

  /** `present / total * 100` guarded against an empty total. */
  function SummaryRate(present: nat, total: nat): (rate: real)
    ensures total == 0 ==> rate == 0.0
    ensures total > 0 ==> rate * total as real == present as real * 100.0
  {
    if total > 0 then present as real / total as real * 100.0 else 0.0
  }

  function SummaryReport(records: seq<Record>): (s: Summary)
    ensures s.totalRecords == |records|
    ensures s.presentRecords == Count(records, IsPresent)
    ensures s.absentRecords == Count(records, IsAbsent)
    ensures s.lateRecords == Count(records, IsLate)
    ensures s.attendanceRate == SummaryRate(s.presentRecords, s.totalRecords)
    ensures s.avgWorkingHours == AverageHours(records)
  {
    var total := |records|;
    var present := Count(records, IsPresent);
    Summary(total, present, Count(records, IsAbsent), Count(records, IsLate),
            SummaryRate(present, total), AverageHours(records))
  }

  /** The three status counts never exceed the total (half-day records are in none of them). */
  lemma SummaryCountsBounded(records: seq<Record>)
    ensures SummaryReport(records).presentRecords + SummaryReport(records).absentRecords +
            SummaryReport(records).lateRecords <= SummaryReport(records).totalRecords
  {
    CountDisjoint3(records, IsPresent, IsAbsent, IsLate);
  }

  // ---------------------------------------------------------------------------
  // Grouped reports
  // ---------------------------------------------------------------------------

  /** One accumulator entry: the counts of a group, the name on its first record and its hours. */
  datatype Group = Group(name: string, present: nat, absent: nat, late: nat, total: nat, workingHours: real)

  const EmptyGroup := Group("", 0, 0, 0, 0, 0.0)

  /** One step of the reduce: the status counter and the total go up, truthy hours are added,
      and a new group takes the record's employee name. A half-day record only raises the total. */
  function AddRecord(g: Group, r: Record): Group
  {
    Group(
      if g.total == 0 then r.employeeName else g.name,
      g.present + (if IsPresent(r) then 1 else 0),
      g.absent + (if IsAbsent(r) then 1 else 0),
      g.late + (if IsLate(r) then 1 else 0),
      g.total + 1,
      g.workingHours + HoursOf(r))
  }

  /** The group the reduce builds from the records of one key, in order. */
  function GroupOf(rs: seq<Record>): Group
  {
    if rs == [] then EmptyGroup else AddRecord(GroupOf(rs[..|rs| - 1]), rs[|rs| - 1])
  }

  /** What a group holds: the number of its records with each status, its size,
      the sum of the truthy hours and the first record's name. */
  lemma {:induction false} GroupOfCounts(rs: seq<Record>)
    ensures GroupOf(rs).present == Count(rs, IsPresent)
    ensures GroupOf(rs).absent == Count(rs, IsAbsent)
    ensures GroupOf(rs).late == Count(rs, IsLate)
    ensures GroupOf(rs).total == |rs|
    ensures GroupOf(rs).workingHours == SumReal(rs, HoursOf)
    ensures rs != [] ==> GroupOf(rs).name == rs[0].employeeName
  {
    if rs != [] {
      var init := rs[..|rs| - 1];
      var last := rs[|rs| - 1];
      assert rs == init + [last];
      GroupOfCounts(init);
      CountSnoc(init, last, IsPresent);
      CountSnoc(init, last, IsAbsent);
      CountSnoc(init, last, IsLate);
      SumRealAppend(init, [last], HoursOf);
      assert SumReal([last], HoursOf) == HoursOf(last);
      if init != [] {
        assert init[0] == rs[0];
      }
    }
  }

  /** When every record is present, absent or late, a group's three counters add up to its total. */
  lemma GroupCountsAddUp(rs: seq<Record>)
    requires forall r :: r in rs ==> r.status != AdminStore.HalfDay
    ensures GroupOf(rs).present + GroupOf(rs).absent + GroupOf(rs).late == GroupOf(rs).total
  {
    GroupOfCounts(rs);
    CountComplement(rs, IsPresent, (r: Record) => !IsPresent(r));
    CountComplement(rs, IsAbsent, (r: Record) => !IsAbsent(r));
    GroupPartition(rs);
  }

  lemma {:induction false} GroupPartition(rs: seq<Record>)
    requires forall r :: r in rs ==> r.status != AdminStore.HalfDay
    ensures Count(rs, IsPresent) + Count(rs, IsAbsent) + Count(rs, IsLate) == |rs|
  {
    if rs != [] {
      GroupPartition(rs[1..]);
    }
  }

  /** The sum of the totals of the groups named in `keys`. */
  function GroupTotal(keys: seq<string>, groups: map<string, Group>): int
    requires forall k :: k in keys ==> k in groups
  {
    if keys == [] then 0 else groups[keys[0]].total + GroupTotal(keys[1..], groups)
  }

  /** Raising one listed group's total by one raises the sum by one. */
  lemma {:induction false} GroupTotalBump(keys: seq<string>, groups: map<string, Group>, k: string, g: Group)
    requires forall x :: x in keys ==> x in groups
    requires Distinct(keys) && k in keys && g.total == groups[k].total + 1
    ensures GroupTotal(keys, groups[k := g]) == GroupTotal(keys, groups) + 1
  {
    if keys[0] == k {
      GroupTotalUnchanged(keys[1..], groups, k, g);
    } else {
      GroupTotalBump(keys[1..], groups, k, g);
    }
  }

  /** Changing a group that is not listed leaves the sum alone. */
  lemma {:induction false} GroupTotalUnchanged(keys: seq<string>, groups: map<string, Group>, k: string, g: Group)
    requires forall x :: x in keys ==> x in groups
    requires k !in keys
    ensures GroupTotal(keys, groups[k := g]) == GroupTotal(keys, groups)
  {
    if keys != [] {
      GroupTotalUnchanged(keys[1..], groups, k, g);
    }
  }

  /** The records of one key, in order (`filter(r => key(r) === k)`, built from the end). */
  function KeyGroup(rs: seq<Record>, key: Record -> string, k: string): seq<Record>
  {
    if rs == [] then []
    else
      var init := KeyGroup(rs[..|rs| - 1], key, k);
      if key(rs[|rs| - 1]) == k then init + [rs[|rs| - 1]] else init
  }

  /** One more record joins exactly the group of its own key. */
  lemma KeyGroupSnoc(rs: seq<Record>, r: Record, key: Record -> string, k: string)
    ensures KeyGroup(rs + [r], key, k) == if key(r) == k then KeyGroup(rs, key, k) + [r] else KeyGroup(rs, key, k)
  {
    assert (rs + [r])[..|rs|] == rs;
  }

  /** A key's group is the filter of the records by that key. */
  lemma {:induction false} KeyGroupIsFilter(rs: seq<Record>, key: Record -> string, k: string)
    ensures KeyGroup(rs, key, k) == Filter(rs, (x: Record) => key(x) == k)
  {
    if rs != [] {
      var init := rs[..|rs| - 1];
      var last := rs[|rs| - 1];
      KeyGroupIsFilter(init, key, k);
      assert rs == init + [last];
      FilterAppend(init, [last], (x: Record) => key(x) == k);
      assert Filter([last], (x: Record) => key(x) == k) == if key(last) == k then [last] else [];
    }
  }

  lemma GroupOfSnoc(rs: seq<Record>, r: Record)
    ensures GroupOf(rs + [r]) == AddRecord(GroupOf(rs), r)
  {
    assert (rs + [r])[..|rs|] == rs;
  }

  /** The accumulator's keys, in insertion order, are exactly its entries, each once. */
  ghost predicate KeysListed(groups: map<string, Group>, keys: seq<string>)
  {
    (forall k :: k in groups <==> k in keys) && Distinct(keys)
  }

  /** Every entry of the accumulator is the group of the records of its key in `prefix`,
      and the keys without an entry have no records. */
  ghost predicate GroupsMatch(prefix: seq<Record>, key: Record -> string, groups: map<string, Group>)
  {
    (forall k :: k in groups ==> groups[k] == GroupOf(KeyGroup(prefix, key, k)) && KeyGroup(prefix, key, k) != []) &&
    (forall k :: k !in groups ==> KeyGroup(prefix, key, k) == [])
  }

  /** The accumulator `groups` (with its keys in insertion order) holds exactly the records of `prefix`. */
  ghost predicate Tallied(prefix: seq<Record>, key: Record -> string, groups: map<string, Group>, keys: seq<string>)
  {
    KeysListed(groups, keys) && GroupsMatch(prefix, key, groups) && GroupTotal(keys, groups) == |prefix|
  }

  /** The entry the reduce callback leaves for the key of `r`. */
  function Counted(groups: map<string, Group>, key: Record -> string, r: Record): Group
  {
    AddRecord(if key(r) in groups then groups[key(r)] else EmptyGroup, r)
  }

  function NextKeys(groups: map<string, Group>, keys: seq<string>, k: string): seq<string>
  {
    if k in groups then keys else keys + [k]
  }

  lemma KeysListedStep(groups: map<string, Group>, keys: seq<string>, k: string, g: Group)
    requires KeysListed(groups, keys)
    ensures KeysListed(groups[k := g], NextKeys(groups, keys, k))
  {
  }

  lemma GroupsMatchStep(prefix: seq<Record>, r: Record, key: Record -> string, groups: map<string, Group>)
    requires GroupsMatch(prefix, key, groups)
    ensures GroupsMatch(prefix + [r], key, groups[key(r) := Counted(groups, key, r)])
  {
    var k := key(r);
    var groups' := groups[k := Counted(groups, key, r)];
    forall k' | k' in groups'
      ensures groups'[k'] == GroupOf(KeyGroup(prefix + [r], key, k')) && KeyGroup(prefix + [r], key, k') != []
    {
      KeyGroupSnoc(prefix, r, key, k');
      if k' == k {
        GroupOfSnoc(KeyGroup(prefix, key, k), r);
        if k !in groups {
          assert KeyGroup(prefix, key, k) == [];
        }
      }
    }
    forall k' | k' !in groups' ensures KeyGroup(prefix + [r], key, k') == []
    {
      KeyGroupSnoc(prefix, r, key, k');
    }
  }

  lemma GroupTotalStep(prefix: seq<Record>, r: Record, key: Record -> string, groups: map<string, Group>, keys: seq<string>)
    requires Tallied(prefix, key, groups, keys)
    ensures GroupTotal(NextKeys(groups, keys, key(r)), groups[key(r) := Counted(groups, key, r)]) == |prefix| + 1
  {
    var k := key(r);
    var g := Counted(groups, key, r);
    if k in groups {
      GroupTotalBump(keys, groups, k, g);
    } else {
      GroupTotalUnchanged(keys, groups, k, g);
      GroupTotalAppend(keys, groups[k := g], k);
    }
  }

  /** A key is listed when it is seen for the first time. */
  lemma KeysStep(prefix: seq<Record>, r: Record, key: Record -> string, groups: map<string, Group>, keys: seq<string>)
    requires KeysListed(groups, keys) && keys == Dedup(KeysOf(prefix, key))
    ensures NextKeys(groups, keys, key(r)) == Dedup(KeysOf(prefix + [r], key))
  {
    assert KeysOf(prefix + [r], key) == KeysOf(prefix, key) + [key(r)];
    DedupSnoc(KeysOf(prefix, key), key(r));
  }

  /** One turn of the `GroupBy` loop keeps both of its invariants. */
  lemma GroupByStep(records: seq<Record>, i: nat, key: Record -> string, groups: map<string, Group>, keys: seq<string>)
    requires i < |records|
    requires Tallied(records[..i], key, groups, keys) && keys == Dedup(KeysOf(records[..i], key))
    ensures var r := records[i];
      Tallied(records[..i + 1], key, groups[key(r) := Counted(groups, key, r)], NextKeys(groups, keys, key(r)))
    ensures NextKeys(groups, keys, key(records[i])) == Dedup(KeysOf(records[..i + 1], key))
  {
    TalliedAt(records, i, key, groups, keys);
    KeysAt(records, i, key, groups, keys);
  }

  lemma TalliedAt(records: seq<Record>, i: nat, key: Record -> string, groups: map<string, Group>, keys: seq<string>)
    requires i < |records|
    requires Tallied(records[..i], key, groups, keys)
    ensures var r := records[i];
      Tallied(records[..i + 1], key, groups[key(r) := Counted(groups, key, r)], NextKeys(groups, keys, key(r)))
  {
    assert records[..i + 1] == records[..i] + [records[i]];
    TalliedStep(records[..i], records[i], key, groups, keys);
  }

  lemma KeysAt(records: seq<Record>, i: nat, key: Record -> string, groups: map<string, Group>, keys: seq<string>)
    requires i < |records|
    requires KeysListed(groups, keys) && keys == Dedup(KeysOf(records[..i], key))
    ensures NextKeys(groups, keys, key(records[i])) == Dedup(KeysOf(records[..i + 1], key))
  {
    assert records[..i + 1] == records[..i] + [records[i]];
    KeysStep(records[..i], records[i], key, groups, keys);
  }

  /** The reduce callback on one record: its key's entry is created if missing, then counted. */
  lemma TalliedStep(prefix: seq<Record>, r: Record, key: Record -> string, groups: map<string, Group>, keys: seq<string>)
    requires Tallied(prefix, key, groups, keys)
    ensures Tallied(prefix + [r], key, groups[key(r) := Counted(groups, key, r)], NextKeys(groups, keys, key(r)))
  {
    KeysListedStep(groups, keys, key(r), Counted(groups, key, r));
    GroupsMatchStep(prefix, r, key, groups);
    GroupTotalStep(prefix, r, key, groups, keys);
  }

  /** The key of each record, in record order. */
  function KeysOf(records: seq<Record>, key: Record -> string): (ks: seq<string>)
    ensures |ks| == |records|
    ensures forall i :: 0 <= i < |ks| ==> ks[i] == key(records[i])
  {
    seq(|records|, i requires 0 <= i < |records| => key(records[i]))
  }

  /**
   * `records.reduce((acc, record) => …, {})`: one group per distinct key, with `keys` in the
   * order the keys first appear (the accumulator's insertion order), each holding exactly the
   * records of its key; the group totals add up to the number of records.
   */
  method GroupBy(records: seq<Record>, key: Record -> string) returns (groups: map<string, Group>, keys: seq<string>)
    ensures keys == Dedup(KeysOf(records, key))
    ensures forall k :: k in groups <==> k in keys
    ensures Distinct(keys)
    ensures forall i :: 0 <= i < |records| ==> key(records[i]) in groups
    ensures forall k :: k in groups ==> groups[k] == GroupOf(KeyGroup(records, key, k))
    ensures forall k :: k in groups ==> KeyGroup(records, key, k) != []
    ensures forall k :: k !in groups ==> KeyGroup(records, key, k) == []
    ensures GroupTotal(keys, groups) == |records|
  {
    groups := map[];
    keys := [];
    var i := 0;
    while i < |records|
      invariant 0 <= i <= |records|
      invariant Tallied(records[..i], key, groups, keys)
      invariant keys == Dedup(KeysOf(records[..i], key))
    {
      var r := records[i];
      GroupByStep(records, i, key, groups, keys);
      var k := key(r);
      var entry := if k in groups then groups[k] else EmptyGroup;
      if k !in groups {
        keys := keys + [k];
      }
      groups := groups[k := AddRecord(entry, r)];
      i := i + 1;
    }
    assert records[..i] == records;
    forall j | 0 <= j < |records| ensures key(records[j]) in groups
    {
      KeyGroupHas(records, key, j);
    }
  }

  /** Every record is in the group of its key. */
  lemma {:induction false} KeyGroupHas(rs: seq<Record>, key: Record -> string, j: int)
    requires 0 <= j < |rs|
    ensures KeyGroup(rs, key, key(rs[j])) != []
  {
    var init := rs[..|rs| - 1];
    if j < |rs| - 1 {
      assert init[j] == rs[j];
      KeyGroupHas(init, key, j);
    }
  }

  lemma {:induction false} GroupTotalAppend(keys: seq<string>, groups: map<string, Group>, k: string)
    requires forall x :: x in keys ==> x in groups
    requires k in groups
    ensures GroupTotal(keys + [k], groups) == GroupTotal(keys, groups) + groups[k].total
  {
    if keys == [] {
      assert keys + [k] == [k];
    } else {
      assert (keys + [k])[1..] == keys[1..] + [k];
      GroupTotalAppend(keys[1..], groups, k);
    }
  }

  function DateKey(r: Record): string { r.date }

  /** `record.date.substring(0, 7)`: the `YYYY-MM` part of the date. */
  function MonthKey(r: Record): (k: string)
    ensures |r.date| >= 7 ==> |k| == 7 && k == r.date[..7]
  {
    FirstN(r.date, 7)
  }

  function EmployeeKey(r: Record): string { r.employeeId }

  /** Records of the same month share a group. */
  lemma SameMonthSameGroup(a: Record, b: Record)
    requires |a.date| >= 7 && |b.date| >= 7 && a.date[..7] == b.date[..7]
    ensures MonthKey(a) == MonthKey(b)
  {
  }

  /** `attendanceRate` of a daily or monthly entry, `present / total * 100`. */
  function GroupRate(g: Group): (rate: real)
    requires g.total > 0
    ensures 0.0 <= rate && (g.present <= g.total ==> rate <= 100.0)
    ensures rate == 0.0 <==> g.present == 0
    ensures g.present == g.total ==> rate == 100.0
    ensures rate * g.total as real == g.present as real * 100.0
  {
    g.present as real / g.total as real * 100.0
  }

  /** `avgWorkingHours` of an employee entry, `totalWorkingHours / present || 0`: with no
      present record, positive hours give +Infinity, negative hours -Infinity and no hours 0. */
  function EmployeeAverageHours(g: Group): (avg: JsNumber)
    ensures g.present > 0 ==> avg == Finite(g.workingHours / g.present as real)
    ensures g.present == 0 && g.workingHours == 0.0 ==> avg == Finite(0.0)
    ensures g.present == 0 && g.workingHours > 0.0 ==> avg == PositiveInfinity
    ensures g.present == 0 && g.workingHours < 0.0 ==> avg == NegativeInfinity
  {
    OrZero(Divide(g.workingHours, g.present as real))
  }
}

=== FILE: salary.dfy ===
/**
 * Salary structures (client/src/pages/SalaryManagement.tsx): gross pay is the
 * basic salary plus five allowances, net pay is gross less four deductions,
 * and the page shows the payroll total, the average gross, the number of
 * bonus-eligible structures and a search-and-status filter.
 */
module Salary {
  import opened Common

  datatype Allowances = Allowances(houseRent: int, transport: int, medical: int, food: int, other: int)
  datatype Deductions = Deductions(tax: int, providentFund: int, insurance: int, other: int)

  datatype SalaryStructure = SalaryStructure(
    id: string, userId: string, employeeName: string, employeeId: string, basicSalary: int,
    allowances: Allowances, deductions: Deductions, overtimeRate: int, bonusEligible: bool,
    currency: string, effectiveDate: string, isActive: bool)

  /** `Object.values(allowances)`, in declaration order. */
  function AllowanceValues(a: Allowances): seq<int>
  {
    [a.houseRent, a.transport, a.medical, a.food, a.other]
  }

  function DeductionValues(d: Deductions): seq<int>
  {
    [d.tax, d.providentFund, d.insurance, d.other]
  }

  /** `reduce((sum, amount) => sum + amount, 0)`. */
  function Total(amounts: seq<int>): int
  {
    if amounts == [] then 0 else amounts[0] + Total(amounts[1..])
  }

  lemma AllowanceTotal(a: Allowances)
    ensures Total(AllowanceValues(a)) == a.houseRent + a.transport + a.medical + a.food + a.other
  {
    var v := AllowanceValues(a);
    assert v[1..] == [a.transport, a.medical, a.food, a.other];
    assert v[1..][1..] == [a.medical, a.food, a.other];
    assert v[1..][1..][1..] == [a.food, a.other];
    assert v[1..][1..][1..][1..] == [a.other];
    assert Total([a.other]) == a.other;
    assert Total([a.food, a.other]) == a.food + a.other;
    assert Total([a.medical, a.food, a.other]) == a.medical + a.food + a.other;
    assert Total([a.transport, a.medical, a.food, a.other]) == a.transport + a.medical + a.food + a.other;
  }

  lemma DeductionTotal(d: Deductions)
    ensures Total(DeductionValues(d)) == d.tax + d.providentFund + d.insurance + d.other
  {
    var v := DeductionValues(d);
    assert v[1..] == [d.providentFund, d.insurance, d.other];
    assert v[1..][1..] == [d.insurance, d.other];
    assert v[1..][1..][1..] == [d.other];
    assert Total([d.other]) == d.other;
    assert Total([d.insurance, d.other]) == d.insurance + d.other;
    assert Total([d.providentFund, d.insurance, d.other]) == d.providentFund + d.insurance + d.other;
  }

  /** `calculateGrossSalary`. */
  function GrossSalary(s: SalaryStructure): (gross: int)
    ensures gross == s.basicSalary + s.allowances.houseRent + s.allowances.transport +
                     s.allowances.medical + s.allowances.food + s.allowances.other
  {
    AllowanceTotal(s.allowances);
    s.basicSalary + Total(AllowanceValues(s.allowances))
  }

  /** `calculateNetSalary`. */
  function NetSalary(s: SalaryStructure): (net: int)
    ensures net == GrossSalary(s) - (s.deductions.tax + s.deductions.providentFund +
                                     s.deductions.insurance + s.deductions.other)
  {
    DeductionTotal(s.deductions);
    GrossSalary(s) - Total(DeductionValues(s.deductions))
  }

  function TotalDeductions(s: SalaryStructure): int
  {
    Total(DeductionValues(s.deductions))
  }

  /** Net pay never exceeds gross pay when no deduction is negative, and equals it with none. */
  lemma NetAtMostGross(s: SalaryStructure)
    requires forall x :: x in DeductionValues(s.deductions) ==> x >= 0
    ensures NetSalary(s) <= GrossSalary(s)
    ensures s.deductions == Deductions(0, 0, 0, 0) ==> NetSalary(s) == GrossSalary(s)
  {
    assert s.deductions.tax in DeductionValues(s.deductions);
    assert s.deductions.providentFund in DeductionValues(s.deductions);
    assert s.deductions.insurance in DeductionValues(s.deductions);
    assert s.deductions.other in DeductionValues(s.deductions);
  }

  /** A raise of any one allowance raises net pay by the same amount. */
  lemma AllowanceRaiseReachesNet(s: SalaryStructure, amount: int)
    ensures NetSalary(s.(allowances := s.allowances.(houseRent := s.allowances.houseRent + amount)))
         == NetSalary(s) + amount
    ensures NetSalary(s.(allowances := s.allowances.(transport := s.allowances.transport + amount)))
         == NetSalary(s) + amount
    ensures NetSalary(s.(allowances := s.allowances.(medical := s.allowances.medical + amount)))
         == NetSalary(s) + amount
    ensures NetSalary(s.(allowances := s.allowances.(food := s.allowances.food + amount)))
         == NetSalary(s) + amount
    ensures NetSalary(s.(allowances := s.allowances.(other := s.allowances.other + amount)))
         == NetSalary(s) + amount
  {
  }

  /** The "Total Payroll" card: the sum of every structure's net pay. */
  function TotalPayroll(structures: seq<SalaryStructure>): int
  {
    Sum(structures, NetSalary)
  }

  /** The payroll total is the gross total less the deductions total. */
  lemma {:induction false} TotalPayrollIsGrossLessDeductions(structures: seq<SalaryStructure>)
    ensures TotalPayroll(structures) == Sum(structures, GrossSalary) - Sum(structures, TotalDeductions)
  {
    if structures != [] {
      TotalPayrollIsGrossLessDeductions(structures[1..]);
    }
  }

  /** The "Avg Gross Salary" card: the gross total over the count, NaN for no structures. */
  function AverageGross(structures: seq<SalaryStructure>): (avg: JsNumber)
    ensures structures == [] ==> avg == NaN
    ensures structures != [] ==> avg == Finite(Sum(structures, GrossSalary) as real / |structures| as real)
  {
    Divide(Sum(structures, GrossSalary) as real, |structures| as real)
  }

  /** The "Bonus Eligible" card. */
  function BonusEligibleCount(structures: seq<SalaryStructure>): (n: nat)
    ensures n == Count(structures, (s: SalaryStructure) => s.bonusEligible)
    ensures n <= |structures|
    ensures n == |structures| <==> forall s :: s in structures ==> s.bonusEligible
  {
    var p := (s: SalaryStructure) => s.bonusEligible;
    if Count(structures, p) == |structures| then
      assert Filter(structures, p) == structures by { FilterLengthAll(structures, p); }
      Count(structures, p)
    else
      NotAllWhenShort(structures, p);
      Count(structures, p)
  }

  lemma {:induction false} FilterLengthAll<T(!new)>(s: seq<T>, p: T -> bool)
    requires |Filter(s, p)| == |s|
    ensures Filter(s, p) == s
  {
    if s != [] {
      assert |Filter(s[1..], p)| <= |s| - 1;
      FilterLengthAll(s[1..], p);
    }
  }

  lemma NotAllWhenShort<T(!new)>(s: seq<T>, p: T -> bool)
    requires |Filter(s, p)| < |s|
    ensures exists x :: x in s && !p(x)
  {
    if forall x :: x in s ==> p(x) {
      FilterAll(s, p);
    }
  }

  predicate SalaryMatches(searchTerm: string, filterStatus: string, s: SalaryStructure)
  {
    (ContainsIgnoringCase(s.employeeName, searchTerm) || ContainsIgnoringCase(s.employeeId, searchTerm)) &&
    (filterStatus == "all" || (filterStatus == "active" && s.isActive) || (filterStatus == "inactive" && !s.isActive))
  }

  /** `filteredSalaries`: name or employee ID contains the term, and the status selection matches. */
  function FilteredSalaries(structures: seq<SalaryStructure>, searchTerm: string, filterStatus: string): (rs: seq<SalaryStructure>)
    ensures forall s :: s in rs <==> s in structures && SalaryMatches(searchTerm, filterStatus, s)
    ensures IsSubsequence(rs, structures)
  {
    FilterIsSubsequence(structures, (s: SalaryStructure) => SalaryMatches(searchTerm, filterStatus, s));
    Filter(structures, (s: SalaryStructure) => SalaryMatches(searchTerm, filterStatus, s))
  }
}

=== FILE: shifts.dfy ===
/**
 * Work shifts (client/src/pages/ShiftsManagement.tsx): the working time of a
 * shift, which wraps past midnight when the end is not after the start, the
 * overnight label, the search-and-status filter and the assigned-users total.
 */
module Shifts {
  import opened Common

  /** A shift; `startTime` and `endTime` are the `HH:MM` strings of the source, as minutes. */
  datatype Shift = Shift(
    id: string, name: string, startTime: Minute, endTime: Minute, breakDuration: nat,
    daysOfWeek: seq<string>, isActive: bool, assignedUsers: nat)

  // ---------------------------------------------------------------------------
  // Duration
  // ---------------------------------------------------------------------------

  /** Minutes from start to end; an end at or before the start is taken on the next day. */
  function Span(startTime: Minute, endTime: Minute): (span: int)
    ensures 0 < span <= 24 * 60
    ensures endTime > startTime ==> span == endTime - startTime
    ensures endTime <= startTime ==> span == endTime + 24 * 60 - startTime
    ensures startTime == endTime ==> span == 24 * 60
    ensures (startTime + span) % (24 * 60) == endTime
  {
    if endTime <= startTime then endTime + 24 * 60 - startTime else endTime - startTime
  }

  /** `calculateShiftDuration` before formatting: the span less the break, in hours. */
  function WorkingHours(startTime: Minute, endTime: Minute, breakDuration: nat): (hours: real)
    ensures hours == (Span(startTime, endTime) - breakDuration) as real / 60.0
    ensures hours <= 24.0
    ensures hours < 0.0 <==> breakDuration > Span(startTime, endTime)
  {
    (Span(startTime, endTime) - breakDuration) as real / 60.0
  }

  // ---------------------------------------------------------------------------
  // Overnight label
  // ---------------------------------------------------------------------------

  function Digit(d: int): (c: char)
    requires 0 <= d < 10
    ensures c as int == '0' as int + d
  {
    ('0' as int + d) as char
  }

  /** The zero-padded `HH:MM` text of a time of day. */
  function Clock(m: Minute): (s: string)
    ensures |s| == 5 && s[2] == ':'
  {
    [Digit(m / 600), Digit(m / 60 % 10), ':', Digit(m % 60 / 10), Digit(m % 10)]
  }

  /** The label compares the two texts: `start_time > end_time`. */
  predicate LabelledOvernight(s: Shift)
  {
    !StringLeq(Clock(s.startTime), Clock(s.endTime))
  }

  /** A time of day is its four digits read as hours and minutes. */
  lemma ClockDigits(m: Minute)
    ensures m == 600 * (m / 600) + 60 * (m / 60 % 10) + 10 * (m % 60 / 10) + m % 10
    ensures 0 <= m / 600 < 3 && 0 <= m % 60 / 10 < 6
  {
    assert m / 600 == m / 60 / 10;
    assert m % 10 == m % 60 % 10;
  }

  /** Comparing two texts from position `k` on: the character there decides, or the rest does. */
  lemma StringLeqAt(s: string, t: string, k: nat)
    requires k < |s| && k < |t|
    ensures StringLeq(s[k..], t[k..]) <==> s[k] < t[k] || (s[k] == t[k] && StringLeq(s[k + 1..], t[k + 1..]))
  {
    assert s[k..][1..] == s[k + 1..];
    assert t[k..][1..] == t[k + 1..];
  }

  /** Four-digit numerals in mixed radix compare like the numbers they denote. */
  lemma MixedRadixOrder(d0: int, d1: int, d2: int, d3: int, e0: int, e1: int, e2: int, e3: int)
    requires 0 <= d1 < 10 && 0 <= d2 < 6 && 0 <= d3 < 10
    requires 0 <= e1 < 10 && 0 <= e2 < 6 && 0 <= e3 < 10
    ensures 600 * d0 + 60 * d1 + 10 * d2 + d3 <= 600 * e0 + 60 * e1 + 10 * e2 + e3 <==>
      d0 < e0 || (d0 == e0 && (d1 < e1 || (d1 == e1 && (d2 < e2 || (d2 == e2 && d3 <= e3)))))
  {
  }

  /** On zero-padded times the text order is the order of the times. */
  lemma {:induction false} ClockOrder(a: Minute, b: Minute)
    ensures StringLeq(Clock(a), Clock(b)) <==> a <= b
  {
    var x, y := Clock(a), Clock(b);
    ClockDigits(a);
    ClockDigits(b);
    MixedRadixOrder(a / 600, a / 60 % 10, a % 60 / 10, a % 10, b / 600, b / 60 % 10, b % 60 / 10, b % 10);
    assert x[5..] == [];
    StringLeqAt(x, y, 4);
    StringLeqAt(x, y, 3);
    StringLeqAt(x, y, 2);
    StringLeqAt(x, y, 1);
    StringLeqAt(x, y, 0);
    assert x[0..] == x && y[0..] == y;
  }

  /** The label says overnight exactly when the shift starts later in the day than it ends. */
  lemma OvernightLabel(s: Shift)
    ensures LabelledOvernight(s) <==> s.startTime > s.endTime
  {
    ClockOrder(s.startTime, s.endTime);
  }

  /** A shift that starts and ends at the same time is labelled regular, yet its duration counts a full day. */
  lemma EqualTimesLabelledRegularButSpanADay(s: Shift)
    requires s.startTime == s.endTime
    ensures !LabelledOvernight(s)
    ensures Span(s.startTime, s.endTime) == 24 * 60
  {
    OvernightLabel(s);
  }

  // ---------------------------------------------------------------------------
  // Filter and totals
  // ---------------------------------------------------------------------------

  /** The status drop-down: "all", "active" or "inactive"; any other value matches nothing. */
  predicate MatchesStatus(filterStatus: string, s: Shift)
  {
    filterStatus == "all" || (filterStatus == "active" && s.isActive) || (filterStatus == "inactive" && !s.isActive)
  }

  predicate ShiftMatches(searchTerm: string, filterStatus: string, s: Shift)
  {
    ContainsIgnoringCase(s.name, searchTerm) && MatchesStatus(filterStatus, s)
  }

  /** `filteredShifts`. */
  function FilteredShifts(shifts: seq<Shift>, searchTerm: string, filterStatus: string): (rs: seq<Shift>)
    ensures forall s :: s in rs <==>
      (s in shifts && ContainsIgnoringCase(s.name, searchTerm) &&
       (filterStatus == "all" || (filterStatus == "active" && s.isActive) || (filterStatus == "inactive" && !s.isActive)))
    ensures IsSubsequence(rs, shifts)
  {
    FilterIsSubsequence(shifts, (s: Shift) => ShiftMatches(searchTerm, filterStatus, s));
    Filter(shifts, (s: Shift) => ShiftMatches(searchTerm, filterStatus, s))
  }

  /** With an empty search and "all", every shift is listed, in order. */
  lemma DefaultFilterListsAll(shifts: seq<Shift>)
    ensures FilteredShifts(shifts, "", "all") == shifts
  {
    forall s | s in shifts ensures ShiftMatches("", "all", s)
    {
      ContainsIgnoringCaseEmpty(s.name);
    }
    FilterAll(shifts, (s: Shift) => ShiftMatches("", "all", s));
  }

  /** The "active" and "inactive" views split the shifts matching a search. */
  lemma ActiveAndInactivePartition(shifts: seq<Shift>, searchTerm: string)
    ensures |FilteredShifts(shifts, searchTerm, "active")| + |FilteredShifts(shifts, searchTerm, "inactive")|
         == |FilteredShifts(shifts, searchTerm, "all")|
  {
    var all := (s: Shift) => ShiftMatches(searchTerm, "all", s);
    var act := (s: Shift) => ShiftMatches(searchTerm, "active", s);
    var inact := (s: Shift) => ShiftMatches(searchTerm, "inactive", s);
    FilterFilter(shifts, all, (s: Shift) => s.isActive, act);
    FilterFilter(shifts, all, (s: Shift) => !s.isActive, inact);
    CountComplement(Filter(shifts, all), (s: Shift) => s.isActive, (s: Shift) => !s.isActive);
  }

  /** The "Assigned Users" card. */
  function AssignedUsers(shifts: seq<Shift>): (total: int)
    ensures total >= 0
    ensures shifts == [] ==> total == 0
  {
    NonNegativeSum(shifts);
    Sum(shifts, (s: Shift) => s.assignedUsers)
  }

  lemma {:induction false} NonNegativeSum(shifts: seq<Shift>)
    ensures Sum(shifts, (s: Shift) => s.assignedUsers) >= 0
  {
    if shifts != [] {
      NonNegativeSum(shifts[1..]);
    }
  }

  /** A single shift contributes exactly its own staff count. */
  lemma AssignedUsersSingleton(s: Shift)
    ensures AssignedUsers([s]) == s.assignedUsers
  {
    var f := (x: Shift) => x.assignedUsers;
    assert [s][1..] == [];
    assert Sum([s], f) == f(s) + Sum([], f);
  }

  /** The total is additive: splitting the shifts splits the sum. */
  lemma AssignedUsersAdditive(a: seq<Shift>, b: seq<Shift>)
    ensures AssignedUsers(a + b) == AssignedUsers(a) + AssignedUsers(b)
  {
    SumAppend(a, b, (s: Shift) => s.assignedUsers);
  }

  /** The staff on the listed shifts never exceed the card's total. */
  lemma FilteredAssignedAtMostTotal(shifts: seq<Shift>, searchTerm: string, filterStatus: string)
    ensures AssignedUsers(FilteredShifts(shifts, searchTerm, filterStatus)) <= AssignedUsers(shifts)
  {
    var p := (s: Shift) => ShiftMatches(searchTerm, filterStatus, s);
    var g := (s: Shift) => if p(s) then s.assignedUsers else 0;
    SumFilter(shifts, p, (s: Shift) => s.assignedUsers, g);
    SumDominated(shifts, g, (s: Shift) => s.assignedUsers);
  }

  lemma {:induction false} SumDominated(shifts: seq<Shift>, f: Shift -> int, g: Shift -> int)
    requires forall s :: f(s) <= g(s)
    ensures Sum(shifts, f) <= Sum(shifts, g)
  {
    if shifts != [] {
      SumDominated(shifts[1..], f, g);
    }
  }
}

=== FILE: signup.dfy ===
/**
 * Account sign-up (client/src/pages/Signup.tsx): four checks run in a fixed
 * order and the first failure is reported; when all pass the new user is
 * appended to the registered users kept in browser storage.
 */
module Signup {
  import opened Common

  datatype SignupForm = SignupForm(
    firstName: string, lastName: string, email: string, password: string,
    confirmPassword: string, department: string, phoneNumber: string)

  datatype SignupError = MissingRequiredFields | PasswordsDoNotMatch | PasswordTooShort | TermsNotAgreed

  const MinPasswordLength := 6

  /** The checks of `handleSubmit`, in order; `None` means the form is accepted. */
  function Validate(form: SignupForm, agreeToTerms: bool): (err: Option<SignupError>)
    ensures err == Some(MissingRequiredFields) <==>
      form.firstName == "" || form.lastName == "" || form.email == "" || form.password == ""
    ensures err == Some(PasswordsDoNotMatch) <==>
      form.firstName != "" && form.lastName != "" && form.email != "" && form.password != "" &&
      form.password != form.confirmPassword
    ensures err == Some(PasswordTooShort) <==>
      form.firstName != "" && form.lastName != "" && form.email != "" && form.password != "" &&
      form.password == form.confirmPassword && |form.password| < MinPasswordLength
    ensures err.None? <==>
      form.firstName != "" && form.lastName != "" && form.email != "" &&
      form.password == form.confirmPassword && |form.password| >= MinPasswordLength && agreeToTerms
  {
    if form.firstName == "" || form.lastName == "" || form.email == "" || form.password == "" then
      Some(MissingRequiredFields)
    else if form.password != form.confirmPassword then Some(PasswordsDoNotMatch)
    else if |form.password| < MinPasswordLength then Some(PasswordTooShort)
    else if !agreeToTerms then Some(TermsNotAgreed)
    else None
  }

  /** Fixing the reported problem never brings back an earlier one: a form that fails only on
      the terms passes once they are agreed. */
  lemma TermsAreCheckedLast(form: SignupForm)
    ensures Validate(form, false) == Some(TermsNotAgreed) <==> Validate(form, true).None?
  {
  }

  /** The stored account: the form, the biometric choice, a time-based id and the creation time. */
  datatype RegisteredUser = RegisteredUser(form: SignupForm, biometricEnabled: bool, id: int, createdAt: string)

  /** The page state that `handleSubmit` changes. */
  class SignupPage {
    var registeredUsers: seq<RegisteredUser>
    var isLoading: bool

    /** A missing stored list reads as the empty list. */
    constructor (stored: Option<seq<RegisteredUser>>)
      ensures registeredUsers == (if stored.Some? then stored.value else []) && !isLoading
    {
      registeredUsers := if stored.Some? then stored.value else [];
      isLoading := false;
    }

    /** `handleSubmit`: a rejected form stores nothing; an accepted one appends exactly one user.
        Either way the loading flag ends cleared. */
    method HandleSubmit(form: SignupForm, agreeToTerms: bool, enableBiometric: bool, id: int, createdAt: string)
      returns (err: Option<SignupError>)
      modifies this
      ensures err == Validate(form, agreeToTerms)
      ensures err.Some? ==> registeredUsers == old(registeredUsers)
      ensures err.None? ==> registeredUsers == old(registeredUsers) + [RegisteredUser(form, enableBiometric, id, createdAt)]
      ensures !isLoading
    {
      isLoading := true;
      err := Validate(form, agreeToTerms);
      if err.Some? {
        isLoading := false;
        return;
      }
      registeredUsers := registeredUsers + [RegisteredUser(form, enableBiometric, id, createdAt)];
      isLoading := false;
    }
  }
}

=== FILE: use_api.dfy ===
/**
 * The `useApi` hook (client/src/hooks/useApi.ts): a `{data, loading, error}`
 * record that `execute` overwrites before and after awaiting an API call, and
 * that `reset` clears. The awaited call is a parameter: what it returned, or
 * what it threw.
 */
module UseApi {
  import opened Common

  /** What the API function resolved to; an empty `message` is JavaScript-falsy. */
  datatype ApiResponse<T> = ApiResponse(success: bool, data: Option<T>, message: string)

  /** The awaited call either returns a response or throws; `Threw(None)` is a thrown value
      that is not an `Error`. */
  datatype Outcome<T> = Returned(response: ApiResponse<T>) | Threw(errorMessage: Option<string>)

  datatype State<T> = State(data: Option<T>, loading: bool, error: Option<string>)

  const OperationFailed := "Operation failed"
  const UnknownError := "Unknown error occurred"

  function Initial<T>(): (s: State<T>)
    ensures s.data.None? && !s.loading && s.error.None?
  {
    State(None, false, None)
  }

  /** The update made when `execute` starts: loading, no error, the data kept. */
  function Started<T>(s: State<T>): (t: State<T>)
    ensures t.data == s.data && t.loading && t.error.None?
  {
    s.(loading := true, error := None)
  }

  /** The message reported for an outcome that is not a success with data. */
  function ErrorMessage<T>(o: Outcome<T>): (m: string)
    ensures o.Returned? && o.response.message != "" ==> m == o.response.message
    ensures o.Returned? && o.response.message == "" ==> m == OperationFailed
    ensures o.Threw? && o.errorMessage.Some? ==> m == o.errorMessage.value
    ensures o.Threw? && o.errorMessage.None? ==> m == UnknownError
  {
    match o
    case Returned(r) => if r.message != "" then r.message else OperationFailed
    case Threw(e) => if e.Some? then e.value else UnknownError
  }

  predicate Succeeded<T>(o: Outcome<T>)
  {
    o.Returned? && o.response.success && o.response.data.Some?
  }

  /** The state once the call has settled: whatever it was before, loading is off, and exactly
      one of data and error is set unless a thrown `Error` carried an empty message. */
  function Settled<T>(o: Outcome<T>): (s: State<T>)
    ensures !s.loading
    ensures s.data.Some? <==> Succeeded(o)
    ensures Succeeded(o) ==> s.data == o.response.data && s.error.None?
    ensures !Succeeded(o) ==> s.error == Some(ErrorMessage(o))
  {
    if Succeeded(o) then State(o.response.data, false, None)
    else State(None, false, Some(ErrorMessage(o)))
  }

  /** What `execute` resolves to: the data on success, `null` otherwise. */
  function Result<T>(o: Outcome<T>): (r: Option<T>)
    ensures r.Some? <==> Succeeded(o)
    ensures r == Settled(o).data
  {
    if Succeeded(o) then o.response.data else None
  }

  /** A failed call always leaves a reason behind; only a successful one leaves none. */
  lemma FailureAlwaysReported<T>(o: Outcome<T>)
    ensures Settled(o).error.None? <==> Succeeded(o)
    ensures o.Returned? && !Succeeded(o) ==> Settled(o).error.value != ""
  {
  }

  /** The state a component holds through the hook. */
  class ApiHook<T> {
    var state: State<T>

    constructor ()
      ensures state == Initial()
    {
      state := Initial();
    }

    /** The first `setState` of `execute`. */
    method Begin()
      modifies this
      ensures state == Started(old(state))
    {
      state := state.(loading := true, error := None);
    }

    /** The `setState` once the call has settled, and the value `execute` returns. */
    method Finish(o: Outcome<T>) returns (r: Option<T>)
      modifies this
      ensures state == Settled(o) && r == Result(o)
    {
      if o.Returned? && o.response.success && o.response.data.Some? {
        state := State(o.response.data, false, None);
        r := o.response.data;
      } else {
        var message: string;
        if o.Returned? {
          message := if o.response.message != "" then o.response.message else OperationFailed;
        } else {
          message := if o.errorMessage.Some? then o.errorMessage.value else UnknownError;
        }
        state := State(None, false, Some(message));
        r := None;
      }
    }

    /** `execute`: begin, await the call, settle. The earlier state does not survive. */
    method Execute(o: Outcome<T>) returns (r: Option<T>)
      modifies this
      ensures state == Settled(o) && r == Result(o)
      ensures !state.loading
    {
      Begin();
      r := Finish(o);
    }

    /** `reset`. */
    method Reset()
      modifies this
      ensures state == Initial()
    {
      state := State(None, false, None);
    }
  }
}

=== FILE: users.dfy ===
/**
 * User accounts (client/src/pages/UsersManagement.tsx): the search, role and
 * status filter, the active, inactive and admin counts and the toggle action
 * a row offers.
 */
module Users {
  import opened Common

  datatype Role = Admin | Hr | Employee | Manager

  datatype Profile = Profile(
    firstName: string, lastName: string, phone: string, address: string, dateOfBirth: string,
    hireDate: string, department: string, position: string, employeeId: string, emergencyContact: string)

  datatype User = User(
    id: string, username: string, email: string, passwordHash: string, role: Role,
    isActive: bool, profile: Profile)

  /** The role as the drop-down spells it. */
  function RoleName(r: Role): (name: string)
    ensures name in {"admin", "hr", "employee", "manager"}
  {
    match r
    case Admin => "admin"
    case Hr => "hr"
    case Employee => "employee"
    case Manager => "manager"
  }

  predicate MatchesSearch(searchTerm: string, u: User)
  {
    ContainsIgnoringCase(u.username, searchTerm) || ContainsIgnoringCase(u.email, searchTerm) ||
    ContainsIgnoringCase(u.profile.firstName, searchTerm) || ContainsIgnoringCase(u.profile.lastName, searchTerm) ||
    ContainsIgnoringCase(u.profile.employeeId, searchTerm)
  }

  predicate MatchesRole(filterRole: string, u: User)
  {
    filterRole == "all" || RoleName(u.role) == filterRole
  }

  predicate MatchesStatus(filterStatus: string, u: User)
  {
    filterStatus == "all" || (filterStatus == "active" && u.isActive) || (filterStatus == "inactive" && !u.isActive)
  }

  predicate UserMatches(searchTerm: string, filterRole: string, filterStatus: string, u: User)
  {
    MatchesSearch(searchTerm, u) && MatchesRole(filterRole, u) && MatchesStatus(filterStatus, u)
  }

  /** `filteredUsers`: all three tests must pass; the order of `users` is kept. */
  function FilteredUsers(users: seq<User>, searchTerm: string, filterRole: string, filterStatus: string): (rs: seq<User>)
    ensures forall u :: u in rs <==>
      (u in users && MatchesSearch(searchTerm, u) && MatchesRole(filterRole, u) && MatchesStatus(filterStatus, u))
    ensures IsSubsequence(rs, users)
  {
    FilterIsSubsequence(users, (u: User) => UserMatches(searchTerm, filterRole, filterStatus, u));
    Filter(users, (u: User) => UserMatches(searchTerm, filterRole, filterStatus, u))
  }

  /** An empty search with "all" roles and "all" statuses lists every user, in order. */
  lemma DefaultFilterListsAll(users: seq<User>)
    ensures FilteredUsers(users, "", "all", "all") == users
  {
    forall u | u in users ensures UserMatches("", "all", "all", u)
    {
      ContainsIgnoringCaseEmpty(u.username);
    }
    FilterAll(users, (u: User) => UserMatches("", "all", "all", u));
  }

  /** The three stat cards. */
  datatype UserCounts = UserCounts(active: nat, admins: nat, inactive: nat)

  function Counts(users: seq<User>): (c: UserCounts)
    ensures c.active == Count(users, (u: User) => u.isActive)
    ensures c.inactive == Count(users, (u: User) => !u.isActive)
    ensures c.admins == Count(users, (u: User) => u.role == Admin)
    ensures c.active + c.inactive == |users|
    ensures c.admins <= |users|
  {
    CountComplement(users, (u: User) => u.isActive, (u: User) => !u.isActive);
    UserCounts(Count(users, (u: User) => u.isActive), Count(users, (u: User) => u.role == Admin),
               Count(users, (u: User) => !u.isActive))
  }

  datatype Toggle = Activate | Deactivate

  /** The row button: an active user can be deactivated and an inactive one activated. */
  function ToggleFor(u: User): (t: Toggle)
    ensures t == Deactivate <==> u.isActive
    ensures t == Activate <==> !u.isActive
  {
    if u.isActive then Deactivate else Activate
  }
}
